=== FILE: README.md ===
# Global styles, the i18n text-domain rule and small editor helpers, in Dafny

This project models a slice of the Gutenberg plugin for WordPress and proves properties of that slice:

- **Global styles on the server** (lib/global-styles.php):
  - the three style layers (core, theme, user) are combined with `array_replace_recursive`;
  - derived heading tokens are generated into `typography`;
  - the tree is flattened into `--wp--…` CSS custom properties;
  - the resolver prints them as one `:root` rule;
  - the enqueue step, the two body-class filters and the editor-settings filter are modelled too.
- **Global styles in the editor** (packages/global-styles):
  - `toCase` / `toCamelCase` key conversion;
  - the two versions of the `useGlobalStyles` hook: provider.js with live setters, and the older store.js;
  - the `setColor` / `setTypography` setters and what a written record does to the next render;
  - `flattenObject` and `compileStyles`, the effect that writes the `<style>` element, and the `wp-gs` environment class;
  - `toPx`, `fromPx` and `isEditSite`.
- **The `i18n-text-domain` eslint rule**: its decision for one call expression, the three autofixes and what re-linting a fixed call gives. Also `TRANSLATION_FUNCTIONS` and `getTranslateStrings` from the plugin's utils.
- **`getNextTabbable`**: focus moves with wrap-around.
- **`QueryControls`**: which controls render, the `orderBy/order` select value, and which callbacks a selection fires.
- **lib/compat.php**: the `flex-basis` safe-style filter, and the `pre_render_block` shim that renders a block tree with block context.

Data are immutable ordered maps: sequences of key/value pairs, in insertion order, with string keys (`OrderedMap`). One `Set` (assign in place, or append) and one `Merge` (a fold of `Set`) serve three things:

- PHP's `$a[$k] = $v` and `array_merge` on string keys;
- JavaScript's property assignment;
- object spread.

A style tree is `Node = Leaf(Scalar) | Branch(Map<Node>)` (`StyleTree`).

Everything the code calls but cannot be computed here is a function parameter:

- lodash `camelCase`/`kebabCase`;
- floating-point formatting (`toFixed`, `round`, `pow`, how a float prints);
- the block registry, render callbacks and WordPress filters.

Facts about the environment are plain parameters: theme support, the current screen, `window.location.search`, the decoded user record.

A thrown error is `None`. Examples are JSON syntax errors, reading a property of `null`, and PHP type errors in arithmetic on arrays or on strings that are not numbers.

## Model

| member | source | states |
|---|---|---|
| PhpMerge.ReplaceRecursiveLookup | lib/global-styles.php:243-247 | For `array_replace_recursive`, each key of the replacement gets the replaced value: two arrays merge recursively, anything else is overwritten. A key found only in the base keeps its value. |
| PhpMerge.ReplaceRecursiveKeys | lib/global-styles.php:243-247 | The base's keys stay first and in order. The result's keys are exactly the base's keys plus the replacement's keys. |
| PhpMerge.Layers | lib/global-styles.php:243-247 | Combining core, theme and user yields a proper tree (each key once at every depth) holding exactly their keys. Empty theme and user layers give core back. |
| PhpMerge.LayersUserLeafWins | lib/global-styles.php:243-247 | A scalar in the user layer at any path is the resolved value at that path, whatever theme and core hold there. |
| PhpMerge.LayersThemeLeafWins | lib/global-styles.php:243-247 | A scalar in the theme layer at any path is the resolved value at that path, whatever core holds there, as long as the user layer has no scalar on the way there and nothing at the path. |
| PhpMerge.LayersKeepsEarlier | lib/global-styles.php:243-247 | A top-level key the user layer lacks keeps the value that theme-over-core gives it. |
| PhpMerge.BaseStyles | lib/global-styles.php:360-363 | The editor's base is a shallow `array_merge`: a theme key replaces the core key as a whole. |
| PhpMerge.ShallowAndRecursiveDiffer | lib/global-styles.php:360-363 | On a concrete `color` group, the shallow merge loses a core field that the resolver's recursive merge keeps. |
| PhpGenerate.Round2 | lib/global-styles.php:173-175 | `round($x, 2)` lands on a hundredth within 0.005 of its input and keeps the sign of a non-negative input. |
| PhpGenerate.Trunc | lib/global-styles.php:184-186 | `intval` of a float truncates toward zero. |
| PhpGenerate.PhpNumber | lib/global-styles.php:210-213 | Reading a typography value as a number fails exactly when it is an array or a string the arithmetic rejects. A missing value reads as 0, and a number as itself. |
| PhpGenerate.HeadingEntriesShape | lib/global-styles.php:215-229 | The generated entries are exactly the eight heading tokens, in order and each once, all scalars. The six font sizes end in "px". |
| PhpGenerate.HeadingFails | lib/global-styles.php:210-213 | Generation fails exactly when reading the inputs raises an error, or when the line height, scale or weight is not a number to PHP. The read raises an error when `typography` is a string whose offset PHP rejects (PHP 8). Not a number means an array, or a string the arithmetic rejects (under PHP 8, a non-numeric string such as "normal"). |
| PhpGenerate.HeadingFailsPhp7 | lib/global-styles.php:210-213 | Under PHP 7, every string reads as a number and a string offset reads the first character. There, generation fails exactly when the line height, scale or weight is an array. |
| PhpGenerate.HeadingOfStringTypography | lib/global-styles.php:210-213 | Under PHP 7, where the string offset of "5" reads its first character, a string `typography` of "5" gives every input as "5". The heading line height is then 4. |
| PhpGenerate.HeadingWeightOfInteger | lib/global-styles.php:184-186 | For a whole-number weight `w`, the heading weight is `floor(3w/2)` (400 gives 600). |
| PhpGenerate.HeadingLineHeight | lib/global-styles.php:173-175 | The heading line height is within 0.005 of 0.8 times the line height. For 1.5 it is exactly 1.2. |
| PhpGenerate.FontBaseOfPixels | lib/global-styles.php:197-199 | A base size written as whole pixels (`"16px"`) is read as that integer when it lies in the 64-bit PHP integer range. Beyond it, the base is the nearer bound (`PHP_INT_MAX` for "99999999999999999999px"). |
| PhpGenerate.WriteGroup | lib/global-styles.php:215-229 | Writing one group recursively replaces or adds that group's entries. Every other top-level key and every other group entry is untouched, and key order is kept. |
| PhpGenerate.GenerateStyles | lib/global-styles.php:209-231 | `generate_styles` fails iff reading its inputs fails, as `HeadingFails` states: a rejected string offset, or a line height, scale or weight that is not a number to PHP. Otherwise `typography` holds the eight tokens over its previous entries, and everything else is unchanged. |
| PhpCssVars.SanitizeKeySpec | lib/global-styles.php:31 | The key sanitiser changes every `/` to `-` and nothing else. |
| PhpCssVars.CssVarsFromKeys | lib/global-styles.php:28-44 | The flattened names are exactly the full names (prefix, keys joined by the token) of the tree's scalars. |
| PhpCssVars.CssVarsFromDistinct | lib/global-styles.php:28-44 | The flattened map never holds a name twice. |
| PhpCssVars.CssVarsExact | lib/global-styles.php:28-44 | When full names do not collide, flattening lists every scalar once, depth first, in document order. |
| PhpCssVars.LeavesPrefix | lib/global-styles.php:31-34 | Every property name starts with the prefix. |
| PhpCssVars.LeavesNoSlash | lib/global-styles.php:31 | No property name contains `/` when the prefix and token contain none. |
| PhpCssVars.NestedLeafNamed | lib/global-styles.php:31-40 | A scalar at `group.key` is declared as prefix + group + token + key. |
| PhpCssVars.SlashCollision | lib/global-styles.php:31-40 | Keys `a/b` and `a-b` collide: the later value overwrites the earlier one and one property remains. |
| PhpResolver.Lines | lib/global-styles.php:259-261 | One declaration line per variable, in order, of the form tab, name, `: `, value, `;`. |
| PhpResolver.RuleLines | lib/global-styles.php:258-262 | Split at line breaks, the rule is `:root {`, one declaration per variable in order, then `}`. |
| PhpResolver.ResolvedVars | lib/global-styles.php:249-253 | The resolved variables fail iff generation fails. Otherwise no name appears twice. |
| PhpResolver.Resolver | lib/global-styles.php:240-265 | The resolver fails exactly when heading generation fails on the combined layers. |
| PhpResolver.BuildRule | lib/global-styles.php:258-262 | The loop that appends one line per variable builds exactly the rule: the opening line, the declarations, the closing brace. |
| PhpResolver.ResolveCss | lib/global-styles.php:240-265 | The resolver with its early return gives the same result as the rule definition. |
| PhpResolver.ResolverDeclaresHeadings | lib/global-styles.php:249-253 | Whenever resolution succeeds, each of the eight heading tokens is declared as `--wp--typography--<token>`. |
| PhpResolver.ResolverNeverEmpty | lib/global-styles.php:254-256 | The empty-variables early return is never taken: a successful resolution is always a full rule. |
| PhpResolver.EnqueueAssets | lib/global-styles.php:281-294 | Nothing is enqueued iff there is no theme support. A fatal error happens iff generation fails. An enqueued inline style is the resolver's non-empty rule. |
| PhpResolver.EnqueueAssetsEditor | lib/global-styles.php:271-275 | Outside the site editor nothing is enqueued. Inside it, the result is the enqueue step's. |
| PhpResolver.BodyClassFrontEnd | lib/global-styles.php:302-308 | With theme support `wp-gs` is appended after the existing classes. Without it, the classes are unchanged. |
| PhpResolver.BodyClassEditor | lib/global-styles.php:316-325 | The class string changes iff there is theme support and this is the site editor, and then only by the suffix ` wp-gs`. |
| PhpResolver.Settings | lib/global-styles.php:350-368 | In the site editor with support, the user entity id and the shallow base are set, every other setting is kept and key order is preserved. Otherwise the settings pass through. |
| CaseTree.ToCaseWellFormed | packages/global-styles/src/provider.js:39-58 | Whatever the input, the converted tree has each key once at every depth. |
| CaseTree.ToCaseKeys | packages/global-styles/src/provider.js:44-56 | A name is present after conversion iff it is the conversion of a name present before. |
| CaseTree.ToCaseExact | packages/global-styles/src/provider.js:39-58 | When the transform keeps names apart, conversion renames in place at every depth: same order, same scalars. |
| CaseTree.ToCaseRoundTrip | packages/global-styles/src/provider.js:39-58 | Converting with `f` and back with `g` restores a well-formed tree whose names `g` maps back. |
| CaseTree.ToCaseCollision | packages/global-styles/src/provider.js:48-55 | Two names that convert alike collapse into one entry, at the first one's position, holding the later value. |
| JsUtils.ToPx | packages/global-styles/src/utils.js:5-7 | `toPx` appends "px". |
| JsUtils.FromPxToPx | packages/global-styles/src/utils.js:9-11 | `fromPx(toPx(n)) == n` for every integer `n`. |
| JsUtils.FromPxFirstOnly | packages/global-styles/src/utils.js:9-11 | Only the first "px" is removed: "1px2px" does not read as a number. |
| JsUtils.IsEditSite | packages/global-styles/src/utils.js:1-3 | True iff the query string contains `page=gutenberg-edit-site`. |
| JsStyles.FontSizesHeadingShape | packages/global-styles/src/provider.js:174-187 | The six sizes sit under `fontSizeHeading1..6`, in order, and each is a string ending in "px". |
| JsStyles.Typography | packages/global-styles/src/provider.js:174-175 | The generators succeed iff `typography` is an object whose `fontSize` is a string. |
| JsStyles.WithGenerated | packages/global-styles/src/provider.js:93-101 | Rebuilding `typography` keeps every other top-level domain and the key order, and leaves `typography` an object. |
| JsStyles.WithGeneratedTypography | packages/global-styles/src/provider.js:95-100 | Inside `typography` a generated key replaces a prior key of the same name. Every other prior key keeps its value. |
| JsStyles.ContextValueContents | packages/global-styles/src/provider.js:149-153 | The context value holds the style domains first, then the given `setColor` and `setTypography` setters. Every other key maps to its style. |
| Provider.GeneratedShape | packages/global-styles/src/provider.js:162-187 | The generated object has exactly the eight keys (six sizes, line height, weight), all strings. The sizes end in "px". |
| Provider.GeneratedHasKey | packages/global-styles/src/provider.js:93-101 | A key is generated iff it is one of the eight generated keys. |
| Provider.UserStyles | packages/global-styles/src/provider.js:77-79 | `userStyles` is `{}` for an empty record, and parsing fails iff the content is not JSON. The parsed styles are a proper tree. |
| Provider.DomainMergeLookup | packages/global-styles/src/provider.js:80-89 | In a merged domain, the user's value wins and every other base key stays. |
| Provider.MergedStyles | packages/global-styles/src/provider.js:65-90 | The hook throws before generation iff the content is unparsable or is `null`. With an empty record the styles are the base with camelCased keys. With a record, only `color` and `typography` remain. |
| Provider.UseGlobalStylesWithoutRecord | packages/global-styles/src/provider.js:63-101 | With an empty record, every domain other than `typography` of the hook's styles is the base domain with camelCased keys. |
| Provider.UseGlobalStyles | packages/global-styles/src/provider.js:63-101 | The hook's styles exist iff merging succeeds and `typography.fontSize` is a string. Keys and non-typography domains are those of the merged styles. |
| Provider.UseGlobalStylesTypography | packages/global-styles/src/provider.js:93-101 | Inside `typography` the generated keys hold strings (sizes ending in "px"). Every other key keeps its merged value. |
| Provider.MergedStylesDomain | packages/global-styles/src/provider.js:80-89 | Within `color` and `typography` the user's value beats the base's. |
| Provider.UseGlobalStylesUserColor | packages/global-styles/src/provider.js:80-84 | With a record, the styles hold just `color` and `typography`, and a user color wins over the base color. |
| Provider.UseGlobalStylesUserTypography | packages/global-styles/src/provider.js:85-88 | A user typography value wins over the base, unless the generators overwrite its key. |
| Provider.SetColor | packages/global-styles/src/provider.js:110-127 | `setColor` fails iff `userStyles` is `null`. Otherwise it writes a proper object tree. |
| Provider.SetTypography | packages/global-styles/src/provider.js:129-146 | `setTypography` fails iff `userStyles` is `null`. Otherwise it writes a proper object tree. |
| Provider.PayloadWellFormed | packages/global-styles/src/provider.js:114-121 | Each payload copies one user domain and merges the new values over the other. |
| Provider.SetColorTakesEffect | packages/global-styles/src/provider.js:110-127 | After `setColor`, reloading the record gives the payload back as `userStyles`, when camelCase undoes kebabCase on its names. Every new color then shows in the next styles. |
| Provider.SetTypographyTakesEffect | packages/global-styles/src/provider.js:129-146 | After `setTypography`, every new value that is not a generated key shows in the next styles. |
| Provider.RenderedCss | packages/global-styles/src/provider.js:104 | A stylesheet is rendered iff the hook's styles exist. |
| Store.GeneratedShape | packages/global-styles/src/store.js:114-128 | The older generators write `fontSize` back unchanged, then six px sizes and the line height, all strings. |
| Store.GeneratedHasKey | packages/global-styles/src/store.js:84-91 | A key is generated iff it is one of the eight generated keys. |
| Store.MergedStyles | packages/global-styles/src/store.js:61-81 | The older hook throws before generation iff the content is unparsable. It never throws on `null` content. With an empty record, the styles are the base styles with camelCase keys. |
| Store.MergedStylesLookup | packages/global-styles/src/store.js:76-81 | A top-level user domain replaces the base domain as a whole. |
| Store.UseGlobalStyles | packages/global-styles/src/store.js:60-91 | The styles exist iff merging succeeds and `typography.fontSize` is a string. Every domain other than `typography` is the merged one. |
| Store.UseGlobalStylesTypography | packages/global-styles/src/store.js:84-91 | Inside `typography` the sizes and line height are added, the sizes ending in "px". Every other key keeps its value. |
| Store.UseGlobalStylesFontSizeAndWeight | packages/global-styles/src/store.js:119-120 | `fontSize` keeps its value, and no heading font weight is generated. |
| Store.RenderedCss | packages/global-styles/src/store.js:94 | A stylesheet is rendered iff the older hook's styles exist, so it fails exactly when the hook throws. |
| Store.SettersChangeNothing | packages/global-styles/src/store.js:65-66 | Whatever new styles `setColor` or `setTypography` is handed, the hook's next styles and stylesheet are the same as before. |
| Store.ContextValueShape | packages/global-styles/src/store.js:97-101 | The older hook returns the styles followed by `setColor` and `setTypography`, both of which do nothing. |
| Renderer.FlattenNotNull | packages/global-styles/src/renderer.js:59-65 | `null` never reaches the flattened styles, at any depth. |
| Renderer.FlattenExact | packages/global-styles/src/renderer.js:53-71 | Without name clashes, flattening lists the non-null leaves in document order, with nested names `i + token + kebabCase(x)`. |
| Renderer.FlattenCollision | packages/global-styles/src/renderer.js:64-67 | A top-level `color--text` and a nested `color.text` collapse into one entry holding the later value. |
| Renderer.DeclarationsMembership | packages/global-styles/src/renderer.js:79-85 | A declaration appears iff some truthy flattened value produces it. Empty strings, zero and `false` are skipped. |
| Renderer.DeclarationsAppend | packages/global-styles/src/renderer.js:79-85 | Declarations of concatenated maps are the concatenated declarations. |
| Renderer.CompileStylesLines | packages/global-styles/src/renderer.js:73-93 | Split at line breaks, the stylesheet is `:root {`, the declarations, `}` and the editor background rule. |
| Renderer.Compile | packages/global-styles/src/renderer.js:76-92 | The loop that pushes one line per truthy value builds exactly the stylesheet. |
| Renderer.CompileExample | packages/global-styles/src/renderer.js:73-93 | A nested `color.background` is declared as `--wp--color--background` and an empty `color.text` is left out. |
| Renderer.FindById | packages/global-styles/src/renderer.js:20-21 | `getElementById` gives the first element with the id, or none. |
| Renderer.ApplyStyles | packages/global-styles/src/renderer.js:19-32 | After the effect, the style element exists and holds the stylesheet. It was appended only if missing, and every other element is unchanged. |
| Renderer.ApplyStylesLastWins | packages/global-styles/src/renderer.js:19-32 | Rendering twice is rendering the second stylesheet once: no second element is added. |
| Renderer.AddEnvironmentClass | packages/global-styles/src/renderer.js:46-48 | `wp-gs` is in the class list afterwards. Earlier classes are kept, and nothing is added when it was already there. |
| Renderer.AddEnvironmentClassIdempotent | packages/global-styles/src/renderer.js:46-48 | Adding the environment class twice is adding it once. |
| EslintUtils.StringArgCount | packages/eslint-plugin/utils/index.js:34-44 | The translation functions are exactly `__`, `_x`, `_n`, `_nx`. The first two take one string, the plural forms two. |
| EslintUtils.TranslateStrings | packages/eslint-plugin/utils/index.js:34-53 | The result is undefined iff the name is not a translation function. At most the leading string arguments are used. |
| EslintUtils.TranslateStringsMembership | packages/eslint-plugin/utils/index.js:34-53 | A string is produced iff it is the value of a literal among the leading string arguments. Context, count and domain never contribute. |
| EslintUtils.LiteralValuesAllLiteral | packages/eslint-plugin/utils/index.js:50-52 | When every argument is a literal, all their values are kept, in order. |
| I18nTextDomain.DomainIndex | packages/eslint-plugin/rules/i18n-text-domain.js:13-26 | Only translation functions have a domain argument, and it comes after the translatable strings. |
| I18nTextDomain.GetTextDomain | packages/eslint-plugin/rules/i18n-text-domain.js:13-26 | The domain is found iff the name is a translation function and the call has that argument, and then it is that argument. |
| I18nTextDomain.Check | packages/eslint-plugin/rules/i18n-text-domain.js:66-139 | Other callees are never reported. Linting throws exactly for a translation call with no arguments, the default domain not allowed, and exactly one allowed domain: building the fix reads the missing last argument. Only the unnecessary-default report can be fixed without exactly one allowed domain, and an invalid type is never fixed. |
| I18nTextDomain.CheckMissing | packages/eslint-plugin/rules/i18n-text-domain.js:74-91 | A missing domain passes iff the default domain is allowed. Otherwise linting throws iff the call has no arguments and the report would be fixable. In every other case the domain is reported as missing, fixable iff exactly one domain is allowed. |
| I18nTextDomain.CheckNoArguments | packages/eslint-plugin/rules/i18n-text-domain.js:76-88 | `__()` with the default domain not allowed throws when exactly one domain is allowed, and is reported with no fix when none is. |
| I18nTextDomain.CheckInvalidType | packages/eslint-plugin/rules/i18n-text-domain.js:93-101 | A non-literal domain is reported as an invalid type, with no fix. |
| I18nTextDomain.CheckLiteral | packages/eslint-plugin/rules/i18n-text-domain.js:103 | A literal domain passes iff it is one of the allowed domains. |
| I18nTextDomain.CheckUnnecessaryDefault | packages/eslint-plugin/rules/i18n-text-domain.js:104-120 | When the default domain is allowed, a literal `'default'` is unnecessary. The fix removes from the end of the previous argument to the end of the domain. |
| I18nTextDomain.CheckInvalidValue | packages/eslint-plugin/rules/i18n-text-domain.js:123-139 | Any other literal is an invalid value, reported with its value. The fix, present iff exactly one domain is allowed, replaces the text between the quotes. |
| I18nTextDomain.FixInvalidValueSettles | packages/eslint-plugin/rules/i18n-text-domain.js:123-129 | When the domain is a string literal, the call lints clean after the invalid-value fix. |
| I18nTextDomain.FixInvalidValueNonText | packages/eslint-plugin/rules/i18n-text-domain.js:123-139 | A literal domain that is not a string (`__( 'x', 42 )`) is reported as an invalid value. Its fix writes inside the literal's first and last characters, so the fixed source is not a call that can be read back. |
| I18nTextDomain.FixMissingSettles | packages/eslint-plugin/rules/i18n-text-domain.js:76-82 | When only the domain is missing, the inserted domain lands in its place and the call lints clean. |
| I18nTextDomain.FixMissingTooFewArguments | packages/eslint-plugin/rules/i18n-text-domain.js:76-82 | When more than the domain is missing (`_x('text')`), the inserted domain fills an earlier argument and the call is still missing its domain. |
| I18nTextDomain.FixUnnecessaryDefaultSettles | packages/eslint-plugin/rules/i18n-text-domain.js:107-114 | Removing a trailing `'default'` leaves a call that lints clean. |
| NextTabbable.IndexOf | packages/test-utils/src/utils/get-next-tabbable.js:19 | `indexOf` gives the first index holding the element, or -1 iff it is absent. |
| NextTabbable.Next | packages/test-utils/src/utils/get-next-tabbable.js:17-24 | The result is a tabbable element iff there is one. Otherwise it is undefined. |
| NextTabbable.NextAfter | packages/test-utils/src/utils/get-next-tabbable.js:20-23 | Focus moves from index `i < n-1` to `i+1`. |
| NextTabbable.NextWraps | packages/test-utils/src/utils/get-next-tabbable.js:21-22 | From the last element focus wraps to the first. |
| NextTabbable.NextFromOutside | packages/test-utils/src/utils/get-next-tabbable.js:19-22 | When no tabbable element is active, the first one gets focus. |
| NextTabbable.NextRotates | packages/test-utils/src/utils/get-next-tabbable.js:17-24 | Over distinct elements, each element hands focus to the next and the last to the first. |
| NextTabbable.TabAdvances | packages/test-utils/src/utils/get-next-tabbable.js:17-24 | `k` presses from index `i` reach index `i+k` while the end is not passed. |
| NextTabbable.TabFullCycle | packages/test-utils/src/utils/get-next-tabbable.js:17-24 | `n` presses bring focus back to where it started. |
| QueryControls.Controls | packages/components/src/query-controls/index.js:40-118 | Each control renders iff its callback is given. The order select needs both order callbacks, lists the four options, and has the value `orderBy + "/" + order`. The items range uses the given `minItems` and `maxItems`. |
| QueryControls.DefaultBounds | packages/components/src/query-controls/index.js:13-14 | Without explicit bounds, the item range is 1 to 100. |
| QueryControls.OnSelect | packages/components/src/query-controls/index.js:72-80 | A selection fires at most two callbacks. An order callback comes first and carries a changed order. An orderBy callback carries a changed orderBy. |
| QueryControls.SelectValueRoundTrip | packages/components/src/query-controls/index.js:51 | The value `orderBy/order` splits back into both parts when neither contains `/`. |
| QueryControls.OrderOptionsRoundTrip | packages/components/src/query-controls/index.js:52-71 | Every listed option is the select value of its own two parts. |
| QueryControls.OnSelectFires | packages/components/src/query-controls/index.js:72-80 | `onOrderChange` fires iff the order changed, and `onOrderByChange` iff the orderBy changed. When both fire, the order callback goes first. |
| QueryControls.ReselectIsQuiet | packages/components/src/query-controls/index.js:72-80 | Re-selecting the current value fires nothing. |
| Compat.SafeStyleCss | lib/compat.php:26-30 | `flex-basis` is appended, and every earlier entry stays in order. |
| Compat.SafeStyleCssAllows | lib/compat.php:26-30 | A property is allowed afterwards iff it was allowed before or is `flex-basis`. |
| Compat.Prepared | lib/compat.php:161-163 | The callback and the filter receive the block with `attrs` replaced by an empty array when it is not an array and kept otherwise. Its name, inner blocks and inner content are as parsed. |
| Compat.OwnContextLookup | lib/compat.php:168-176 | A block's context holds exactly the used attributes that some listed provider sets, each with the last such provider's value. A scalar spec counts as a one-element list. |
| Compat.NextContextLookup | lib/compat.php:178-187 | Children see `[blockName][a]` for each attribute flagged `context` and set on the block. Otherwise they see what came in, and other providers' entries are untouched. |
| Compat.Unregistered | lib/compat.php:165-167 | An unregistered block gets an empty context of its own and passes the incoming context on unchanged. |
| Compat.RenderRestoresPost | lib/compat.php:199-205 | Rendering leaves the global post as it found it, whatever the render callbacks at any depth do to it. |
| Compat.RenderContent | lib/compat.php:190-207 | The content is the string chunks in order, each placeholder replaced by the next inner block's render, or by the missing block's render once the inner blocks run out. Only a dynamic block's callback is called, and the `render_block` filter sees the result. |
| Compat.RenderMissingBlock | lib/compat.php:150-207 | Rendering the `null` read past the last inner block gives the `render_block` filter of the empty string, for a block with no name and empty attributes, and leaves the post alone. |
| Compat.RenderMissingInner | lib/compat.php:190-197 | A placeholder with no inner block left does not stop the render: `a`, a placeholder and `b` give `a`, the filtered empty string, then `b`. |

## Left out

- File, database and WordPress plumbing: reading the JSON files and the user post, creating or registering the post type, `has_theme_support`, `get_current_screen`, and hook registration. These are I/O; their results are parameters.
- Floating-point arithmetic. `pow`, printing a float, `toFixed`, and how `*` and `pow` read a string as a number are opaque function parameters (`PhpOps`, `JsOps`). `round(…, 2)` and `intval` are computed on exact reals and integers. `intval` on text saturates at the 64-bit integer bounds, as PHP's does, and reads text as PHP did before 7.1 (next line). `intval` of a float outside those bounds is not modelled (the `PhpGenerate.Trunc` line below).
- PhpGenerate.GenerateStyles: the font size goes through `Numbers.Intval`, which reads leading white space, a sign and digits, as PHP did before 7.1. Since PHP 7.1, `intval` also reads a decimal point and an exponent, so a font size of "1e1px" gives a base of 10 there and 1 here. The products `lh * 0.8`, `fw * 1.5` and `pow(...) * base` are exact products of reals, not doubles. A result that double rounding would move to another hundredth, or to another integer weight, is not modelled. Neither is a heading weight whose 1.5 multiple lies beyond the 64-bit integer range (see `PhpGenerate.Trunc`).
- PhpGenerate.Trunc: truncation toward zero is stated for every real. PHP's float-to-integer conversion outside the 64-bit range gives no truncated value: the PHP manual calls the result undefined, and 64-bit builds wrap it modulo 2^64.
- Numbers.ToNumber: integer text is read as an exact unbounded integer. JavaScript's `+s` gives a double, so text for an integer beyond 2^53 reads as the nearest double there (`+"9007199254740993"` is 9007199254740992). `JsUtils.FromPx` inherits this.
- lodash `camelCase` and `kebabCase` are uninterpreted `string -> string` parameters. Round-trip facts are proved under the hypothesis that one undoes the other on the names involved.
- JavaScript and PHP integer-like keys: engines put them first, and `array_merge` renumbers them. All keys are treated as strings in insertion order.
- Spreading a string into an object. JavaScript gives one key per character (`"0"`, `"1"`, …), but `Spread` of a scalar is empty here, because those integer-like keys would also need the engines' key order (see the line above). The two lines below give the inputs on which the model differs from the code.
- Provider.DomainMergeLookup: a user record whose `color` is the string `"ab"` gives `color` the extra keys `"0"` and `"1"` in provider.js:80-88, and the stylesheet then declares `--wp--color--0: a;`. The model keeps only the base colors. The same holds for a string `typography`, over which the generators still run when the base `fontSize` is a string.
- Store.MergedStylesLookup: user content that is the string `"ab"` adds the top-level keys `"0"` and `"1"` in store.js:78-80. The model adds nothing.
- React rendering, hooks, effects timing, `requestAnimationFrame`, `useSelect`/`useDispatch`. The hooks are modelled as functions of their inputs; the DOM is a sequence of elements, with `<head>` as its end.
- `JSON.stringify` of the setters' payload, and parsing it back, are the identity on trees.
- The sprintf placeholder regular expressions in the eslint utils, and the eslint rules other than `i18n-text-domain`.
- Source positions in the eslint model: argument ranges are numbers carried along, and applying a fix re-reads the arguments structurally rather than re-parsing text.
- `QueryControls` labels, translations, mobile props, the category select and the token field's own behaviour. Only which controls appear and the order select's logic are modelled.
- QueryControls.Controls: `order` and `orderBy` are taken as strings. With an `undefined` prop the select would show the text "undefined".
- In compat.php, the `render_block_data` filter is the identity, because an arbitrary filter could change the inner blocks and stop the recursion from terminating. `gutenberg_get_post_from_context`, the DOMRect polyfill and the filter registration are also left out.
- Compat.RenderMissingBlock: the `null` read past the last inner block becomes an array holding only `attrs` and `context`. The model's block also carries an empty name, inner blocks and inner content, and the warnings PHP prints on the way are not modelled.
- Compat.RenderContent: what the render callback itself returns is a parameter. The contract states where its result goes, not its content.
- Provider.SetTypographyTakesEffect: a new value under one of the eight generated keys is overwritten by the generators on the next render, so the contract covers the other keys only.

## Notes on the code

- provider.js throws on `null` record content: reading `userStyles.color` fails. store.js spreads it harmlessly.
- The heading weight is a string from `toFixed(2)` in provider.js (`"600.00"`), where PHP stores an integer (600).
- store.js writes `fontSize` back into `typography` and never generates a heading weight.
- PHP's resolver returns an empty string when there are no variables, but generation always adds eight, so that branch is never taken (`PhpResolver.ResolverNeverEmpty`).
- `flattenObject` and `get_css_vars` let distinct paths collide on one property name (`Renderer.FlattenCollision`, `PhpCssVars.SlashCollision`), and the later value silently wins.
- The invalid-value autofix writes between the first and last characters of the domain literal. For a literal that is not a string, such as `42`, it produces `4d2`, which does not parse (`I18nTextDomain.FixInvalidValueNonText`).
- The missing-domain autofix appends after the last argument. For a call missing more than its domain, the fixed call is still reported (`I18nTextDomain.FixMissingTooFewArguments`).
- For a call with no arguments, the missing-domain autofix inserts after `args[-1]`, which is `undefined`. With exactly one allowed domain, ESLint builds that fix while making the report, so linting the file throws (`I18nTextDomain.CheckNoArguments`).

=== FILE: case_tree.dfy ===
/**
 The recursive key-case conversion of packages/global-styles/src/provider.js
 (`toCase`) and store.js (`toCamelCase`, the same walk with `camelCase`
 fixed). The case transform itself (lodash `camelCase` / `kebabCase`) is a
 parameter.
 */
module CaseTree {
  import opened OrderedMap
  import opened StyleTree

  /** `toCase(tree, transformCase)`: a scalar (not `instanceof Object`) is
      returned as it is; an object is rebuilt key by key. */
  function ToCase(n: Node, f: string -> string): (r: Node)
    ensures n.Leaf? <==> r.Leaf?
    ensures n.Leaf? ==> r == n
    decreases n, 1
  {
    match n
    case Leaf(_) => n
    case Branch(kids) => Branch(ToCaseFrom(kids, f, []))
  }

  /** The `for … in` loop from the partly built `newTree` onward: each
      converted key is assigned, so two keys that convert alike end up as
      one entry, at the first one's position, holding the later value. */
  function ToCaseFrom(t: Tree, f: string -> string, acc: Tree): Tree
    decreases t, 0
  {
    if |t| == 0 then acc
    else ToCaseFrom(t[1..], f, Set(acc, f(t[0].key), ToCase(t[0].val, f)))
  }

  /** Whatever the input, the converted tree is a proper object at every
      depth: each key once. */
  lemma {:induction false} ToCaseWellFormed(n: Node, f: string -> string)
    ensures WellFormed(ToCase(n, f))
    decreases n, 1
  {
    if n.Branch? {
      ToCaseFromWellFormed(n.kids, f, []);
    }
  }

  lemma {:induction false} ToCaseFromWellFormed(t: Tree, f: string -> string, acc: Tree)
    requires WellFormedTree(acc)
    ensures WellFormedTree(ToCaseFrom(t, f, acc))
    decreases t, 0
  {
    if |t| > 0 {
      ToCaseWellFormed(t[0].val, f);
      WellFormedSet(acc, f(t[0].key), ToCase(t[0].val, f));
      ToCaseFromWellFormed(t[1..], f, Set(acc, f(t[0].key), ToCase(t[0].val, f)));
    }
  }

  /** Reference: every key converted in place, at every depth, nothing merged. */
  function Renamed(t: Tree, f: string -> string): (r: Tree)
    ensures |r| == |t|
    decreases t, 0
  {
    if |t| == 0 then [] else [Pair(f(t[0].key), RenamedNode(t[0].val, f))] + Renamed(t[1..], f)
  }

  function RenamedNode(n: Node, f: string -> string): Node
    decreases n, 1
  {
    match n
    case Leaf(_) => n
    case Branch(kids) => Branch(Renamed(kids, f))
  }

  lemma {:induction false} RenamedAt(t: Tree, f: string -> string, i: int)
    requires 0 <= i < |t|
    ensures Renamed(t, f)[i] == Pair(f(t[i].key), RenamedNode(t[i].val, f))
  {
    if i > 0 {
      RenamedAt(t[1..], f, i - 1);
    }
  }

  /** The transform keeps every key of every mapping apart. */
  predicate Injective(n: Node, f: string -> string)
    decreases n, 1
  {
    match n
    case Leaf(_) => true
    case Branch(kids) => InjectiveTree(kids, f)
  }

  predicate InjectiveTree(t: Tree, f: string -> string)
    decreases t, 0
  {
    (forall i, j :: 0 <= i < j < |t| ==> f(t[i].key) != f(t[j].key)) &&
    (forall i :: 0 <= i < |t| ==> Injective(t[i].val, f))
  }

  lemma InjectiveTail(t: Tree, f: string -> string)
    requires |t| > 0 && InjectiveTree(t, f)
    ensures InjectiveTree(t[1..], f)
  {
    assert forall i :: 0 <= i < |t[1..]| ==> t[1..][i] == t[i + 1];
  }

  lemma RenamedDistinct(t: Tree, f: string -> string)
    requires InjectiveTree(t, f)
    ensures Distinct(Renamed(t, f))
  {
    var r := Renamed(t, f);
    forall i, j | 0 <= i < j < |r| ensures r[i].key != r[j].key {
      RenamedAt(t, f, i);
      RenamedAt(t, f, j);
    }
  }

  /** The names of the converted mapping are the converted names. */
  lemma {:induction false} ToCaseFromKeys(t: Tree, f: string -> string, acc: Tree, k: string)
    ensures HasKey(ToCaseFrom(t, f, acc), k) <==> HasKey(acc, k) || exists i :: 0 <= i < |t| && f(t[i].key) == k
    decreases |t|
  {
    if |t| > 0 {
      var acc' := Set(acc, f(t[0].key), ToCase(t[0].val, f));
      ToCaseFromKeys(t[1..], f, acc', k);
      SetHasKey(acc, f(t[0].key), ToCase(t[0].val, f), k);
      if exists i :: 0 <= i < |t| && f(t[i].key) == k {
        var i :| 0 <= i < |t| && f(t[i].key) == k;
        if i > 0 {
          assert t[1..][i - 1] == t[i];
        }
      }
      if exists i :: 0 <= i < |t[1..]| && f(t[1..][i].key) == k {
        var i :| 0 <= i < |t[1..]| && f(t[1..][i].key) == k;
        assert t[i + 1] == t[1..][i];
      }
    }
  }

  /** `toCase` applies the transform to every own key: a name is present
      after conversion iff it is the conversion of a name present before. */
  lemma ToCaseKeys(t: Tree, f: string -> string, k: string)
    ensures HasKey(ToCase(Branch(t), f).kids, k) <==> exists i :: 0 <= i < |t| && f(t[i].key) == k
  {
    ToCaseFromKeys(t, f, [], k);
  }

  /** When the transform keeps names apart, converting is renaming in
      place at every depth: same order, same scalars. */
  lemma {:induction false} ToCaseExact(n: Node, f: string -> string)
    requires Injective(n, f)
    ensures ToCase(n, f) == RenamedNode(n, f)
    decreases n, 1
  {
    if n.Branch? {
      RenamedDistinct(n.kids, f);
      assert [] + Renamed(n.kids, f) == Renamed(n.kids, f);
      ToCaseFromExact(n.kids, f, []);
    }
  }

  lemma {:induction false} ToCaseFromExact(t: Tree, f: string -> string, acc: Tree)
    requires InjectiveTree(t, f)
    requires Distinct(acc + Renamed(t, f))
    ensures ToCaseFrom(t, f, acc) == acc + Renamed(t, f)
    decreases t, 0
  {
    if |t| > 0 {
      var here := [Pair(f(t[0].key), RenamedNode(t[0].val, f))];
      var rest := Renamed(t[1..], f);
      assert acc + Renamed(t, f) == (acc + here) + rest;
      DistinctAppend(acc + here, rest);
      DistinctAppend(acc, here);
      assert here[0].key == f(t[0].key);
      ToCaseExact(t[0].val, f);
      SetFresh(acc, f(t[0].key), ToCase(t[0].val, f));
      InjectiveTail(t, f);
      ToCaseFromExact(t[1..], f, acc + here);
    }
  }

  /** `g` undoes `f` on every name of the tree, at every depth. */
  predicate Undoes(n: Node, f: string -> string, g: string -> string)
    decreases n, 1
  {
    match n
    case Leaf(_) => true
    case Branch(kids) => UndoesTree(kids, f, g)
  }

  predicate UndoesTree(t: Tree, f: string -> string, g: string -> string)
    decreases t, 0
  {
    forall i :: 0 <= i < |t| ==> g(f(t[i].key)) == t[i].key && Undoes(t[i].val, f, g)
  }

  /** Renaming with `f` and then with `g` restores the tree, and the renamed
      tree is again safe to convert with `g`. */
  lemma {:induction false} RenamedRoundTrip(n: Node, f: string -> string, g: string -> string)
    requires WellFormed(n) && Undoes(n, f, g)
    ensures Injective(n, f)
    ensures Injective(RenamedNode(n, f), g)
    ensures RenamedNode(RenamedNode(n, f), g) == n
    decreases n, 1
  {
    if n.Branch? {
      var t := n.kids;
      var r := Renamed(t, f);
      forall i | 0 <= i < |t|
        ensures Injective(t[i].val, f) && Injective(r[i].val, g)
        ensures RenamedNode(r[i].val, g) == t[i].val
      {
        RenamedAt(t, f, i);
        RenamedRoundTrip(t[i].val, f, g);
      }
      forall i, j | 0 <= i < j < |t| ensures f(t[i].key) != f(t[j].key) && g(r[i].key) != g(r[j].key) {
        RenamedAt(t, f, i);
        RenamedAt(t, f, j);
      }
      var back := Renamed(r, g);
      forall i | 0 <= i < |t| ensures back[i] == t[i] {
        RenamedAt(r, g, i);
        RenamedAt(t, f, i);
      }
    }
  }

  /** Converting with `f` and back with `g` restores any well-formed tree
      whose names `g` maps back. */
  lemma ToCaseRoundTrip(n: Node, f: string -> string, g: string -> string)
    requires WellFormed(n) && Undoes(n, f, g)
    ensures ToCase(ToCase(n, f), g) == n
  {
    RenamedRoundTrip(n, f, g);
    ToCaseExact(n, f);
    ToCaseExact(RenamedNode(n, f), g);
  }

  /** Two names that convert alike collapse into one entry holding the
      later value, where the first one stood. */
  lemma ToCaseCollision(k1: string, k2: string, a: Node, b: Node, f: string -> string)
    requires f(k1) == f(k2)
    ensures ToCase(Branch([Pair(k1, a), Pair(k2, b)]), f) == Branch([Pair(f(k1), ToCase(b, f))])
  {
    var t := [Pair(k1, a), Pair(k2, b)];
    var acc := [Pair(f(k1), ToCase(a, f))];
    assert ToCaseFrom(t, f, []) == ToCaseFrom(t[1..], f, acc);
    assert ToCaseFrom(t[1..], f, acc) == ToCaseFrom([], f, Set(acc, f(k2), ToCase(b, f)));
  }
}

=== FILE: compat.dfy ===
/**
 lib/compat.php: the `safe_style_css` filter that allows `flex-basis`, and
 the `pre_render_block` shim that renders a block tree itself so that
 render callbacks receive the block, with block context passed from
 providers to consumers.
 */
module Compat {
  import opened OrderedMap
  import opened StyleTree

  /** `gutenberg_safe_style_css_column_flex_basis`: `$attr[] = 'flex-basis'`. */
  function SafeStyleCss(attr: seq<string>): (r: seq<string>)
    ensures |r| == |attr| + 1
    ensures r[..|attr|] == attr
    ensures r[|attr|] == "flex-basis"
  {
    attr + ["flex-basis"]
  }

  /** Whatever the list held, `flex-basis` is allowed afterwards and every
      property allowed before still is. */
  lemma SafeStyleCssAllows(attr: seq<string>, p: string)
    ensures p in SafeStyleCss(attr) <==> p in attr || p == "flex-basis"
  {
    var r := SafeStyleCss(attr);
    if p in r {
      var i :| 0 <= i < |r| && r[i] == p;
      if i < |attr| {
        assert attr[i] == r[..|attr|][i];
      }
    }
    if p in attr {
      var i :| 0 <= i < |attr| && attr[i] == p;
      assert r[i] == r[..|attr|][i];
    }
  }

  /** One entry of `innerContent`: a string, or the `null` placeholder
      where the next inner block goes. */
  datatype Chunk = Text(s: string) | Slot

  /** A parsed block. `name` is `None` for freeform content; `attrs` is
      `None` when it is not an array. */
  datatype Block = Block(
    name: Option<string>,
    attrs: Option<Map<Node>>,
    innerBlocks: seq<Block>,
    innerContent: seq<Chunk>,
    context: Map<Node>)

  /** How a block type names the providers of one context value: a single
      block name, or a list of them. */
  datatype ContextSpec = OneName(name: string) | Names(names: seq<string>)

  /** A registered block type: the `context` it uses (attribute name to
      providers), its `attributes` with their `context` flag, and
      `is_dynamic()`. */
  datatype BlockType = BlockType(
    usesContext: Option<Map<ContextSpec>>,
    attributes: Option<Map<bool>>,
    dynamic: bool)

  datatype Post = NoPost | PostOf(id: int)

  /** What the shim calls and cannot see: the block registry, each type's
      `prepare_attributes_for_render`, its `render_callback` (which may
      change the global post), and the `render_block` filter. */
  datatype Hooks = Hooks(
    registry: Map<BlockType>,
    prepare: (string, Map<Node>) -> Map<Node>,
    callback: (string, Map<Node>, string, Block, Post) -> (string, Post),
    renderBlock: (string, Block) -> string)

  /** The context map a render receives: provider block name, then
      attribute name. */
  type Context = Map<Map<Node>>

  /** A PHP string used as a condition: `""` and `"0"` are false. */
  predicate TruthyName(name: Option<string>)
  {
    name.Some? && name.value != "" && name.value != "0"
  }

  /** `isset( $m[ $key ] )`: present and not `null`. */
  predicate IsSet(m: Map<Node>, key: string)
  {
    Lookup(m, key).Some? && Lookup(m, key).value != Leaf(Null)
  }

  /** `$context[ $blockName ][ $attribute ]` when it is set. */
  function Provided(context: Context, blockName: string, attribute: string): (r: Option<Node>)
    ensures r.Some? <==> HasKey(context, blockName) && IsSet(Lookup(context, blockName).value, attribute)
    ensures r.Some? ==> r.value != Leaf(Null)
  {
    match Lookup(context, blockName)
    case None => None
    case Some(values) => if IsSet(values, attribute) then Lookup(values, attribute) else None
  }

  /** A scalar provider spec is read as a one-element list. */
  function ProviderNames(spec: ContextSpec): (r: seq<string>)
    ensures spec.OneName? ==> r == [spec.name]
  {
    match spec
    case OneName(n) => [n]
    case Names(ns) => ns
  }

  /** Reference: the value of the last listed provider that sets the attribute. */
  function LastProvider(names: seq<string>, attribute: string, context: Context): Option<Node>
  {
    if |names| == 0 then None
    else
      var later := LastProvider(names[1..], attribute, context);
      if later.Some? then later else Provided(context, names[0], attribute)
  }

  /** The inner loop over provider names: each provider that sets the
      attribute overwrites the value found so far. */
  function Provide(names: seq<string>, attribute: string, context: Context, own: Map<Node>): (r: Map<Node>)
    decreases |names|
  {
    if |names| == 0 then own
    else
      var v := Provided(context, names[0], attribute);
      Provide(names[1..], attribute, context, if v.Some? then Set(own, attribute, v.value) else own)
  }

  lemma {:induction false} ProvideLookup(names: seq<string>, attribute: string, context: Context, own: Map<Node>, k: string)
    ensures Lookup(Provide(names, attribute, context, own), k) ==
              if k == attribute && LastProvider(names, attribute, context).Some?
              then LastProvider(names, attribute, context) else Lookup(own, k)
    decreases |names|
  {
    if |names| > 0 {
      var v := Provided(context, names[0], attribute);
      ProvideLookup(names[1..], attribute, context, if v.Some? then Set(own, attribute, v.value) else own, k);
    }
  }

  /** The outer loop over the type's used context. */
  function ContextFrom(uses: Map<ContextSpec>, context: Context, own: Map<Node>): Map<Node>
    decreases |uses|
  {
    if |uses| == 0 then own
    else ContextFrom(uses[1..], context, Provide(ProviderNames(uses[0].val), uses[0].key, context, own))
  }

  lemma {:induction false} ContextFromLookup(uses: Map<ContextSpec>, context: Context, own: Map<Node>, k: string)
    requires Distinct(uses)
    ensures Lookup(ContextFrom(uses, context, own), k) ==
              if HasKey(uses, k) && LastProvider(ProviderNames(Lookup(uses, k).value), k, context).Some?
              then LastProvider(ProviderNames(Lookup(uses, k).value), k, context) else Lookup(own, k)
    decreases |uses|
  {
    if |uses| > 0 {
      var next := Provide(ProviderNames(uses[0].val), uses[0].key, context, own);
      DistinctTail(uses);
      ContextFromLookup(uses[1..], context, next, k);
      ProvideLookup(ProviderNames(uses[0].val), uses[0].key, context, own, k);
    }
  }

  /** `$block['context']`: the values the block's type uses, read from the
      incoming context. */
  function OwnContext(btype: Option<BlockType>, context: Context): Map<Node>
  {
    if btype.Some? && btype.value.usesContext.Some? then ContextFrom(btype.value.usesContext.value, context, [])
    else []
  }

  /** A block's context holds exactly the used attributes some listed
      provider sets, each with the value of the last such provider; a
      scalar spec is a one-element list. */
  lemma OwnContextLookup(btype: BlockType, context: Context, k: string)
    requires btype.usesContext.Some? && Distinct(btype.usesContext.value)
    ensures var uses := btype.usesContext.value;
            Lookup(OwnContext(Some(btype), context), k) ==
              if HasKey(uses, k) then LastProvider(ProviderNames(Lookup(uses, k).value), k, context) else None
  {
    ContextFromLookup(btype.usesContext.value, context, [], k);
  }

  /** `$next_context[ $blockName ]`, or an empty array when unset. */
  function Provides(next: Context, blockName: string): Map<Node>
  {
    if HasKey(next, blockName) then Lookup(next, blockName).value else []
  }

  /** The loop over the type's attributes: each one flagged `context` and
      set on the block is published under the block's name. */
  function NextFrom(attributes: Map<bool>, blockName: string, attrs: Map<Node>, next: Context): (r: Context)
    ensures forall bn :: bn != blockName ==> Lookup(r, bn) == Lookup(next, bn)
    decreases |attributes|
  {
    if |attributes| == 0 then next
    else
      var a := attributes[0].key;
      var publish := attributes[0].val && IsSet(attrs, a);
      NextFrom(attributes[1..], blockName, attrs,
               if publish then Set(next, blockName, Set(Provides(next, blockName), a, Lookup(attrs, a).value)) else next)
  }

  /** The attribute `a` is flagged to be provided as context. */
  predicate Flagged(attributes: Map<bool>, a: string)
  {
    Lookup(attributes, a) == Some(true)
  }

  lemma {:induction false} NextFromLookup(attributes: Map<bool>, blockName: string, attrs: Map<Node>, next: Context, a: string)
    requires Distinct(attributes)
    ensures Lookup(Provides(NextFrom(attributes, blockName, attrs, next), blockName), a) ==
              if Flagged(attributes, a) && IsSet(attrs, a) then Lookup(attrs, a)
              else Lookup(Provides(next, blockName), a)
    decreases |attributes|
  {
    if |attributes| > 0 {
      var b := attributes[0].key;
      var publish := attributes[0].val && IsSet(attrs, b);
      var next' := if publish then Set(next, blockName, Set(Provides(next, blockName), b, Lookup(attrs, b).value)) else next;
      DistinctTail(attributes);
      NextFromLookup(attributes[1..], blockName, attrs, next', a);
    }
  }

  /** The context handed to the inner blocks. */
  function NextContext(btype: Option<BlockType>, blockName: string, attrs: Map<Node>, context: Context): Context
  {
    if btype.Some? && btype.value.attributes.Some? then NextFrom(btype.value.attributes.value, blockName, attrs, context)
    else context
  }

  /** Children see the incoming context, plus `[blockName][a]` for every
      attribute `a` flagged `context` and set on the block; every other
      provider's entry is untouched. */
  lemma NextContextLookup(btype: BlockType, blockName: string, attrs: Map<Node>, context: Context, a: string, other: string)
    requires btype.attributes.Some? && Distinct(btype.attributes.value)
    requires other != blockName
    ensures var next := NextContext(Some(btype), blockName, attrs, context);
            && Lookup(next, other) == Lookup(context, other)
            && Lookup(Provides(next, blockName), a) ==
                 if Flagged(btype.attributes.value, a) && IsSet(attrs, a) then Lookup(attrs, a)
                 else Lookup(Provides(context, blockName), a)
  {
    NextFromLookup(btype.attributes.value, blockName, attrs, context, a);
  }

  /** The registered type, if the block has a name the registry knows. */
  function TypeOf(h: Hooks, block: Block): Option<BlockType>
  {
    if block.name.Some? then Lookup(h.registry, block.name.value) else None
  }

  /** `$is_dynamic`: a truthy name, a registered type, and `is_dynamic()`. */
  predicate IsDynamic(h: Hooks, block: Block)
  {
    TruthyName(block.name) && TypeOf(h, block).Some? && TypeOf(h, block).value.dynamic
  }

  /** `attrs` that is not an array becomes an empty array. */
  function NormalAttrs(block: Block): (r: Map<Node>)
    ensures block.attrs.None? ==> r == []
    ensures block.attrs.Some? ==> r == block.attrs.value
  {
    if block.attrs.Some? then block.attrs.value else []
  }

  /** The context the inner blocks of `block` are rendered with. */
  function ChildContext(h: Hooks, block: Block, context: Context): Context
  {
    var btype := TypeOf(h, block);
    if btype.Some? then NextContext(btype, block.name.value, NormalAttrs(block), context) else context
  }

  /** The block as the callback and the filter see it: normalised `attrs`
      and its own context. */
  function Prepared(h: Hooks, block: Block, context: Context): (b: Block)
    ensures block.attrs.None? ==> b.attrs == Some([])
    ensures block.attrs.Some? ==> b.attrs == block.attrs
    ensures b.name == block.name && b.innerBlocks == block.innerBlocks && b.innerContent == block.innerContent
  {
    block.(attrs := Some(NormalAttrs(block)), context := OwnContext(TypeOf(h, block), context))
  }

  /** An unregistered block (or one without a name) gets an empty context
      of its own and passes the incoming context on unchanged. */
  lemma Unregistered(h: Hooks, block: Block, context: Context)
    requires TypeOf(h, block).None?
    ensures Prepared(h, block, context).context == []
    ensures ChildContext(h, block, context) == context
  {
  }

  /** What the shim renders for a placeholder with no inner block left:
      `$block['innerBlocks'][ $index++ ]` reads `null` (with a warning), and
      the recursive call on `null` sees no name and no type, normalises
      `attrs` to an empty array, loops over no content (another warning),
      and returns the `render_block` filter of the empty string. */
  const MissingBlock := Block(None, Some([]), [], [], [])

  /** `gutenberg_provide_render_callback_with_block_object` with the
      `render_block_data` filter as the identity: the rendered HTML and the
      global post afterwards. */
  function Render(h: Hooks, block: Block, context: Context, post: Post): (r: (string, Post))
    decreases block, 1
  {
    var prepared := Prepared(h, block, context);
    var (content, after) := RenderChunks(h, block, 0, 0, ChildContext(h, block, context), post, "");
    if IsDynamic(h, block) then
      var name := block.name.value;
      var (html, _) := h.callback(name, h.prepare(name, prepared.attrs.value), content, prepared, after);
      (h.renderBlock(html, prepared), after)
    else (h.renderBlock(content, prepared), after)
  }

  /** The loop over `innerContent` from chunk `i`, with `index` inner
      blocks used so far and `acc` the content so far. */
  function RenderChunks(h: Hooks, block: Block, i: nat, index: nat, next: Context, post: Post, acc: string): (r: (string, Post))
    decreases block, 0, |block.innerContent| - i
  {
    if i >= |block.innerContent| then (acc, post)
    else match block.innerContent[i]
      case Text(s) => RenderChunks(h, block, i + 1, index, next, post, acc + s)
      case Slot =>
        if index >= |block.innerBlocks| then
          RenderChunks(h, block, i + 1, index + 1, next, post, acc + h.renderBlock("", MissingBlock))
        else
          var (html, after) := Render(h, block.innerBlocks[index], next, post);
          RenderChunks(h, block, i + 1, index + 1, next, after, acc + html)
  }

  /** A placeholder past the last inner block gets exactly what rendering
      the missing block gives: the filtered empty string, with the post
      untouched. */
  lemma RenderMissingBlock(h: Hooks, next: Context, post: Post)
    ensures Render(h, MissingBlock, next, post) == (h.renderBlock("", MissingBlock), post)
  {
    assert Prepared(h, MissingBlock, next) == MissingBlock;
  }

  /** Rendering leaves the global post as it found it, whatever the
      render callbacks of the block and its inner blocks do to it. */
  lemma {:induction false} RenderRestoresPost(h: Hooks, block: Block, context: Context, post: Post)
    ensures Render(h, block, context, post).1 == post
    decreases block, 1
  {
    RenderChunksRestorePost(h, block, 0, 0, ChildContext(h, block, context), post, "");
  }

  lemma {:induction false} RenderChunksRestorePost(h: Hooks, block: Block, i: nat, index: nat, next: Context, post: Post, acc: string)
    ensures RenderChunks(h, block, i, index, next, post, acc).1 == post
    decreases block, 0, |block.innerContent| - i
  {
    if i < |block.innerContent| {
      match block.innerContent[i]
      case Text(s) =>
        RenderChunksRestorePost(h, block, i + 1, index, next, post, acc + s);
      case Slot =>
        if index >= |block.innerBlocks| {
          RenderChunksRestorePost(h, block, i + 1, index + 1, next, post, acc + h.renderBlock("", MissingBlock));
        } else {
          var inner := Render(h, block.innerBlocks[index], next, post);
          RenderRestoresPost(h, block.innerBlocks[index], next, post);
          RenderChunksRestorePost(h, block, i + 1, index + 1, next, post, acc + inner.0);
        }
    }
  }

  /** Reference: the chunks in order, each placeholder replaced by the next
      of the given inner renders, and by `missing` once they run out. */
  function Assemble(chunks: seq<Chunk>, inner: seq<string>, missing: string): string
  {
    if |chunks| == 0 then ""
    else match chunks[0]
      case Text(s) => s + Assemble(chunks[1..], inner, missing)
      case Slot =>
        if |inner| == 0 then missing + Assemble(chunks[1..], inner, missing)
        else inner[0] + Assemble(chunks[1..], inner[1..], missing)
  }

  /** The HTML of each inner block, rendered with the same context and post. */
  function InnerHtml(h: Hooks, blocks: seq<Block>, next: Context, post: Post): (r: seq<string>)
    ensures |r| == |blocks|
    ensures forall j :: 0 <= j < |blocks| ==> r[j] == Render(h, blocks[j], next, post).0
  {
    seq(|blocks|, j requires 0 <= j < |blocks| => Render(h, blocks[j], next, post).0)
  }

  lemma {:induction false} RenderChunksAssemble(h: Hooks, block: Block, i: nat, index: nat, next: Context, post: Post, acc: string)
    requires i <= |block.innerContent|
    ensures var inner := InnerHtml(h, block.innerBlocks, next, post);
            var rest := if index <= |inner| then inner[index..] else [];
            RenderChunks(h, block, i, index, next, post, acc) ==
              (acc + Assemble(block.innerContent[i..], rest, h.renderBlock("", MissingBlock)), post)
    decreases |block.innerContent| - i
  {
    var inner := InnerHtml(h, block.innerBlocks, next, post);
    var missing := h.renderBlock("", MissingBlock);
    if i == |block.innerContent| {
      assert block.innerContent[i..] == [];
      assert acc + "" == acc;
    } else if block.innerContent[i].Text? {
      var s := block.innerContent[i].s;
      RenderChunksAssemble(h, block, i + 1, index, next, post, acc + s);
      ChunkText(h, block, i, index, next, post, acc, inner, missing);
    } else if index >= |block.innerBlocks| {
      RenderChunksAssemble(h, block, i + 1, index + 1, next, post, acc + missing);
      ChunkMissing(h, block, i, index, next, post, acc, inner, missing);
    } else {
      RenderRestoresPost(h, block.innerBlocks[index], next, post);
      RenderChunksAssemble(h, block, i + 1, index + 1, next, post, acc + inner[index]);
      ChunkInner(h, block, i, index, next, post, acc, inner, missing);
    }
  }

  /** A string chunk is appended as it is. */
  lemma ChunkText(h: Hooks, block: Block, i: nat, index: nat, next: Context, post: Post, acc: string,
                  inner: seq<string>, missing: string)
    requires i < |block.innerContent| && block.innerContent[i].Text?
    requires var rest := if index <= |inner| then inner[index..] else [];
             var s := block.innerContent[i].s;
             RenderChunks(h, block, i + 1, index, next, post, acc + s) ==
               (acc + s + Assemble(block.innerContent[i + 1..], rest, missing), post)
    ensures var rest := if index <= |inner| then inner[index..] else [];
            RenderChunks(h, block, i, index, next, post, acc) ==
              (acc + Assemble(block.innerContent[i..], rest, missing), post)
  {
    var rest := if index <= |inner| then inner[index..] else [];
    var s := block.innerContent[i].s;
    DropStep(block.innerContent, i);
    AssembleStep(block.innerContent[i..], rest, missing);
    ConcatAssoc(acc, s, Assemble(block.innerContent[i + 1..], rest, missing));
  }

  /** A placeholder past the last inner block gets the missing block's render. */
  lemma ChunkMissing(h: Hooks, block: Block, i: nat, index: nat, next: Context, post: Post, acc: string,
                     inner: seq<string>, missing: string)
    requires i < |block.innerContent| && block.innerContent[i].Slot?
    requires index >= |block.innerBlocks| && |inner| == |block.innerBlocks| && missing == h.renderBlock("", MissingBlock)
    requires RenderChunks(h, block, i + 1, index + 1, next, post, acc + missing) ==
               (acc + missing + Assemble(block.innerContent[i + 1..], [], missing), post)
    ensures var rest := if index <= |inner| then inner[index..] else [];
            RenderChunks(h, block, i, index, next, post, acc) ==
              (acc + Assemble(block.innerContent[i..], rest, missing), post)
  {
    var rest := if index <= |inner| then inner[index..] else [];
    assert rest == [];
    DropStep(block.innerContent, i);
    AssembleStep(block.innerContent[i..], rest, missing);
    ConcatAssoc(acc, missing, Assemble(block.innerContent[i + 1..], [], missing));
  }

  /** A placeholder with an inner block left gets that block's render. */
  lemma ChunkInner(h: Hooks, block: Block, i: nat, index: nat, next: Context, post: Post, acc: string,
                   inner: seq<string>, missing: string)
    requires i < |block.innerContent| && block.innerContent[i].Slot?
    requires index < |block.innerBlocks| && inner == InnerHtml(h, block.innerBlocks, next, post)
    requires Render(h, block.innerBlocks[index], next, post).1 == post
    requires RenderChunks(h, block, i + 1, index + 1, next, post, acc + inner[index]) ==
               (acc + inner[index] + Assemble(block.innerContent[i + 1..], inner[index + 1..], missing), post)
    ensures RenderChunks(h, block, i, index, next, post, acc) ==
              (acc + Assemble(block.innerContent[i..], inner[index..], missing), post)
  {
    DropStep(block.innerContent, i);
    DropStep(inner, index);
    AssembleStep(block.innerContent[i..], inner[index..], missing);
    ConcatAssoc(acc, inner[index], Assemble(block.innerContent[i + 1..], inner[index + 1..], missing));
  }

  /** One chunk of the reference assembly. */
  lemma AssembleStep(chunks: seq<Chunk>, inner: seq<string>, missing: string)
    requires |chunks| > 0
    ensures chunks[0].Text? ==> Assemble(chunks, inner, missing) == chunks[0].s + Assemble(chunks[1..], inner, missing)
    ensures chunks[0].Slot? && |inner| == 0 ==> Assemble(chunks, inner, missing) == missing + Assemble(chunks[1..], inner, missing)
    ensures chunks[0].Slot? && |inner| > 0 ==> Assemble(chunks, inner, missing) == inner[0] + Assemble(chunks[1..], inner[1..], missing)
  {
  }

  lemma DropStep<T>(xs: seq<T>, i: nat)
    requires i < |xs|
    ensures xs[i..][0] == xs[i] && xs[i..][1..] == xs[i + 1..]
  {
  }

  lemma ConcatAssoc(a: string, b: string, c: string)
    ensures a + b + c == a + (b + c)
  {
  }

  /** The content the callback and filter receive is the string chunks in
      order with each placeholder replaced by the next inner block's HTML,
      or by the missing block's render once the inner blocks run out; a
      static block's HTML is that content through the `render_block`
      filter, and only a dynamic block's callback is called. */
  lemma RenderContent(h: Hooks, block: Block, context: Context, post: Post)
    ensures var next := ChildContext(h, block, context);
            var content := Assemble(block.innerContent, InnerHtml(h, block.innerBlocks, next, post), h.renderBlock("", MissingBlock));
            var prepared := Prepared(h, block, context);
            && (!IsDynamic(h, block) ==> Render(h, block, context, post).0 == h.renderBlock(content, prepared))
            && (IsDynamic(h, block) ==>
                  Render(h, block, context, post).0 ==
                    h.renderBlock(h.callback(block.name.value, h.prepare(block.name.value, NormalAttrs(block)),
                                             content, prepared, post).0, prepared))
  {
    var next := ChildContext(h, block, context);
    var inner := InnerHtml(h, block.innerBlocks, next, post);
    var content := Assemble(block.innerContent, inner, h.renderBlock("", MissingBlock));
    assert block.innerContent[0..] == block.innerContent;
    assert inner[0..] == inner;
    RenderChunksAssemble(h, block, 0, 0, next, post, "");
    assert "" + content == content;
    assert RenderChunks(h, block, 0, 0, next, post, "") == (content, post);
  }

  /** A placeholder with no inner block to fill it does not stop the
      render: `a`, a placeholder and `b` with no inner blocks give `a`, the
      filtered empty string, then `b`. */
  lemma RenderMissingInner(h: Hooks, name: Option<string>, attrs: Option<Map<Node>>, context: Context, post: Post)
    ensures var block := Block(name, attrs, [], [Text("a"), Slot, Text("b")], []);
            RenderChunks(h, block, 0, 0, ChildContext(h, block, context), post, "") ==
              ("a" + h.renderBlock("", MissingBlock) + "b", post)
  {
    var block := Block(name, attrs, [], [Text("a"), Slot, Text("b")], []);
    var next := ChildContext(h, block, context);
    var missing := h.renderBlock("", MissingBlock);
    assert RenderChunks(h, block, 3, 2, next, post, "a" + missing + "b") == ("a" + missing + "b", post);
    assert RenderChunks(h, block, 2, 1, next, post, "a" + missing) == ("a" + missing + "b", post);
    assert RenderChunks(h, block, 1, 0, next, post, "a") == ("a" + missing + "b", post);
    assert "" + "a" == "a";
  }
}

=== FILE: eslint_utils.dfy ===
/**
 packages/eslint-plugin/utils/index.js: the translation function names and
 the strings a translation call can produce. Call arguments are abstract
 syntax nodes reduced to what the rules read: whether the node is a
 `Literal`, the literal's value, and its source range.
 */
module EslintUtils {
  import opened OrderedMap

  /** A literal's value: a string, or some other literal (number, `null`,
      regular expression), which never equals a string. */
  datatype LiteralValue = Text(s: string) | NonText

  datatype ArgKind = Literal | Other

  /** An argument node: `type`, `value` (meaningful for a literal) and
      `range` `[start, end]` in the source text. */
  datatype Arg = Arg(kind: ArgKind, value: LiteralValue, start: int, end: int)

  const TranslationFunctions: seq<string> := ["__", "_x", "_n", "_nx"]

  /** How many leading arguments can hold a translatable string: the text
      for `__` and `_x`, the singular and plural for `_n` and `_nx`. */
  function StringArgCount(name: string): (r: Option<nat>)
    ensures r.Some? <==> name in TranslationFunctions
    ensures name == "__" || name == "_x" ==> r == Some(1)
    ensures name == "_n" || name == "_nx" ==> r == Some(2)
  {
    if name == "__" || name == "_x" then Some(1)
    else if name == "_n" || name == "_nx" then Some(2)
    else None
  }

  /** The values of the literal arguments, in order. */
  function LiteralValues(args: seq<Arg>): (r: seq<LiteralValue>)
    ensures |r| <= |args|
  {
    if |args| == 0 then []
    else (if args[0].kind == Literal then [args[0].value] else []) + LiteralValues(args[1..])
  }

  /** A value is listed iff some literal argument holds it. */
  lemma {:induction false} LiteralValuesMembership(args: seq<Arg>, v: LiteralValue)
    ensures v in LiteralValues(args) <==> exists i :: 0 <= i < |args| && args[i].kind == Literal && args[i].value == v
  {
    if |args| > 0 {
      LiteralValuesMembership(args[1..], v);
      if exists i :: 0 <= i < |args| && args[i].kind == Literal && args[i].value == v {
        var i :| 0 <= i < |args| && args[i].kind == Literal && args[i].value == v;
        if i > 0 {
          assert args[1..][i - 1] == args[i];
        }
      }
      if exists i :: 0 <= i < |args[1..]| && args[1..][i].kind == Literal && args[1..][i].value == v {
        var i :| 0 <= i < |args[1..]| && args[1..][i].kind == Literal && args[1..][i].value == v;
        assert args[i + 1] == args[1..][i];
      }
    }
  }

  /** When every argument is a literal, all their values are listed, in order. */
  lemma {:induction false} LiteralValuesAllLiteral(args: seq<Arg>)
    requires forall i :: 0 <= i < |args| ==> args[i].kind == Literal
    ensures |LiteralValues(args)| == |args|
    ensures forall i :: 0 <= i < |args| ==> LiteralValues(args)[i] == args[i].value
  {
    if |args| > 0 {
      assert forall i :: 0 <= i < |args[1..]| ==> args[1..][i] == args[i + 1];
      LiteralValuesAllLiteral(args[1..]);
    }
  }

  /** `getTranslateStrings( functionName, args )`: `None` for a name that is
      not a translation function, otherwise the literal values among the
      leading string arguments. */
  function TranslateStrings(name: string, args: seq<Arg>): (r: Option<seq<LiteralValue>>)
    ensures r.None? <==> name !in TranslationFunctions
    ensures r.Some? ==> |r.value| <= StringArgCount(name).value
  {
    match StringArgCount(name)
    case None => None
    case Some(n) =>
      var considered := if |args| <= n then args else args[..n];
      Some(LiteralValues(considered))
  }

  /** A string is produced iff it is the value of a literal among the
      leading string arguments; later arguments (context, count, domain)
      never contribute. */
  lemma TranslateStringsMembership(name: string, args: seq<Arg>, v: LiteralValue)
    requires name in TranslationFunctions
    ensures v in TranslateStrings(name, args).value <==>
              exists i :: 0 <= i < |args| && i < StringArgCount(name).value &&
                          args[i].kind == Literal && args[i].value == v
  {
    var n := StringArgCount(name).value;
    var considered := if |args| <= n then args else args[..n];
    LiteralValuesMembership(considered, v);
    assert forall i :: 0 <= i < |considered| ==> considered[i] == args[i];
  }
}

=== FILE: i18n_text_domain.dfy ===
/**
 The `i18n-text-domain` rule of packages/eslint-plugin/rules/i18n-text-domain.js:
 the decision it takes for one call expression, and what each autofix does
 to the call's arguments.
 */
module I18nTextDomain {
  import opened OrderedMap
  import opened EslintUtils

  /** The rule's options; an absent options object reads as the defaults. */
  datatype Options = Options(allowDefault: bool, allowedTextDomains: seq<string>)

  const DefaultOptions := Options(false, [])

  datatype MessageId = Missing | InvalidType | UnnecessaryDefault | InvalidValue

  /** The fixer calls: insert text after an argument, remove a source
      range, replace a source range. */
  datatype Fix =
    | InsertAfter(argIndex: int, text: string)
    | RemoveRange(start: int, end: int)
    | ReplaceRange(start: int, end: int, text: string)

  datatype Report = Report(messageId: MessageId, fix: Option<Fix>, textDomain: Option<LiteralValue>)

  /** Which argument holds the text domain: always after the strings
      `getTranslateStrings` reads, and never the first argument. */
  function DomainIndex(name: string): (r: Option<nat>)
    ensures r.Some? <==> name in TranslationFunctions
    ensures r.Some? ==> 1 <= StringArgCount(name).value <= r.value
  {
    if name == "__" then Some(1)
    else if name == "_x" then Some(2)
    else if name == "_n" then Some(3)
    else if name == "_nx" then Some(4)
    else None
  }

  /** `getTextDomain( functionName, args )`: `undefined` for another name
      or when the call has too few arguments. */
  function GetTextDomain(name: string, args: seq<Arg>): (r: Option<Arg>)
    ensures r.Some? <==> DomainIndex(name).Some? && DomainIndex(name).value < |args|
    ensures r.Some? ==> r.value == args[DomainIndex(name).value]
  {
    match DomainIndex(name)
    case None => None
    case Some(k) => if k < |args| then Some(args[k]) else None
  }

  /** Exactly one allowed domain makes the missing and invalid domains fixable. */
  predicate CanFix(options: Options)
  {
    |options.allowedTextDomains| == 1
  }

  /** What linting one call gives: nothing, one report, or a thrown error. */
  datatype Outcome = Pass | Reported(report: Report) | Throws

  /** The `CallExpression` visitor: at most one report per call. `callee` is
      `None` when the callee has no name (a member expression). ESLint
      builds a report's fix while the report is made, so a fixable missing
      domain in a call with no arguments throws: the fix inserts after
      `args[-1]`, which is `undefined`. */
  function Check(callee: Option<string>, args: seq<Arg>, options: Options): (r: Outcome)
    ensures callee.None? || callee.value !in TranslationFunctions ==> r.Pass?
    ensures r.Throws? <==> callee.Some? && callee.value in TranslationFunctions &&
                           |args| == 0 && !options.allowDefault && CanFix(options)
    ensures r.Reported? && r.report.fix.Some? && r.report.messageId != UnnecessaryDefault ==> CanFix(options)
    ensures r.Reported? && r.report.messageId == InvalidType ==> r.report.fix.None?
  {
    if callee.None? || callee.value !in TranslationFunctions then Pass
    else
      var name := callee.value;
      var k := DomainIndex(name).value;
      match GetTextDomain(name, args)
      case None =>
        if options.allowDefault then Pass
        else if |args| == 0 && CanFix(options) then Throws
        else
          var fix := if CanFix(options) then Some(InsertAfter(|args| - 1, ", '" + options.allowedTextDomains[0] + "'")) else None;
          Reported(Report(Missing, fix, None))
      case Some(domain) =>
        if domain.kind != Literal then Reported(Report(InvalidType, None, None))
        else if domain.value.Text? && domain.value.s in options.allowedTextDomains then Pass
        else if domain.value == Text("default") && options.allowDefault then
          Reported(Report(UnnecessaryDefault, Some(RemoveRange(args[k - 1].end, domain.end)), None))
        else
          var fix := if CanFix(options) then Some(ReplaceRange(domain.start + 1, domain.end - 1, options.allowedTextDomains[0])) else None;
          Reported(Report(InvalidValue, fix, Some(domain.value)))
  }

  /** A missing domain passes iff the default domain is allowed. Otherwise
      a fixable report for a call with no arguments throws, and any other
      call is reported, fixable iff exactly one domain is allowed. */
  lemma CheckMissing(name: string, args: seq<Arg>, options: Options)
    requires name in TranslationFunctions && GetTextDomain(name, args).None?
    ensures var r := Check(Some(name), args, options);
            && (r.Pass? <==> options.allowDefault)
            && (r.Throws? <==> !options.allowDefault && CanFix(options) && |args| == 0)
            && (r.Reported? <==> !options.allowDefault && !(CanFix(options) && |args| == 0))
            && (r.Reported? ==> r.report.messageId == Missing && (r.report.fix.Some? <==> CanFix(options)))
  {
  }

  /** `__()` with one allowed domain and the default domain not allowed:
      the rule throws, and without an allowed domain it reports. */
  lemma CheckNoArguments(d: string)
    ensures Check(Some("__"), [], Options(false, [d])) == Throws
    ensures Check(Some("__"), [], Options(false, [])) == Reported(Report(Missing, None, None))
  {
  }

  /** A domain given as anything but a literal is reported as such, with no fix. */
  lemma CheckInvalidType(name: string, args: seq<Arg>, options: Options)
    requires name in TranslationFunctions && GetTextDomain(name, args).Some?
    requires GetTextDomain(name, args).value.kind == Other
    ensures Check(Some(name), args, options) == Reported(Report(InvalidType, None, None))
  {
  }

  /** A literal domain is accepted iff it is one of the allowed domains. */
  lemma CheckLiteral(name: string, args: seq<Arg>, options: Options)
    requires name in TranslationFunctions && GetTextDomain(name, args).Some?
    requires GetTextDomain(name, args).value.kind == Literal
    ensures var v := GetTextDomain(name, args).value.value;
            Check(Some(name), args, options).Pass? <==> v.Text? && v.s in options.allowedTextDomains
  {
  }

  /** A literal `'default'` that is not allowed, while the default domain
      is: reported as unnecessary, fixed by deleting from the end of the
      previous argument to the end of the domain. */
  lemma CheckUnnecessaryDefault(name: string, args: seq<Arg>, options: Options)
    requires name in TranslationFunctions && GetTextDomain(name, args).Some?
    requires GetTextDomain(name, args).value.kind == Literal
    requires GetTextDomain(name, args).value.value == Text("default")
    requires "default" !in options.allowedTextDomains && options.allowDefault
    ensures var k := DomainIndex(name).value;
            Check(Some(name), args, options) ==
              Reported(Report(UnnecessaryDefault, Some(RemoveRange(args[k - 1].end, args[k].end)), None))
  {
  }

  /** Any other literal is an invalid value, reported with its value; the
      fix writes the one allowed domain between the quotes. */
  lemma CheckInvalidValue(name: string, args: seq<Arg>, options: Options)
    requires name in TranslationFunctions && GetTextDomain(name, args).Some?
    requires GetTextDomain(name, args).value.kind == Literal
    requires var v := GetTextDomain(name, args).value.value;
             !(v.Text? && v.s in options.allowedTextDomains) && !(v == Text("default") && options.allowDefault)
    ensures var d := GetTextDomain(name, args).value;
            var r := Check(Some(name), args, options);
            && r.Reported? && r.report.messageId == InvalidValue && r.report.textDomain == Some(d.value)
            && (r.report.fix.Some? <==> CanFix(options))
            && (r.report.fix.Some? ==> r.report.fix.value == ReplaceRange(d.start + 1, d.end - 1, options.allowedTextDomains[0]))
  {
  }

  /** A string that reads back as the same literal between quotes: no
      quote, backslash or line break. */
  predicate PlainText(s: string)
  {
    forall i :: 0 <= i < |s| ==> s[i] != '\'' && s[i] != '"' && s[i] != '\\' && s[i] != '\n'
  }

  function Shift(a: Arg, delta: int): Arg
  {
    a.(start := a.start + delta, end := a.end + delta)
  }

  /** The arguments of the call once a fix is applied and the source parsed
      again. Text written between quotes reads back as the same string only
      when it is plain, and only a quoted string has quotes to write
      between: inside a number literal the text splices into the digits
      (`42` becomes `4d2`) and the call no longer parses. Removing a range
      is modelled for a domain that is the last argument. `None` is a fix
      this model does not read back; `Check` never gives an insertion after
      no argument, since building it throws. */
  function ApplyFix(name: string, args: seq<Arg>, fix: Fix): (r: Option<seq<Arg>>)
    requires name in TranslationFunctions
  {
    var k := DomainIndex(name).value;
    match fix
    case InsertAfter(i, text) =>
      if i == |args| - 1 && i >= 0 && |text| >= 4 && text[..3] == ", '" && text[|text| - 1] == '\'' && PlainText(text[3..|text| - 1]) then
        var domain := text[3..|text| - 1];
        Some(args + [Arg(Literal, Text(domain), args[i].end + 2, args[i].end + 2 + |domain| + 2)])
      else None
    case RemoveRange(start, end) =>
      if k == |args| - 1 && k >= 1 && start == args[k - 1].end && end == args[k].end then Some(args[..k])
      else None
    case ReplaceRange(start, end, text) =>
      if k < |args| && args[k].value.Text? && start == args[k].start + 1 && end == args[k].end - 1 && PlainText(text) then
        var delta := |text| - (end - start);
        var domain := Arg(Literal, Text(text), args[k].start, args[k].end + delta);
        Some(args[..k] + [domain] + seq(|args| - k - 1, i requires 0 <= i < |args| - k - 1 => Shift(args[k + 1 + i], delta)))
      else None
  }

  /** The fix for an invalid value settles the call: linted again, it is
      accepted. */
  lemma FixInvalidValueSettles(name: string, args: seq<Arg>, options: Options)
    requires name in TranslationFunctions && |options.allowedTextDomains| > 0 && PlainText(options.allowedTextDomains[0])
    requires GetTextDomain(name, args).Some? && GetTextDomain(name, args).value.value.Text?
    requires var r := Check(Some(name), args, options);
             r.Reported? && r.report.messageId == InvalidValue && r.report.fix.Some?
    ensures var fixed := ApplyFix(name, args, Check(Some(name), args, options).report.fix.value);
            fixed.Some? && Check(Some(name), fixed.value, options).Pass?
  {
    var k := DomainIndex(name).value;
    var fixed := ApplyFix(name, args, Check(Some(name), args, options).report.fix.value).value;
    assert fixed[k] == Arg(Literal, Text(options.allowedTextDomains[0]), fixed[k].start, fixed[k].end);
  }

  /** For a literal that is not a string (`__( 'x', 42 )`), the invalid
      value is still reported and fixed between its first and last
      characters, but the fixed source does not read back as a call. */
  lemma FixInvalidValueNonText(name: string, args: seq<Arg>, options: Options)
    requires name in TranslationFunctions && CanFix(options)
    requires GetTextDomain(name, args).Some?
    requires GetTextDomain(name, args).value.kind == Literal && GetTextDomain(name, args).value.value == NonText
    ensures var d := GetTextDomain(name, args).value;
            var r := Check(Some(name), args, options);
            && r == Reported(Report(InvalidValue, Some(ReplaceRange(d.start + 1, d.end - 1, options.allowedTextDomains[0])), Some(NonText)))
            && ApplyFix(name, args, r.report.fix.value).None?
  {
  }

  /** The fix for a missing domain settles the call when the domain is the
      only argument missing. */
  lemma FixMissingSettles(name: string, args: seq<Arg>, options: Options)
    requires name in TranslationFunctions && |args| >= 1 && |args| == DomainIndex(name).value
    requires |options.allowedTextDomains| > 0 && PlainText(options.allowedTextDomains[0])
    requires var r := Check(Some(name), args, options);
             r.Reported? && r.report.messageId == Missing && r.report.fix.Some?
    ensures var fixed := ApplyFix(name, args, Check(Some(name), args, options).report.fix.value);
            fixed.Some? && Check(Some(name), fixed.value, options).Pass?
  {
    var d := options.allowedTextDomains[0];
    var text := ", '" + d + "'";
    assert text[..3] == ", '" && text[|text| - 1] == '\'';
    assert text[3..|text| - 1] == d;
  }

  /** When more than the domain is missing, the inserted domain lands in an
      earlier argument position and the call is still reported as missing:
      `_x( 'text' )` becomes `_x( 'text', 'my-domain' )`. */
  lemma FixMissingTooFewArguments(text: Arg)
    requires text.kind == Literal
    ensures var options := Options(false, ["my-domain"]);
            var fixed := ApplyFix("_x", [text], Check(Some("_x"), [text], options).report.fix.value);
            && fixed.Some?
            && Check(Some("_x"), fixed.value, options).Reported?
            && Check(Some("_x"), fixed.value, options).report.messageId == Missing
  {
    var options := Options(false, ["my-domain"]);
    var ins := ", '" + "my-domain" + "'";
    assert Check(Some("_x"), [text], options).report.fix.value == InsertAfter(0, ins);
    assert ins[..3] == ", '" && ins[|ins| - 1] == '\'';
    assert ins[3..|ins| - 1] == "my-domain";
  }

  /** Removing an unnecessary `'default'` that closes the call settles it. */
  lemma FixUnnecessaryDefaultSettles(name: string, args: seq<Arg>, options: Options)
    requires name in TranslationFunctions && |args| == DomainIndex(name).value + 1
    requires var r := Check(Some(name), args, options);
             r.Reported? && r.report.messageId == UnnecessaryDefault
    ensures var fixed := ApplyFix(name, args, Check(Some(name), args, options).report.fix.value);
            fixed.Some? && Check(Some(name), fixed.value, options).Pass?
  {
  }
}

=== FILE: js_provider.dfy ===
/**
 The editor-side hook of packages/global-styles/src/provider.js: base styles
 converted to camelCase, the user's stored `color` and `typography` merged
 over them, the heading tokens generated, and the two setters that write the
 user's record back in kebab-case.
 */
module Provider {
  import opened OrderedMap
  import opened StyleTree
  import opened Strings
  import opened CaseTree
  import opened JsStyles
  import Renderer

  /** The edited `wp_global_styles` record: `Empty` has no keys yet;
      `Content(None)` holds text `JSON.parse` rejects. */
  datatype UserRecord = Empty | Content(parsed: Option<Node>)

  /** `generateFontWeightHeading`: `( fontWeight * 1.5 ).toFixed( 2 )`. */
  function FontWeightHeading(typography: Tree, ops: JsOps): Tree
  {
    [Pair("fontWeightHeading", Leaf(Str(ops.fixedScaled(Lookup(typography, "fontWeight"), 1.5))))]
  }

  /** The eight generated keys, in the order they are spread. */
  const GeneratedKeys: seq<string> := SizeKeys + ["lineHeightHeading", "fontWeightHeading"]

  function Generated(typography: Tree, fontSize: string, ops: JsOps): Tree
  {
    FontSizesHeading(typography, fontSize, ops) + LineHeightHeading(typography, ops) + FontWeightHeading(typography, ops)
  }

  lemma GeneratedKeysDistinct()
    ensures forall i, j :: 0 <= i < j < |GeneratedKeys| ==> GeneratedKeys[i] != GeneratedKeys[j]
  {
    forall i, j | 0 <= i < j < |GeneratedKeys| ensures GeneratedKeys[i] != GeneratedKeys[j] {
      if j < 6 {
        assert GeneratedKeys[i][15] != GeneratedKeys[j][15];
      } else if i < 6 {
        assert |GeneratedKeys[i]| == 16 && |GeneratedKeys[j]| == 17;
      } else {
        assert GeneratedKeys[i][0] != GeneratedKeys[j][0];
      }
    }
  }

  /** The generated object has exactly the eight keys; every value is a
      string, and the six sizes end in "px". */
  lemma GeneratedShape(typography: Tree, fontSize: string, ops: JsOps)
    ensures var g := Generated(typography, fontSize, ops);
            && Keys(g) == GeneratedKeys
            && WellFormedTree(g)
            && (forall i :: 0 <= i < |g| ==> g[i].val.Leaf? && g[i].val.v.Str?)
            && (forall i :: 0 <= i < 6 ==> EndsWith(g[i].val.v.s, "px"))
  {
    var sizes := FontSizesHeading(typography, fontSize, ops);
    var g := Generated(typography, fontSize, ops);
    FontSizesHeadingShape(typography, fontSize, ops);
    assert forall i :: 0 <= i < 6 ==> g[i] == sizes[i];
    GeneratedKeysOf(typography, fontSize, ops);
    GeneratedKeysDistinct();
    assert Distinct(g) by {
      forall i, j | 0 <= i < j < |g| ensures g[i].key != g[j].key {
        KeysIndex(g, i);
        KeysIndex(g, j);
      }
    }
  }

  lemma GeneratedKeysOf(typography: Tree, fontSize: string, ops: JsOps)
    ensures Keys(Generated(typography, fontSize, ops)) == GeneratedKeys
  {
    var sizes := FontSizesHeading(typography, fontSize, ops);
    var g := Generated(typography, fontSize, ops);
    FontSizesHeadingShape(typography, fontSize, ops);
    assert |g| == 8;
    forall i | 0 <= i < |g| ensures Keys(g)[i] == GeneratedKeys[i] {
      KeysIndex(g, i);
      if i < 6 {
        KeysIndex(sizes, i);
        assert g[i] == sizes[i];
      }
    }
  }

  lemma GeneratedHasKey(typography: Tree, fontSize: string, ops: JsOps, k: string)
    ensures HasKey(Generated(typography, fontSize, ops), k) <==> k in GeneratedKeys
  {
    var g := Generated(typography, fontSize, ops);
    GeneratedShape(typography, fontSize, ops);
    HasKeyIff(g, k);
    if k in GeneratedKeys {
      var i :| 0 <= i < |GeneratedKeys| && GeneratedKeys[i] == k;
      KeysIndex(g, i);
    }
    if HasKey(g, k) {
      var i :| 0 <= i < |g| && g[i].key == k;
      KeysIndex(g, i);
    }
  }

  /** The hook's `userStyles`: `{}` until the record has keys, then the
      parsed content converted to camelCase; `None` is the SyntaxError
      `JSON.parse` throws. */
  function UserStyles(record: UserRecord, ops: JsOps): (r: Option<Node>)
    ensures r.None? <==> record == Content(None)
    ensures r.Some? ==> WellFormed(r.value)
    ensures record.Empty? ==> r == Some(Branch([]))
  {
    match record
    case Empty => Some(Branch([]))
    case Content(None) => None
    case Content(Some(n)) =>
      ToCaseWellFormed(n, ops.camel);
      Some(ToCase(n, ops.camel))
  }

  /** `{ ...styles[ d ], ...userStyles[ d ] }` for one domain. */
  function DomainMerge(styles: Tree, userStyles: Node, domain: string): (r: Node)
    requires WellFormedTree(styles) && WellFormed(userStyles)
    ensures WellFormed(r) && r.Branch?
  {
    var fromBase := Spread(Lookup(styles, domain));
    var fromUser := Spread(Get(userStyles, domain));
    WellFormedLookup(styles, domain);
    WellFormedGet(userStyles, domain);
    WellFormedMerge(fromBase, fromUser);
    Branch(Merge(fromBase, fromUser))
  }

  /** Inside a merged domain the user's value wins, and every other key of
      the base domain stays. */
  lemma DomainMergeLookup(styles: Tree, userStyles: Node, domain: string, k: string)
    requires WellFormedTree(styles) && WellFormed(userStyles)
    ensures var fromUser := Spread(Get(userStyles, domain));
            Lookup(DomainMerge(styles, userStyles, domain).kids, k) ==
              if HasKey(fromUser, k) then Lookup(fromUser, k) else Lookup(Spread(Lookup(styles, domain)), k)
  {
    var fromUser := Spread(Get(userStyles, domain));
    WellFormedGet(userStyles, domain);
    MergeLookup(Spread(Lookup(styles, domain)), fromUser, k);
  }

  /** A two-domain object with distinct names. */
  lemma DomainPair(first: string, a: Node, second: string, b: Node)
    requires WellFormed(a) && WellFormed(b) && first != second
    ensures WellFormed(Branch([Pair(first, a), Pair(second, b)]))
    ensures Keys([Pair(first, a), Pair(second, b)]) == [first, second]
    ensures Lookup([Pair(first, a), Pair(second, b)], first) == Some(a)
    ensures Lookup([Pair(first, a), Pair(second, b)], second) == Some(b)
  {
    var t := [Pair(first, a), Pair(second, b)];
    KeysIndex(t, 0);
    KeysIndex(t, 1);
  }

  /** The styles before generation: the camelCased base, replaced, once the
      record has keys, by just the two merged domains `color` and
      `typography`. `None` is a thrown error: unparsable content, or content
      `null`, whose `color` cannot be read. */
  function MergedStyles(base: Tree, record: UserRecord, ops: JsOps): (r: Option<Tree>)
    ensures r.None? <==> record == Content(None) || record == Content(Some(Leaf(Null)))
    ensures r.Some? ==> WellFormedTree(r.value)
    ensures record.Content? && r.Some? ==> Keys(r.value) == ["color", "typography"]
    ensures record.Empty? ==> r == Some(ToCase(Branch(base), ops.camel).kids)
  {
    var styles := ToCase(Branch(base), ops.camel).kids;
    ToCaseWellFormed(Branch(base), ops.camel);
    var user := UserStyles(record, ops);
    if record.Empty? then Some(styles)
    else if user.None? || user.value == Leaf(Null) then None
    else
      var color := DomainMerge(styles, user.value, "color");
      var typography := DomainMerge(styles, user.value, "typography");
      assert "color"[0] != "typography"[0];
      DomainPair("color", color, "typography", typography);
      Some([Pair("color", color), Pair("typography", typography)])
  }

  /** `useGlobalStyles`: the styles the context and the renderer receive.
      `None` is a thrown error; besides those of `MergedStyles`, the
      generators throw unless `typography` is an object whose `fontSize` is
      a string. */
  function UseGlobalStyles(base: Tree, record: UserRecord, ops: JsOps): (r: Option<Tree>)
    ensures r.Some? <==> MergedStyles(base, record, ops).Some? &&
                         HasStringFontSize(Lookup(MergedStyles(base, record, ops).value, "typography"))
    ensures r.Some? ==> WellFormedTree(r.value)
    ensures r.Some? ==> Keys(r.value) == Keys(MergedStyles(base, record, ops).value)
    ensures r.Some? ==> forall k :: k != "typography" ==>
              Lookup(r.value, k) == Lookup(MergedStyles(base, record, ops).value, k)
  {
    var merged := MergedStyles(base, record, ops);
    if merged.None? then None
    else
      var typography := Typography(merged.value);
      if typography.None? then None
      else
        var (kids, fontSize) := typography.value;
        GeneratedShape(kids, fontSize, ops);
        HasKeyIff(merged.value, "typography");
        Some(WithGenerated(merged.value, Generated(kids, fontSize, ops)))
  }

  /** Inside `typography` the eight generated keys hold generated strings
      (the six sizes ending in "px"), and every other key keeps its merged
      value. */
  lemma UseGlobalStylesTypography(base: Tree, record: UserRecord, ops: JsOps, k: string)
    requires UseGlobalStyles(base, record, ops).Some?
    ensures var before := Spread(Lookup(MergedStyles(base, record, ops).value, "typography"));
            var after := Spread(Lookup(UseGlobalStyles(base, record, ops).value, "typography"));
            && HasKey(before, "fontSize")
            && (HasKey(after, k) <==> HasKey(before, k) || k in GeneratedKeys)
            && (k in GeneratedKeys ==> Lookup(after, k).Some? && Lookup(after, k).value.Leaf? && Lookup(after, k).value.v.Str?)
            && (k in SizeKeys ==> EndsWith(Lookup(after, k).value.v.s, "px"))
            && (k !in GeneratedKeys ==> Lookup(after, k) == Lookup(before, k))
  {
    var merged := MergedStyles(base, record, ops).value;
    var (kids, fontSize) := Typography(merged).value;
    var g := Generated(kids, fontSize, ops);
    UseGlobalStylesIs(base, record, ops);
    GeneratedShape(kids, fontSize, ops);
    GeneratedHasKey(kids, fontSize, ops, k);
    WithGeneratedTypography(merged, g, k);
    if k in GeneratedKeys {
      GeneratedLookup(kids, fontSize, ops, k);
    }
  }

  lemma UseGlobalStylesIs(base: Tree, record: UserRecord, ops: JsOps)
    requires UseGlobalStyles(base, record, ops).Some?
    ensures var merged := MergedStyles(base, record, ops).value;
            var t := Typography(merged).value;
            && WellFormedTree(merged)
            && WellFormedTree(Generated(t.0, t.1, ops))
            && UseGlobalStyles(base, record, ops).value == WithGenerated(merged, Generated(t.0, t.1, ops))
  {
    var t := Typography(MergedStyles(base, record, ops).value).value;
    GeneratedShape(t.0, t.1, ops);
  }

  /** A generated key holds a string, and a size ends in "px". */
  lemma GeneratedLookup(typography: Tree, fontSize: string, ops: JsOps, k: string)
    requires k in GeneratedKeys
    ensures var g := Generated(typography, fontSize, ops);
            && Lookup(g, k).Some? && Lookup(g, k).value.Leaf? && Lookup(g, k).value.v.Str?
            && (k in SizeKeys ==> EndsWith(Lookup(g, k).value.v.s, "px"))
  {
    var g := Generated(typography, fontSize, ops);
    GeneratedShape(typography, fontSize, ops);
    var i :| 0 <= i < |GeneratedKeys| && GeneratedKeys[i] == k;
    KeysIndex(g, i);
    LookupAt(g, i);
  }

  /** With no record, every domain other than `typography` is the base
      domain, its keys converted to camelCase. */
  lemma UseGlobalStylesWithoutRecord(base: Tree, ops: JsOps, k: string)
    requires UseGlobalStyles(base, Empty, ops).Some?
    requires k != "typography"
    ensures Lookup(UseGlobalStyles(base, Empty, ops).value, k) == Lookup(ToCase(Branch(base), ops.camel).kids, k)
  {
  }

  /** Inside `color` or `typography` of the merged styles, the user's
      value wins, and every other key of the base domain stays. */
  lemma MergedStylesDomain(base: Tree, record: UserRecord, ops: JsOps, domain: string, k: string)
    requires record.Content? && MergedStyles(base, record, ops).Some?
    requires domain == "color" || domain == "typography"
    ensures var fromUser := Spread(Get(UserStyles(record, ops).value, domain));
            var fromBase := Spread(Lookup(ToCase(Branch(base), ops.camel).kids, domain));
            Lookup(Spread(Lookup(MergedStyles(base, record, ops).value, domain)), k) ==
              if HasKey(fromUser, k) then Lookup(fromUser, k) else Lookup(fromBase, k)
  {
    var styles := ToCase(Branch(base), ops.camel).kids;
    ToCaseWellFormed(Branch(base), ops.camel);
    var user := UserStyles(record, ops).value;
    var color := DomainMerge(styles, user, "color");
    var typography := DomainMerge(styles, user, "typography");
    DomainPair("color", color, "typography", typography);
    DomainMergeLookup(styles, user, domain, k);
  }

  /** With a record, only `color` and `typography` remain, and in `color`
      the user's value wins over the base. */
  lemma UseGlobalStylesUserColor(base: Tree, record: UserRecord, ops: JsOps, k: string)
    requires record.Content? && UseGlobalStyles(base, record, ops).Some?
    ensures var r := UseGlobalStyles(base, record, ops).value;
            var userColor := Spread(Get(UserStyles(record, ops).value, "color"));
            var baseColor := Spread(Lookup(ToCase(Branch(base), ops.camel).kids, "color"));
            && Keys(r) == ["color", "typography"]
            && Lookup(Spread(Lookup(r, "color")), k) ==
                 if HasKey(userColor, k) then Lookup(userColor, k) else Lookup(baseColor, k)
  {
    assert "color"[0] != "typography"[0];
    MergedStylesDomain(base, record, ops, "color", k);
  }

  /** The same for `typography`, except that the generated keys win over
      both. */
  lemma UseGlobalStylesUserTypography(base: Tree, record: UserRecord, ops: JsOps, k: string)
    requires record.Content? && UseGlobalStyles(base, record, ops).Some?
    requires k !in GeneratedKeys
    ensures var r := UseGlobalStyles(base, record, ops).value;
            var userTypography := Spread(Get(UserStyles(record, ops).value, "typography"));
            var baseTypography := Spread(Lookup(ToCase(Branch(base), ops.camel).kids, "typography"));
            Lookup(Spread(Lookup(r, "typography")), k) ==
              if HasKey(userTypography, k) then Lookup(userTypography, k) else Lookup(baseTypography, k)
  {
    UseGlobalStylesTypography(base, record, ops, k);
    MergedStylesDomain(base, record, ops, "typography", k);
  }

  /** The object `setColor` serialises, before the kebab-case conversion:
      the user's typography copied, the user's colors overridden by the new
      ones. */
  function ColorPayload(userStyles: Node, newStyles: Tree): Node
  {
    Branch([Pair("typography", Branch(Spread(Get(userStyles, "typography")))),
            Pair("color", Branch(Merge(Spread(Get(userStyles, "color")), newStyles)))])
  }

  /** The object `setTypography` serialises, before the kebab-case conversion. */
  function TypographyPayload(userStyles: Node, newStyles: Tree): Node
  {
    Branch([Pair("color", Branch(Spread(Get(userStyles, "color")))),
            Pair("typography", Branch(Merge(Spread(Get(userStyles, "typography")), newStyles)))])
  }

  /** The record content `setColor( newStyles )` writes; `None` when
      `userStyles` is `null`, whose properties cannot be read. */
  function SetColor(userStyles: Node, newStyles: Tree, ops: JsOps): (r: Option<Node>)
    ensures r.None? <==> userStyles == Leaf(Null)
    ensures r.Some? ==> WellFormed(r.value) && r.value.Branch?
  {
    if userStyles == Leaf(Null) then None
    else
      ToCaseWellFormed(ColorPayload(userStyles, newStyles), ops.kebab);
      Some(ToCase(ColorPayload(userStyles, newStyles), ops.kebab))
  }

  function SetTypography(userStyles: Node, newStyles: Tree, ops: JsOps): (r: Option<Node>)
    ensures r.None? <==> userStyles == Leaf(Null)
    ensures r.Some? ==> WellFormed(r.value) && r.value.Branch?
  {
    if userStyles == Leaf(Null) then None
    else
      ToCaseWellFormed(TypographyPayload(userStyles, newStyles), ops.kebab);
      Some(ToCase(TypographyPayload(userStyles, newStyles), ops.kebab))
  }

  lemma PayloadWellFormed(userStyles: Node, newStyles: Tree)
    requires WellFormed(userStyles) && WellFormedTree(newStyles)
    ensures WellFormed(ColorPayload(userStyles, newStyles))
    ensures WellFormed(TypographyPayload(userStyles, newStyles))
    ensures Get(ColorPayload(userStyles, newStyles), "color") ==
              Some(Branch(Merge(Spread(Get(userStyles, "color")), newStyles)))
    ensures Get(TypographyPayload(userStyles, newStyles), "typography") ==
              Some(Branch(Merge(Spread(Get(userStyles, "typography")), newStyles)))
  {
    WellFormedGet(userStyles, "color");
    WellFormedGet(userStyles, "typography");
    var userColor := Spread(Get(userStyles, "color"));
    var userTypography := Spread(Get(userStyles, "typography"));
    WellFormedMerge(userColor, newStyles);
    WellFormedMerge(userTypography, newStyles);
    assert "color"[0] != "typography"[0];
    DomainPair("typography", Branch(userTypography), "color", Branch(Merge(userColor, newStyles)));
    DomainPair("color", Branch(userColor), "typography", Branch(Merge(userTypography, newStyles)));
  }

  /** Writing colors and loading the record again: when camelCase undoes
      kebabCase on the payload's names, the next `userStyles` is the
      payload itself, and every new color shows in the next styles. */
  lemma SetColorTakesEffect(base: Tree, userStyles: Node, newStyles: Tree, ops: JsOps, k: string)
    requires userStyles != Leaf(Null)
    requires WellFormed(userStyles) && WellFormedTree(newStyles)
    requires Undoes(ColorPayload(userStyles, newStyles), ops.kebab, ops.camel)
    requires HasKey(newStyles, k)
    ensures var stored := Content(SetColor(userStyles, newStyles, ops));
            && UserStyles(stored, ops) == Some(ColorPayload(userStyles, newStyles))
            && MergedStyles(base, stored, ops).Some?
            && Lookup(Spread(Lookup(MergedStyles(base, stored, ops).value, "color")), k) == Lookup(newStyles, k)
  {
    var payload := ColorPayload(userStyles, newStyles);
    PayloadWellFormed(userStyles, newStyles);
    ToCaseRoundTrip(payload, ops.kebab, ops.camel);
    var stored := Content(SetColor(userStyles, newStyles, ops));
    assert UserStyles(stored, ops) == Some(payload);
    var userColor := Spread(Get(userStyles, "color"));
    MergeHasKey(userColor, newStyles, k);
    MergeLookup(userColor, newStyles, k);
    MergedStylesDomain(base, stored, ops, "color", k);
  }

  /** Writing typography and loading the record again: every new value
      shows in the next styles, unless the generators overwrite its key. */
  lemma SetTypographyTakesEffect(base: Tree, userStyles: Node, newStyles: Tree, ops: JsOps, k: string)
    requires userStyles != Leaf(Null)
    requires WellFormed(userStyles) && WellFormedTree(newStyles)
    requires Undoes(TypographyPayload(userStyles, newStyles), ops.kebab, ops.camel)
    requires HasKey(newStyles, k) && k !in GeneratedKeys
    ensures var stored := Content(SetTypography(userStyles, newStyles, ops));
            && UserStyles(stored, ops) == Some(TypographyPayload(userStyles, newStyles))
            && (UseGlobalStyles(base, stored, ops).Some? ==>
                  Lookup(Spread(Lookup(UseGlobalStyles(base, stored, ops).value, "typography")), k) == Lookup(newStyles, k))
  {
    var payload := TypographyPayload(userStyles, newStyles);
    PayloadWellFormed(userStyles, newStyles);
    ToCaseRoundTrip(payload, ops.kebab, ops.camel);
    var stored := Content(SetTypography(userStyles, newStyles, ops));
    assert UserStyles(stored, ops) == Some(payload);
    var userTypography := Spread(Get(userStyles, "typography"));
    MergeHasKey(userTypography, newStyles, k);
    MergeLookup(userTypography, newStyles, k);
    if UseGlobalStyles(base, stored, ops).Some? {
      UseGlobalStylesUserTypography(base, stored, ops, k);
    }
  }

  /** The stylesheet the hook renders: the styles converted to kebab-case
      and compiled; `None` when the hook throws first. */
  function RenderedCss(base: Tree, record: UserRecord, ops: JsOps): (css: Option<string>)
    ensures css.Some? <==> UseGlobalStyles(base, record, ops).Some?
  {
    var styles := UseGlobalStyles(base, record, ops);
    if styles.None? then None
    else Some(Renderer.CompileStyles(ToCase(Branch(styles.value), ops.kebab).kids, ops.kebab, ops.showNumber))
  }
}

=== FILE: js_renderer.dfy ===
/**
 packages/global-styles/src/renderer.js: the styles object flattened into
 custom-property names, compiled into one `:root` rule plus a fixed editor
 rule, and written into a single `<style>` element of the document.
 */
module Renderer {
  import opened OrderedMap
  import opened StyleTree
  import opened Strings

  /** The inner loop of `flattenObject`: every entry of a flattened child
      assigned as `toReturn[ i + token + kebabCase( x ) ]`. */
  function PrefixFrom(flat: Map<Scalar>, prefix: string, kebab: string -> string, acc: Map<Scalar>): Map<Scalar>
    decreases |flat|
  {
    if |flat| == 0 then acc
    else PrefixFrom(flat[1..], prefix, kebab, Set(acc, prefix + kebab(flat[0].key), flat[0].val))
  }

  /** `flattenObject( ob, token )`. A value whose `typeof` is "object" is
      flattened and prefixed; `null` is such a value and, having no own
      keys, contributes nothing; any other value is copied under its key. */
  function Flatten(t: Tree, token: string, kebab: string -> string): Map<Scalar>
    decreases t, 1
  {
    FlattenFrom(t, token, kebab, [])
  }

  function FlattenFrom(t: Tree, token: string, kebab: string -> string, acc: Map<Scalar>): Map<Scalar>
    decreases t, 0
  {
    if |t| == 0 then acc
    else
      var acc' :=
        match t[0].val
        case Branch(kids) => PrefixFrom(Flatten(kids, token, kebab), t[0].key + token, kebab, acc)
        case Leaf(Null) => acc
        case Leaf(v) => Set(acc, t[0].key, v);
      FlattenFrom(t[1..], token, kebab, acc')
  }

  predicate NotNull(v: Scalar)
  {
    v != Null
  }

  lemma {:induction false} PrefixFromNotNull(flat: Map<Scalar>, prefix: string, kebab: string -> string, acc: Map<Scalar>)
    requires AllValues(flat, NotNull) && AllValues(acc, NotNull)
    ensures AllValues(PrefixFrom(flat, prefix, kebab, acc), NotNull)
    decreases |flat|
  {
    if |flat| > 0 {
      SetAllValues(acc, prefix + kebab(flat[0].key), flat[0].val, NotNull);
      assert AllValues(flat[1..], NotNull) by {
        assert forall i :: 0 <= i < |flat[1..]| ==> flat[1..][i] == flat[i + 1];
      }
      PrefixFromNotNull(flat[1..], prefix, kebab, Set(acc, prefix + kebab(flat[0].key), flat[0].val));
    }
  }

  /** `null` never reaches the flattened styles, at any depth. */
  lemma {:induction false} FlattenNotNull(t: Tree, token: string, kebab: string -> string)
    ensures AllValues(Flatten(t, token, kebab), NotNull)
    decreases t, 1
  {
    FlattenFromNotNull(t, token, kebab, []);
  }

  lemma {:induction false} FlattenFromNotNull(t: Tree, token: string, kebab: string -> string, acc: Map<Scalar>)
    requires AllValues(acc, NotNull)
    ensures AllValues(FlattenFrom(t, token, kebab, acc), NotNull)
    decreases t, 0
  {
    if |t| > 0 {
      match t[0].val
      case Branch(kids) =>
        FlattenNotNull(kids, token, kebab);
        PrefixFromNotNull(Flatten(kids, token, kebab), t[0].key + token, kebab, acc);
        FlattenFromNotNull(t[1..], token, kebab, PrefixFrom(Flatten(kids, token, kebab), t[0].key + token, kebab, acc));
      case Leaf(v) =>
        if v != Null {
          SetAllValues(acc, t[0].key, v, NotNull);
          FlattenFromNotNull(t[1..], token, kebab, Set(acc, t[0].key, v));
        } else {
          FlattenFromNotNull(t[1..], token, kebab, acc);
        }
    }
  }

  /** Reference: every name prefixed, nothing merged. */
  function Prefixed(flat: Map<Scalar>, prefix: string, kebab: string -> string): (r: Map<Scalar>)
    ensures |r| == |flat|
  {
    if |flat| == 0 then [] else [Pair(prefix + kebab(flat[0].key), flat[0].val)] + Prefixed(flat[1..], prefix, kebab)
  }

  /** Reference: the non-null leaves in document order, each nested name
      built as `i + token + kebabCase( x )`, nothing merged. */
  function Entries(t: Tree, token: string, kebab: string -> string): Map<Scalar>
    decreases t
  {
    if |t| == 0 then []
    else
      var here :=
        match t[0].val
        case Branch(kids) => Prefixed(Entries(kids, token, kebab), t[0].key + token, kebab)
        case Leaf(Null) => []
        case Leaf(v) => [Pair(t[0].key, v)];
      here + Entries(t[1..], token, kebab)
  }

  /** No two leaves end up with the same flattened name, at any depth. */
  predicate Separated(t: Tree, token: string, kebab: string -> string)
    decreases t
  {
    && Distinct(Entries(t, token, kebab))
    && forall i :: 0 <= i < |t| ==> (t[i].val.Branch? ==> Separated(t[i].val.kids, token, kebab))
  }

  lemma {:induction false} PrefixFromExact(flat: Map<Scalar>, prefix: string, kebab: string -> string, acc: Map<Scalar>)
    requires Distinct(acc + Prefixed(flat, prefix, kebab))
    ensures PrefixFrom(flat, prefix, kebab, acc) == acc + Prefixed(flat, prefix, kebab)
    decreases |flat|
  {
    if |flat| > 0 {
      var here := [Pair(prefix + kebab(flat[0].key), flat[0].val)];
      var rest := Prefixed(flat[1..], prefix, kebab);
      assert acc + Prefixed(flat, prefix, kebab) == (acc + here) + rest;
      DistinctAppend(acc + here, rest);
      DistinctAppend(acc, here);
      assert here[0].key == prefix + kebab(flat[0].key);
      SetFresh(acc, prefix + kebab(flat[0].key), flat[0].val);
      PrefixFromExact(flat[1..], prefix, kebab, acc + here);
    }
  }

  /** Without name clashes, flattening is exactly the reference listing. */
  lemma {:induction false} FlattenExact(t: Tree, token: string, kebab: string -> string)
    requires Separated(t, token, kebab)
    ensures Flatten(t, token, kebab) == Entries(t, token, kebab)
    decreases t, 1
  {
    assert [] + Entries(t, token, kebab) == Entries(t, token, kebab);
    FlattenFromExact(t, token, kebab, []);
  }

  lemma {:induction false} FlattenFromExact(t: Tree, token: string, kebab: string -> string, acc: Map<Scalar>)
    requires Separated(t, token, kebab)
    requires Distinct(acc + Entries(t, token, kebab))
    ensures FlattenFrom(t, token, kebab, acc) == acc + Entries(t, token, kebab)
    decreases t, 0
  {
    if |t| > 0 {
      var here :=
        match t[0].val
        case Branch(kids) => Prefixed(Entries(kids, token, kebab), t[0].key + token, kebab)
        case Leaf(Null) => []
        case Leaf(v) => [Pair(t[0].key, v)];
      var rest := Entries(t[1..], token, kebab);
      assert Entries(t, token, kebab) == here + rest;
      assert acc + Entries(t, token, kebab) == (acc + here) + rest;
      DistinctAppend(acc + here, rest);
      DistinctAppend(here, rest);
      assert Separated(t[1..], token, kebab) by {
        assert forall i :: 0 <= i < |t[1..]| ==> t[1..][i] == t[i + 1];
      }
      match t[0].val
      case Branch(kids) =>
        FlattenExact(kids, token, kebab);
        PrefixFromExact(Entries(kids, token, kebab), t[0].key + token, kebab, acc);
        FlattenFromExact(t[1..], token, kebab, acc + here);
      case Leaf(v) =>
        if v != Null {
          DistinctAppend(acc, here);
          assert here[0].key == t[0].key;
          SetFresh(acc, t[0].key, v);
        } else {
          assert acc + here == acc;
        }
        FlattenFromExact(t[1..], token, kebab, acc + here);
    }
  }

  /** Two names that flatten alike collapse into one entry holding the
      later value: a top-level `color--text` and a nested `color.text`. */
  lemma FlattenCollision(kebab: string -> string)
    requires kebab("text") == "text"
    ensures Flatten([Pair("color--text", Leaf(Str("a"))), Pair("color", Branch([Pair("text", Leaf(Str("b")))]))], "--", kebab)
            == [Pair("color--text", Str("b"))]
  {
    var inner := [Pair("text", Leaf(Str("b")))];
    var t := [Pair("color--text", Leaf(Str("a"))), Pair("color", Branch(inner))];
    FlattenOneLeaf(kebab);
    var first := [Pair("color--text", Str("a"))];
    assert FlattenFrom(t, "--", kebab, []) == FlattenFrom(t[1..], "--", kebab, first);
    PrefixCollides(kebab, first);
    assert FlattenFrom(t[1..], "--", kebab, first) == FlattenFrom([], "--", kebab, [Pair("color--text", Str("b"))]);
  }

  lemma FlattenOneLeaf(kebab: string -> string)
    ensures Flatten([Pair("text", Leaf(Str("b")))], "--", kebab) == [Pair("text", Str("b"))]
  {
    var inner := [Pair("text", Leaf(Str("b")))];
    assert FlattenFrom(inner, "--", kebab, []) == FlattenFrom(inner[1..], "--", kebab, [Pair("text", Str("b"))]);
  }

  lemma PrefixCollides(kebab: string -> string, first: Map<Scalar>)
    requires kebab("text") == "text" && first == [Pair("color--text", Str("a"))]
    ensures PrefixFrom([Pair("text", Str("b"))], "color" + "--", kebab, first) == [Pair("color--text", Str("b"))]
  {
    assert "color" + "--" + kebab("text") == "color--text";
    assert Set(first, "color--text", Str("b")) == [Pair("color--text", Str("b"))];
  }

  /** JavaScript truthiness of a flattened value. */
  predicate Truthy(v: Scalar)
  {
    match v
    case Str(s) => s != ""
    case Num(n) => n != 0.0
    case Bool(b) => b
    case Null => false
  }

  /** `${ value }` in a template literal; how a number prints is a parameter. */
  function Show(v: Scalar, showNumber: real -> string): string
  {
    match v
    case Str(s) => s
    case Num(n) => showNumber(n)
    case Bool(b) => if b then "true" else "false"
    case Null => "null"
  }

  function Declaration(p: Pair<Scalar>, showNumber: real -> string): string
  {
    "--wp--" + p.key + ": " + Show(p.val, showNumber) + ";"
  }

  /** One declaration per truthy flattened value, in order. */
  function Declarations(flat: Map<Scalar>, showNumber: real -> string): seq<string>
  {
    if |flat| == 0 then []
    else
      (if Truthy(flat[0].val) then [Declaration(flat[0], showNumber)] else []) + Declarations(flat[1..], showNumber)
  }

  /** A line is declared iff some truthy value produces it: empty strings,
      zero and `false` are left out. */
  lemma {:induction false} DeclarationsMembership(flat: Map<Scalar>, showNumber: real -> string, line: string)
    ensures line in Declarations(flat, showNumber) <==>
              exists i :: 0 <= i < |flat| && Truthy(flat[i].val) && line == Declaration(flat[i], showNumber)
  {
    if |flat| > 0 {
      DeclarationsMembership(flat[1..], showNumber, line);
      if exists i :: 0 <= i < |flat| && Truthy(flat[i].val) && line == Declaration(flat[i], showNumber) {
        var i :| 0 <= i < |flat| && Truthy(flat[i].val) && line == Declaration(flat[i], showNumber);
        if i > 0 {
          assert flat[1..][i - 1] == flat[i];
        }
      }
      if exists i :: 0 <= i < |flat[1..]| && Truthy(flat[1..][i].val) && line == Declaration(flat[1..][i], showNumber) {
        var i :| 0 <= i < |flat[1..]| && Truthy(flat[1..][i].val) && line == Declaration(flat[1..][i], showNumber);
        assert flat[i + 1] == flat[1..][i];
      }
    }
  }

  lemma {:induction false} DeclarationsAppend(a: Map<Scalar>, b: Map<Scalar>, showNumber: real -> string)
    ensures Declarations(a + b, showNumber) == Declarations(a, showNumber) + Declarations(b, showNumber)
    decreases |a|
  {
    if |a| == 0 {
      assert a + b == b;
    } else {
      assert (a + b)[0] == a[0] && (a + b)[1..] == a[1..] + b;
      DeclarationsAppend(a[1..], b, showNumber);
    }
  }

  /** The fixed rule after `:root`. renderer.js writes it as one literal;
      it is spelled here as three concatenated parts only so that the
      verifier can read its characters, which it cannot do for one literal
      this long. */
  const EditorRule := ".editor-styles-wrapper {" + " background-color: " + "var(--wp--color--background); }"

  /** `compileStyles( styles )`: the lines joined with "\n". */
  function CompileStyles(styles: Tree, kebab: string -> string, showNumber: real -> string): string
  {
    var flat := Flatten(styles, "--", kebab);
    Join([":root {"] + Declarations(flat, showNumber) + ["}", EditorRule], "\n")
  }

  /** No declaration of these styles breaks a line. */
  predicate SingleLine(styles: Tree, kebab: string -> string, showNumber: real -> string)
  {
    var decls := Declarations(Flatten(styles, "--", kebab), showNumber);
    forall i :: 0 <= i < |decls| ==> '\n' !in decls[i]
  }

  /** Read back line by line, the stylesheet is the opening line, one line
      per truthy value, the closing brace and the editor rule. */
  lemma CompileStylesLines(styles: Tree, kebab: string -> string, showNumber: real -> string)
    requires SingleLine(styles, kebab, showNumber)
    ensures Split(CompileStyles(styles, kebab, showNumber), '\n') ==
              [":root {"] + Declarations(Flatten(styles, "--", kebab), showNumber) + ["}", EditorRule]
  {
    var decls := Declarations(Flatten(styles, "--", kebab), showNumber);
    var lines := [":root {"] + decls + ["}", EditorRule];
    forall i | 0 <= i < |lines| ensures '\n' !in lines[i] {
      if i == 0 {
        assert lines[i] == ":root {";
      } else if i <= |decls| {
        assert lines[i] == decls[i - 1];
      } else if i == |decls| + 1 {
        assert lines[i] == "}";
      } else {
        assert lines[i] == EditorRule;
        EditorRuleSingleLine();
      }
    }
    JoinSplit(lines, '\n');
  }

  lemma EditorRuleSingleLine()
    ensures '\n' !in EditorRule
  {
    var a, b, c := ".editor-styles-wrapper {", " background-color: ", "var(--wp--color--background); }";
    assert forall i :: 0 <= i < |a| ==> a[i] != '\n';
    assert forall i :: 0 <= i < |b| ==> b[i] != '\n';
    assert forall i :: 0 <= i < |c| ==> c[i] != '\n';
    assert EditorRule == a + b + c;
  }

  /** The loop of `compileStyles`, pushing one line per truthy value. */
  method Compile(styles: Tree, kebab: string -> string, showNumber: real -> string) returns (css: string)
    ensures css == CompileStyles(styles, kebab, showNumber)
  {
    var flat := Flatten(styles, "--", kebab);
    var html := [":root {"];
    var i := 0;
    while i < |flat|
      invariant 0 <= i <= |flat|
      invariant html == [":root {"] + Declarations(flat[..i], showNumber)
    {
      DeclarationsAppend(flat[..i], [flat[i]], showNumber);
      assert flat[..i + 1] == flat[..i] + [flat[i]];
      if Truthy(flat[i].val) {
        html := html + [Declaration(flat[i], showNumber)];
      }
      i := i + 1;
    }
    assert flat[..i] == flat;
    html := html + ["}"];
    html := html + [EditorRule];
    assert html == [":root {"] + Declarations(flat, showNumber) + ["}", EditorRule];
    css := Join(html, "\n");
  }

  lemma ExampleInner(kebab: string -> string)
    ensures Flatten([Pair("background", Leaf(Str("#fff"))), Pair("text", Leaf(Str("")))], "--", kebab)
            == [Pair("background", Str("#fff")), Pair("text", Str(""))]
  {
    var inner := [Pair("background", Leaf(Str("#fff"))), Pair("text", Leaf(Str("")))];
    var one := [Pair("background", Str("#fff"))];
    assert FlattenFrom(inner, "--", kebab, []) == FlattenFrom(inner[1..], "--", kebab, one);
    assert FlattenFrom(inner[1..], "--", kebab, one) == FlattenFrom([], "--", kebab, Set(one, "text", Str("")));
  }

  lemma ExamplePrefix(kebab: string -> string)
    requires kebab("background") == "background" && kebab("text") == "text"
    ensures PrefixFrom([Pair("background", Str("#fff")), Pair("text", Str(""))], "color" + "--", kebab, [])
            == [Pair("color--background", Str("#fff")), Pair("color--text", Str(""))]
  {
    var innerFlat := [Pair("background", Str("#fff")), Pair("text", Str(""))];
    assert "color" + "--" + kebab("background") == "color--background";
    assert "color" + "--" + kebab("text") == "color--text";
    var one := [Pair("color--background", Str("#fff"))];
    assert PrefixFrom(innerFlat, "color" + "--", kebab, []) == PrefixFrom(innerFlat[1..], "color" + "--", kebab, one);
    assert PrefixFrom(innerFlat[1..], "color" + "--", kebab, one) ==
           PrefixFrom([], "color" + "--", kebab, Set(one, "color--text", Str("")));
  }

  lemma ExampleDeclarations(showNumber: real -> string)
    ensures Declarations([Pair("color--background", Str("#fff")), Pair("color--text", Str(""))], showNumber)
            == ["--wp--color--background: #fff;"]
  {
    var flat := [Pair("color--background", Str("#fff")), Pair("color--text", Str(""))];
    assert Declaration(flat[0], showNumber) == "--wp--color--background: #fff;";
    assert Declarations(flat, showNumber) == [Declaration(flat[0], showNumber)] + Declarations(flat[1..], showNumber);
    assert Declarations(flat[1..], showNumber) == [] + Declarations(flat[2..], showNumber);
  }

  lemma ExampleFlatten(kebab: string -> string)
    requires kebab("background") == "background" && kebab("text") == "text"
    ensures Flatten([Pair("color", Branch([Pair("background", Leaf(Str("#fff"))), Pair("text", Leaf(Str("")))]))], "--", kebab)
            == [Pair("color--background", Str("#fff")), Pair("color--text", Str(""))]
  {
    var inner := [Pair("background", Leaf(Str("#fff"))), Pair("text", Leaf(Str("")))];
    var styles := [Pair("color", Branch(inner))];
    ExampleInner(kebab);
    ExamplePrefix(kebab);
    assert styles[0].val == Branch(inner) && styles[1..] == [];
    assert FlattenFrom(styles, "--", kebab, []) ==
           FlattenFrom(styles[1..], "--", kebab, PrefixFrom(Flatten(inner, "--", kebab), styles[0].key + "--", kebab, []));
  }

  /** A small stylesheet: the nested name is joined with the token, and the
      empty value is left out. */
  lemma CompileExample(kebab: string -> string, showNumber: real -> string)
    requires kebab("background") == "background" && kebab("text") == "text"
    ensures CompileStyles([Pair("color", Branch([Pair("background", Leaf(Str("#fff"))), Pair("text", Leaf(Str("")))]))], kebab, showNumber)
            == Join([":root {", "--wp--color--background: #fff;", "}", EditorRule], "\n")
  {
    ExampleFlatten(kebab);
    ExampleDeclarations(showNumber);
    var lines := [":root {"] + ["--wp--color--background: #fff;"] + ["}", EditorRule];
    assert lines == [":root {", "--wp--color--background: #fff;", "}", EditorRule];
  }

  /** An element of the document, in document order. */
  datatype Element = Element(tag: string, id: string, text: string)

  const StyleNodeId := "wp-global-styles-tag"

  /** `document.getElementById( id )`: the first element with that id. */
  function FindById(doc: seq<Element>, id: string): (r: int)
    ensures -1 <= r < |doc|
    ensures r >= 0 ==> doc[r].id == id && forall j :: 0 <= j < r ==> doc[j].id != id
    ensures r == -1 ==> forall j :: 0 <= j < |doc| ==> doc[j].id != id
  {
    if |doc| == 0 then -1
    else if doc[0].id == id then 0
    else
      var r := FindById(doc[1..], id);
      if r == -1 then -1 else r + 1
  }

  lemma {:induction false} FindByIdAt(doc: seq<Element>, id: string, i: int)
    requires 0 <= i < |doc| && doc[i].id == id
    requires forall j :: 0 <= j < i ==> doc[j].id != id
    ensures FindById(doc, id) == i
  {
    if i > 0 {
      assert forall j :: 0 <= j < i - 1 ==> doc[1..][j] == doc[j + 1];
      FindByIdAt(doc[1..], id, i - 1);
    }
  }

  /** The effect of `useRenderedGlobalStyles`: create the style element
      when there is none (appended to `<head>`, here the end of the
      document), then set its text. */
  function ApplyStyles(doc: seq<Element>, css: string): (r: seq<Element>)
    ensures FindById(r, StyleNodeId) >= 0 && r[FindById(r, StyleNodeId)].text == css
    ensures |r| == if FindById(doc, StyleNodeId) >= 0 then |doc| else |doc| + 1
    ensures forall j :: 0 <= j < |doc| && j != FindById(doc, StyleNodeId) ==> r[j] == doc[j]
  {
    var i := FindById(doc, StyleNodeId);
    if i < 0 then
      var r := doc + [Element("style", StyleNodeId, css)];
      assert forall j :: 0 <= j < |doc| ==> r[j] == doc[j];
      FindByIdAt(r, StyleNodeId, |doc|);
      r
    else
      var r := doc[i := doc[i].(text := css)];
      FindByIdAt(r, StyleNodeId, i);
      r
  }

  /** Only the last stylesheet shows, and rendering twice adds no element. */
  lemma ApplyStylesLastWins(doc: seq<Element>, a: string, b: string)
    ensures ApplyStyles(ApplyStyles(doc, a), b) == ApplyStyles(doc, b)
  {
    var i := FindById(doc, StyleNodeId);
    var once := ApplyStyles(doc, a);
    if i < 0 {
      FindByIdAt(once, StyleNodeId, |doc|);
    } else {
      FindByIdAt(once, StyleNodeId, i);
    }
  }

  lemma ApplyStylesIdempotent(doc: seq<Element>, css: string)
    ensures ApplyStyles(ApplyStyles(doc, css), css) == ApplyStyles(doc, css)
  {
    ApplyStylesLastWins(doc, css, css);
  }

  /** `useGlobalStylesEnvironment`: the class `wp-gs` added to the target's
      class list unless it is already there. */
  function AddEnvironmentClass(classes: seq<string>): (r: seq<string>)
    ensures "wp-gs" in r
    ensures |classes| <= |r| <= |classes| + 1 && r[..|classes|] == classes
    ensures "wp-gs" in classes ==> r == classes
  {
    if "wp-gs" in classes then classes else classes + ["wp-gs"]
  }

  lemma AddEnvironmentClassIdempotent(classes: seq<string>)
    ensures AddEnvironmentClass(AddEnvironmentClass(classes)) == AddEnvironmentClass(classes)
  {
  }
}

=== FILE: js_store.dfy ===
/**
 The older hook of packages/global-styles/src/store.js: base styles in
 camelCase, the user's stored content spread over them at the top level, and
 the heading sizes and line height generated; the setters do nothing.
 */
module Store {
  import opened OrderedMap
  import opened StyleTree
  import opened Strings
  import opened CaseTree
  import opened JsStyles
  import Renderer

  /** The edited record as `useSelect` returns it: `Empty` has no keys yet;
      `Content(None)` holds text `JSON.parse` rejects. */
  datatype UserRecord = Empty | Content(parsed: Option<Node>)

  /** The keys `generateFontSizesHeading` and `generateLineHeightHeading`
      write: `fontSize` itself first, then the six sizes, then the line height. */
  const GeneratedKeys: seq<string> := ["fontSize"] + SizeKeys + ["lineHeightHeading"]

  function Generated(typography: Tree, fontSize: string, ops: JsOps): Tree
  {
    [Pair("fontSize", Leaf(Str(fontSize)))] + FontSizesHeading(typography, fontSize, ops) + LineHeightHeading(typography, ops)
  }

  lemma GeneratedKeysDistinct()
    ensures forall i, j :: 0 <= i < j < |GeneratedKeys| ==> GeneratedKeys[i] != GeneratedKeys[j]
  {
    forall i, j | 0 <= i < j < |GeneratedKeys| ensures GeneratedKeys[i] != GeneratedKeys[j] {
      if i == 0 {
        assert |GeneratedKeys[i]| == 8 && |GeneratedKeys[j]| >= 16;
      } else if j < 7 {
        assert GeneratedKeys[i][15] != GeneratedKeys[j][15];
      } else {
        assert |GeneratedKeys[i]| == 16 && |GeneratedKeys[j]| == 17;
      }
    }
  }

  lemma GeneratedKeysOf(typography: Tree, fontSize: string, ops: JsOps)
    ensures Keys(Generated(typography, fontSize, ops)) == GeneratedKeys
  {
    var sizes := FontSizesHeading(typography, fontSize, ops);
    var g := Generated(typography, fontSize, ops);
    FontSizesHeadingShape(typography, fontSize, ops);
    assert forall i :: 1 <= i < 7 ==> g[i] == sizes[i - 1];
    forall i | 0 <= i < |g| ensures Keys(g)[i] == GeneratedKeys[i] {
      KeysIndex(g, i);
      if 1 <= i < 7 {
        KeysIndex(sizes, i - 1);
      }
    }
  }

  /** Exactly the eight keys, every value a string; `fontSize` is written
      back unchanged and the six sizes end in "px". */
  lemma GeneratedShape(typography: Tree, fontSize: string, ops: JsOps)
    ensures var g := Generated(typography, fontSize, ops);
            && Keys(g) == GeneratedKeys
            && WellFormedTree(g)
            && g[0].val == Leaf(Str(fontSize))
            && (forall i :: 0 <= i < |g| ==> g[i].val.Leaf? && g[i].val.v.Str?)
            && (forall i :: 1 <= i < 7 ==> EndsWith(g[i].val.v.s, "px"))
  {
    var sizes := FontSizesHeading(typography, fontSize, ops);
    var g := Generated(typography, fontSize, ops);
    FontSizesHeadingShape(typography, fontSize, ops);
    assert forall i :: 1 <= i < 7 ==> g[i] == sizes[i - 1];
    GeneratedKeysOf(typography, fontSize, ops);
    GeneratedKeysDistinct();
    assert Distinct(g) by {
      forall i, j | 0 <= i < j < |g| ensures g[i].key != g[j].key {
        KeysIndex(g, i);
        KeysIndex(g, j);
      }
    }
  }

  lemma GeneratedHasKey(typography: Tree, fontSize: string, ops: JsOps, k: string)
    ensures HasKey(Generated(typography, fontSize, ops), k) <==> k in GeneratedKeys
  {
    var g := Generated(typography, fontSize, ops);
    GeneratedShape(typography, fontSize, ops);
    HasKeyIff(g, k);
    if k in GeneratedKeys {
      var i :| 0 <= i < |GeneratedKeys| && GeneratedKeys[i] == k;
      KeysIndex(g, i);
    }
    if HasKey(g, k) {
      var i :| 0 <= i < |g| && g[i].key == k;
      KeysIndex(g, i);
    }
  }

  /** The styles before generation: `{ ...base, ...toCamelCase( content ) }`
      once the record has keys. Spreading `null` or a number adds nothing, so
      the only thrown error is the SyntaxError of unparsable content. */
  function MergedStyles(base: Tree, record: UserRecord, ops: JsOps): (r: Option<Tree>)
    ensures r.None? <==> record == Content(None)
    ensures record.Empty? ==> r == Some(ToCase(Branch(base), ops.camel).kids)
    ensures r.Some? ==> WellFormedTree(r.value)
  {
    var styles := ToCase(Branch(base), ops.camel).kids;
    ToCaseWellFormed(Branch(base), ops.camel);
    match record
    case Empty => Some(styles)
    case Content(None) => None
    case Content(Some(parsed)) =>
      var user := ToCase(parsed, ops.camel);
      ToCaseWellFormed(parsed, ops.camel);
      WellFormedMerge(styles, Spread(Some(user)));
      Some(Merge(styles, Spread(Some(user))))
  }

  /** A top-level user domain replaces the base domain as a whole: nothing
      of the base domain survives beside it. */
  lemma MergedStylesLookup(base: Tree, parsed: Node, ops: JsOps, k: string)
    ensures var user := Spread(Some(ToCase(parsed, ops.camel)));
            var styles := ToCase(Branch(base), ops.camel).kids;
            Lookup(MergedStyles(base, Content(Some(parsed)), ops).value, k) ==
              if HasKey(user, k) then Lookup(user, k) else Lookup(styles, k)
  {
    ToCaseWellFormed(parsed, ops.camel);
    MergeLookup(ToCase(Branch(base), ops.camel).kids, Spread(Some(ToCase(parsed, ops.camel))), k);
  }

  /** `useGlobalStyles`: `None` is a thrown error, the SyntaxError or the
      generators' TypeError when `typography` is not an object whose
      `fontSize` is a string. */
  function UseGlobalStyles(base: Tree, record: UserRecord, ops: JsOps): (r: Option<Tree>)
    ensures r.Some? <==> MergedStyles(base, record, ops).Some? &&
                         HasStringFontSize(Lookup(MergedStyles(base, record, ops).value, "typography"))
    ensures r.Some? ==> WellFormedTree(r.value)
    ensures r.Some? ==> Keys(r.value) == Keys(MergedStyles(base, record, ops).value)
    ensures r.Some? ==> forall k :: k != "typography" ==>
              Lookup(r.value, k) == Lookup(MergedStyles(base, record, ops).value, k)
  {
    var merged := MergedStyles(base, record, ops);
    if merged.None? then None
    else
      var typography := Typography(merged.value);
      if typography.None? then None
      else
        var (kids, fontSize) := typography.value;
        GeneratedShape(kids, fontSize, ops);
        HasKeyIff(merged.value, "typography");
        Some(WithGenerated(merged.value, Generated(kids, fontSize, ops)))
  }

  lemma NoFontWeightKey()
    ensures "fontWeightHeading" !in GeneratedKeys
  {
    forall i | 0 <= i < |GeneratedKeys| ensures GeneratedKeys[i] != "fontWeightHeading" {
      if i == 0 {
        assert |GeneratedKeys[i]| == 8;
      } else if i < 7 {
        assert |GeneratedKeys[i]| == 16;
      } else {
        assert GeneratedKeys[i][0] != "fontWeightHeading"[0];
      }
    }
  }

  /** Inside `typography`: the six sizes and the line height are added,
      the sizes ending in "px", and every other key keeps its value. */
  lemma UseGlobalStylesTypography(base: Tree, record: UserRecord, ops: JsOps, k: string)
    requires UseGlobalStyles(base, record, ops).Some?
    ensures var before := Spread(Lookup(MergedStyles(base, record, ops).value, "typography"));
            var after := Spread(Lookup(UseGlobalStyles(base, record, ops).value, "typography"));
            && (HasKey(after, k) <==> HasKey(before, k) || k in GeneratedKeys)
            && (k in SizeKeys ==> Lookup(after, k).Some? && Lookup(after, k).value.Leaf? &&
                                  Lookup(after, k).value.v.Str? && EndsWith(Lookup(after, k).value.v.s, "px"))
            && (k !in GeneratedKeys ==> Lookup(after, k) == Lookup(before, k))
  {
    var merged := MergedStyles(base, record, ops).value;
    var (kids, fontSize) := Typography(merged).value;
    var g := Generated(kids, fontSize, ops);
    UseGlobalStylesIs(base, record, ops);
    GeneratedHasKey(kids, fontSize, ops, k);
    WithGeneratedTypography(merged, g, k);
    if k in SizeKeys {
      SizeLookup(kids, fontSize, ops, k);
    }
  }

  lemma UseGlobalStylesIs(base: Tree, record: UserRecord, ops: JsOps)
    requires UseGlobalStyles(base, record, ops).Some?
    ensures var merged := MergedStyles(base, record, ops).value;
            var t := Typography(merged).value;
            && WellFormedTree(merged)
            && WellFormedTree(Generated(t.0, t.1, ops))
            && UseGlobalStyles(base, record, ops).value == WithGenerated(merged, Generated(t.0, t.1, ops))
  {
    var t := Typography(MergedStyles(base, record, ops).value).value;
    GeneratedShape(t.0, t.1, ops);
  }

  /** A generated size holds a string ending in "px". */
  lemma SizeLookup(typography: Tree, fontSize: string, ops: JsOps, k: string)
    requires k in SizeKeys
    ensures var g := Generated(typography, fontSize, ops);
            && Lookup(g, k).Some? && Lookup(g, k).value.Leaf? && Lookup(g, k).value.v.Str?
            && EndsWith(Lookup(g, k).value.v.s, "px")
  {
    var g := Generated(typography, fontSize, ops);
    GeneratedShape(typography, fontSize, ops);
    var i :| 0 <= i < |SizeKeys| && SizeKeys[i] == k;
    assert GeneratedKeys[i + 1] == k;
    KeysIndex(g, i + 1);
    LookupAt(g, i + 1);
  }

  /** `fontSize` is generated too, but with its own string, and no heading
      font weight is generated, unlike provider.js. */
  lemma UseGlobalStylesFontSizeAndWeight(base: Tree, record: UserRecord, ops: JsOps)
    requires UseGlobalStyles(base, record, ops).Some?
    ensures var before := Spread(Lookup(MergedStyles(base, record, ops).value, "typography"));
            var after := Spread(Lookup(UseGlobalStyles(base, record, ops).value, "typography"));
            && Lookup(after, "fontSize") == Lookup(before, "fontSize")
            && Lookup(after, "fontWeightHeading") == Lookup(before, "fontWeightHeading")
  {
    var merged := MergedStyles(base, record, ops).value;
    var (kids, fontSize) := Typography(merged).value;
    var g := Generated(kids, fontSize, ops);
    GeneratedShape(kids, fontSize, ops);
    KeysIndex(g, 0);
    LookupAt(g, 0);
    WithGeneratedTypography(merged, g, "fontSize");
    NoFontWeightKey();
    UseGlobalStylesTypography(base, record, ops, "fontWeightHeading");
  }

  /** The stylesheet the hook renders: the camelCase styles compiled as
      they are; `None` when the hook throws first. */
  function RenderedCss(base: Tree, record: UserRecord, ops: JsOps): (css: Option<string>)
    ensures css.Some? <==> UseGlobalStyles(base, record, ops).Some?
  {
    var styles := UseGlobalStyles(base, record, ops);
    if styles.None? then None
    else Some(Renderer.CompileStyles(styles.value, ops.kebab, ops.showNumber))
  }

  /** The hook's `setColor` and `setTypography`: `() => {}`. Whatever new
      styles they are handed, the stored record stays as it was. */
  function SetStyles(record: UserRecord, newStyles: Tree): (r: UserRecord)
    ensures r == record
  {
    record
  }

  /** Calling either setter changes nothing the hook renders next. */
  lemma SettersChangeNothing(base: Tree, record: UserRecord, newStyles: Tree, ops: JsOps)
    ensures UseGlobalStyles(base, SetStyles(record, newStyles), ops) == UseGlobalStyles(base, record, ops)
    ensures RenderedCss(base, SetStyles(record, newStyles), ops) == RenderedCss(base, record, ops)
  {
  }

  /** The returned context value: the styles, then the two setters, both
      doing nothing. */
  lemma ContextValueShape(styles: Tree)
    ensures var r := ContextValue(styles, NoOp, NoOp);
            && |styles| <= |r| && Keys(r)[..|styles|] == Keys(styles)
            && Lookup(r, "setColor") == Some(NoOp) && Lookup(r, "setTypography") == Some(NoOp)
            && forall k :: k != "setColor" && k != "setTypography" ==>
                 Lookup(r, k) == if HasKey(styles, k) then Some(Style(Lookup(styles, k).value)) else None
  {
    ContextValueContents(styles, NoOp, NoOp);
  }
}

=== FILE: js_styles.dfy ===
/**
 What packages/global-styles/src/provider.js and store.js share: reading a
 property of a decoded JSON value, the opaque case transforms and number
 formatting, and the "merge generated styles" step that rebuilds the
 `typography` domain as `{ ...styles.typography, ...generated }`.
 */
module JsStyles {
  import opened OrderedMap
  import opened StyleTree
  import opened Strings
  import opened Numbers
  import opened JsUtils

  /** The parts of JavaScript and lodash the model takes as given:
      `camelCase`, `kebabCase`, `(v * factor).toFixed(2)`,
      `(Math.pow(fontScale, exponent) * fontBase).toFixed(2)` and how a
      number prints in a template literal. */
  datatype JsOps = JsOps(
    camel: string -> string,
    kebab: string -> string,
    showNumber: real -> string,
    fixedScaled: (Option<Node>, real) -> string,
    scaledSize: (Option<Node>, real, Number) -> string)

  /** `value.key` for a value that is not `null` or `undefined`: only an
      object has own properties. */
  function Prop(v: Option<Node>, key: string): (r: Option<Node>)
    ensures v.None? ==> r.None?
    ensures v.Some? ==> r == Get(v.value, key)
  {
    if v.Some? then Get(v.value, key) else None
  }

  /** The six heading-size keys `generateFontSizesHeading` writes, with
      the exponents `toScale` is called with. */
  const SizeKeys: seq<string> := ["fontSizeHeading1", "fontSizeHeading2", "fontSizeHeading3",
                                  "fontSizeHeading4", "fontSizeHeading5", "fontSizeHeading6"]
  const SizeExponents: seq<real> := [5.0, 4.0, 3.0, 2.0, 1.0, 0.5]

  /** `toPx( toScale( e ) )` for each exponent. */
  function FontSizesHeading(typography: Tree, fontSize: string, ops: JsOps): Tree
  {
    var fontBase := FromPx(fontSize);
    var scale := Lookup(typography, "fontScale");
    seq(6, i requires 0 <= i < 6 =>
      Pair(SizeKeys[i], Leaf(Str(ToPx(ops.scaledSize(scale, SizeExponents[i], fontBase))))))
  }

  /** The six sizes are strings ending in "px", under the six size keys in order. */
  lemma FontSizesHeadingShape(typography: Tree, fontSize: string, ops: JsOps)
    ensures var d := FontSizesHeading(typography, fontSize, ops);
            && Keys(d) == SizeKeys
            && forall i :: 0 <= i < |d| ==> d[i].val.Leaf? && d[i].val.v.Str? && EndsWith(d[i].val.v.s, "px")
  {
    var d := FontSizesHeading(typography, fontSize, ops);
    forall i | 0 <= i < |d| ensures Keys(d)[i] == SizeKeys[i] && EndsWith(d[i].val.v.s, "px") {
      KeysIndex(d, i);
      var fontBase := FromPx(fontSize);
      var scale := Lookup(typography, "fontScale");
      var shown := ops.scaledSize(scale, SizeExponents[i], fontBase);
      assert d[i].val.v.s == ToPx(shown);
    }
  }

  /** `generateLineHeightHeading`: `( lineHeight * 0.8 ).toFixed( 2 )`. */
  function LineHeightHeading(typography: Tree, ops: JsOps): Tree
  {
    [Pair("lineHeightHeading", Leaf(Str(ops.fixedScaled(Lookup(typography, "lineHeight"), 0.8))))]
  }

  /** `typography` is an object whose `fontSize` is a string. */
  predicate HasStringFontSize(typography: Option<Node>)
  {
    && typography.Some? && typography.value.Branch?
    && Lookup(typography.value.kids, "fontSize").Some?
    && Lookup(typography.value.kids, "fontSize").value.Leaf?
    && Lookup(typography.value.kids, "fontSize").value.v.Str?
  }

  /** The `typography` object the generators destructure, with its
      `fontSize` string. `None` is the TypeError thrown when `typography`
      is `undefined` or `null` (destructuring) or its `fontSize` is not a
      string (`fromPx` calls `value.replace`). */
  function Typography(styles: Tree): (r: Option<(Tree, string)>)
    ensures r.Some? <==> HasStringFontSize(Lookup(styles, "typography"))
    ensures r.Some? ==> Lookup(styles, "typography") == Some(Branch(r.value.0))
    ensures r.Some? ==> Lookup(r.value.0, "fontSize") == Some(Leaf(Str(r.value.1)))
  {
    var typography := Lookup(styles, "typography");
    if HasStringFontSize(typography) then
      Some((typography.value.kids, Lookup(typography.value.kids, "fontSize").value.v.s))
    else None
  }

  /** `{ ...styles, typography: { ...styles.typography, ...generated } }`. */
  function WithGenerated(styles: Tree, generated: Tree): (r: Tree)
    requires WellFormedTree(styles) && WellFormedTree(generated)
    ensures WellFormedTree(r)
    ensures Keys(r) == if HasKey(styles, "typography") then Keys(styles) else Keys(styles) + ["typography"]
    ensures forall k :: k != "typography" ==> Lookup(r, k) == Lookup(styles, k)
    ensures Lookup(r, "typography").Some? && Lookup(r, "typography").value.Branch?
  {
    var prior := Spread(Lookup(styles, "typography"));
    WellFormedLookup(styles, "typography");
    WellFormedMerge(prior, generated);
    WellFormedSet(styles, "typography", Branch(Merge(prior, generated)));
    Set(styles, "typography", Branch(Merge(prior, generated)))
  }

  /** Inside `typography` every prior key stays, with its value unless a
      generated key of the same name replaces it, and every generated key
      is added. */
  lemma WithGeneratedTypography(styles: Tree, generated: Tree, k: string)
    requires WellFormedTree(styles) && WellFormedTree(generated)
    ensures var after := Spread(Lookup(WithGenerated(styles, generated), "typography"));
            var before := Spread(Lookup(styles, "typography"));
            && (HasKey(after, k) <==> HasKey(before, k) || HasKey(generated, k))
            && Lookup(after, k) == if HasKey(generated, k) then Lookup(generated, k) else Lookup(before, k)
  {
    var before := Spread(Lookup(styles, "typography"));
    MergeHasKey(before, generated, k);
    MergeLookup(before, generated, k);
  }

  /** A value in the context object: a style domain, a setter that writes
      the user record for one domain, or a setter that does nothing
      (`() => {}`). */
  datatype Entry = Style(node: Node) | Setter(domain: string) | NoOp

  function StyleEntries(t: Tree): (r: Map<Entry>)
    ensures Keys(r) == Keys(t)
    ensures forall k :: Lookup(r, k) == if HasKey(t, k) then Some(Style(Lookup(t, k).value)) else None
  {
    if |t| == 0 then [] else [Pair(t[0].key, Style(t[0].val))] + StyleEntries(t[1..])
  }

  /** `{ ...styles, setColor, setTypography }`. */
  function ContextValue(styles: Tree, setColor: Entry, setTypography: Entry): Map<Entry>
  {
    Set(Set(StyleEntries(styles), "setColor", setColor), "setTypography", setTypography)
  }

  /** The context value lists the style domains first, then the two
      setters; every other key maps to its style domain. */
  lemma ContextValueContents(styles: Tree, setColor: Entry, setTypography: Entry)
    ensures var r := ContextValue(styles, setColor, setTypography);
            && |styles| <= |r| && Keys(r)[..|styles|] == Keys(styles)
            && Lookup(r, "setColor") == Some(setColor)
            && Lookup(r, "setTypography") == Some(setTypography)
            && forall k :: k != "setColor" && k != "setTypography" ==>
                 Lookup(r, k) == if HasKey(styles, k) then Some(Style(Lookup(styles, k).value)) else None
  {
    ContextValueKeys(styles, setColor, setTypography);
    ContextValueSetters(styles, setColor, setTypography);
    forall k | k != "setColor" && k != "setTypography"
      ensures Lookup(ContextValue(styles, setColor, setTypography), k) ==
                if HasKey(styles, k) then Some(Style(Lookup(styles, k).value)) else None
    {
      ContextValueStyle(styles, setColor, setTypography, k);
    }
  }

  lemma ContextValueKeys(styles: Tree, setColor: Entry, setTypography: Entry)
    ensures var r := ContextValue(styles, setColor, setTypography);
            |styles| <= |r| && Keys(r)[..|styles|] == Keys(styles)
  {
    var entries := StyleEntries(styles);
    var withColor := Set(entries, "setColor", setColor);
    SetKeysPrefix(entries, "setColor", setColor);
    SetKeysPrefix(withColor, "setTypography", setTypography);
    PrefixOfPrefix(Keys(ContextValue(styles, setColor, setTypography)), Keys(withColor), |styles|);
  }

  lemma ContextValueSetters(styles: Tree, setColor: Entry, setTypography: Entry)
    ensures Lookup(ContextValue(styles, setColor, setTypography), "setColor") == Some(setColor)
    ensures Lookup(ContextValue(styles, setColor, setTypography), "setTypography") == Some(setTypography)
  {
    assert |"setColor"| != |"setTypography"|;
    SetTwice(StyleEntries(styles), "setColor", setColor, "setTypography", setTypography);
  }

  lemma SetTwice<V>(m: Map<V>, k1: string, v1: V, k2: string, v2: V)
    requires k1 != k2
    ensures Lookup(Set(Set(m, k1, v1), k2, v2), k1) == Some(v1)
    ensures Lookup(Set(Set(m, k1, v1), k2, v2), k2) == Some(v2)
  {
  }

  lemma ContextValueStyle(styles: Tree, setColor: Entry, setTypography: Entry, k: string)
    requires k != "setColor" && k != "setTypography"
    ensures Lookup(ContextValue(styles, setColor, setTypography), k) ==
              if HasKey(styles, k) then Some(Style(Lookup(styles, k).value)) else None
  {
    var withColor := Set(StyleEntries(styles), "setColor", setColor);
    assert Lookup(ContextValue(styles, setColor, setTypography), k) == Lookup(withColor, k);
  }

  /** Setting a key leaves the keys before it in place. */
  lemma SetKeysPrefix<V>(m: Map<V>, k: string, v: V)
    ensures |m| <= |Set(m, k, v)| && Keys(Set(m, k, v))[..|m|] == Keys(m)
  {
    if !HasKey(m, k) {
      assert (Keys(m) + [k])[..|m|] == Keys(m);
    }
  }

  lemma PrefixOfPrefix<T>(a: seq<T>, b: seq<T>, n: nat)
    requires n <= |b| <= |a| && a[..|b|] == b
    ensures a[..n] == b[..n]
  {
    assert forall i :: 0 <= i < n ==> a[i] == a[..|b|][i];
  }
}

=== FILE: js_utils.dfy ===
/**
 packages/global-styles/src/utils.js (and the identical `toPx` / `fromPx`
 at the end of store.js): pixel strings and the site-editor test.
 */
module JsUtils {
  import opened Strings
  import opened Numbers

  /** `toPx(value)`: the template string `${value}px`. */
  function ToPx(value: string): (r: string)
    ensures EndsWith(r, "px") && |r| == |value| + 2 && r[..|value|] == value
  {
    EndsWithAppend(value, "px");
    value + "px"
  }

  /** `fromPx(value)`: the first "px" removed, then unary `+`. */
  function FromPx(value: string): Number
  {
    ToNumber(ReplaceFirst(value, "px", ""))
  }

  /** A whole number of pixels survives the round trip: `fromPx(toPx(n)) == n`. */
  lemma FromPxToPx(n: int)
    ensures FromPx(ToPx(IntToString(n))) == Integer(n)
  {
    var s := IntToString(n);
    IntToStringChars(n);
    ReplaceFirstAfter(s, "px", "", "");
    assert s + "px" + "" == ToPx(s);
    assert s + "" + "" == s;
    ToNumberOfInt(n);
  }

  /** Only the first "px" is removed: "1px2px" reads as the text "12px",
      not a number. */
  lemma FromPxFirstOnly()
    ensures FromPx("1px2px") == Unmodelled("12px")
  {
    ReplaceFirstAfter("1", "px", "2px", "");
    assert "1" + "px" + "2px" == "1px2px";
    assert "1" + "" + "2px" == "12px";
    assert !IsIntegerText("12px") by {
      assert !IsDigit("12px"[2]);
    }
  }

  const EditSiteQuery: string := "page=gutenberg-edit-site"

  /** `isEditSite()`, with `window.location.search` as a parameter. */
  function IsEditSite(search: string): (r: bool)
    ensures r <==> Contains(search, EditSiteQuery)
  {
    IndexOfSpec(search, EditSiteQuery);
    IndexOf(search, EditSiteQuery) >= 0
  }
}

=== FILE: next_tabbable.dfy ===
/**
 `getNextTabbable` of packages/test-utils/src/utils/get-next-tabbable.js:
 the element that receives focus after the active one when Tab is pressed.
 Finding the tabbable elements of the document and the active element is
 DOM work; both arrive here as values.
 */
module NextTabbable {
  import opened OrderedMap

  /** `Array.prototype.indexOf`: the first index holding `x`, or -1. */
  function IndexOf<T(==)>(s: seq<T>, x: T): (r: int)
    ensures -1 <= r < |s|
    ensures r == -1 <==> x !in s
    ensures r >= 0 ==> s[r] == x && forall j :: 0 <= j < r ==> s[j] != x
  {
    if |s| == 0 then -1
    else if s[0] == x then 0
    else
      var rest := IndexOf(s[1..], x);
      if rest == -1 then -1 else rest + 1
  }

  /** The next tabbable element; `None` is the `undefined` read from an
      empty list. */
  function Next<T(==)>(tabbable: seq<T>, active: T): (r: Option<T>)
    ensures r.Some? <==> |tabbable| > 0
    ensures r.Some? ==> r.value in tabbable
  {
    var next := IndexOf(tabbable, active) + 1;
    if next >= |tabbable| then
      if |tabbable| > 0 then Some(tabbable[0]) else None
    else Some(tabbable[next])
  }

  /** Focus moves to the element after the first occurrence of the active one. */
  lemma NextAfter<T>(tabbable: seq<T>, active: T, i: nat)
    requires i + 1 < |tabbable| && tabbable[i] == active
    requires forall j :: 0 <= j < i ==> tabbable[j] != active
    ensures Next(tabbable, active) == Some(tabbable[i + 1])
  {
    assert IndexOf(tabbable, active) == i;
  }

  /** From the last element focus wraps around to the first. */
  lemma NextWraps<T>(tabbable: seq<T>, active: T)
    requires |tabbable| > 0 && tabbable[|tabbable| - 1] == active
    requires forall j :: 0 <= j < |tabbable| - 1 ==> tabbable[j] != active
    ensures Next(tabbable, active) == Some(tabbable[0])
  {
    assert IndexOf(tabbable, active) == |tabbable| - 1;
  }

  /** When nothing tabbable has focus, the first element gets it. */
  lemma NextFromOutside<T>(tabbable: seq<T>, active: T)
    requires |tabbable| > 0 && active !in tabbable
    ensures Next(tabbable, active) == Some(tabbable[0])
  {
  }

  /** No element appears twice. */
  predicate AllDifferent<T(==)>(s: seq<T>)
  {
    forall i, j :: 0 <= i < j < |s| ==> s[i] != s[j]
  }

  /** Over distinct elements Tab is a rotation: each element hands focus
      to the one after it, and the last to the first. */
  lemma NextRotates<T>(tabbable: seq<T>, i: nat)
    requires AllDifferent(tabbable) && i < |tabbable|
    ensures Next(tabbable, tabbable[i]) == Some(if i + 1 < |tabbable| then tabbable[i + 1] else tabbable[0])
  {
    if i + 1 < |tabbable| {
      NextAfter(tabbable, tabbable[i], i);
    } else {
      NextWraps(tabbable, tabbable[i]);
    }
  }

  /** Pressing Tab `steps` times. */
  function Tab<T(==)>(tabbable: seq<T>, active: T, steps: nat): (r: Option<T>)
    ensures steps > 0 ==> (r.Some? <==> |tabbable| > 0)
  {
    if steps == 0 then Some(active)
    else
      match Next(tabbable, active)
      case None => None
      case Some(next) => Tab(tabbable, next, steps - 1)
  }

  /** Presses add up: `a + b` presses are `a` presses, then `b` more. */
  lemma {:induction false} TabCompose<T>(tabbable: seq<T>, active: T, a: nat, b: nat)
    requires |tabbable| > 0
    ensures Tab(tabbable, active, a + b) == Tab(tabbable, Tab(tabbable, active, a).value, b)
    decreases a
  {
    if a > 0 {
      var next := Next(tabbable, active).value;
      TabCompose(tabbable, next, a - 1, b);
      assert Tab(tabbable, active, a + b) == Tab(tabbable, next, a - 1 + b);
    }
  }

  /** Over distinct elements, `k` presses from the element at `i` reach the
      element `k` places further on, as long as the end is not passed. */
  lemma {:induction false} TabAdvances<T>(tabbable: seq<T>, i: nat, k: nat)
    requires AllDifferent(tabbable) && i + k < |tabbable|
    ensures Tab(tabbable, tabbable[i], k) == Some(tabbable[i + k])
    decreases k
  {
    if k > 0 {
      NextRotates(tabbable, i);
      TabAdvances(tabbable, i + 1, k - 1);
    }
  }

  /** A full round of `n` presses returns focus where it started. */
  lemma TabFullCycle<T>(tabbable: seq<T>, i: nat)
    requires AllDifferent(tabbable) && i < |tabbable|
    ensures Tab(tabbable, tabbable[i], |tabbable|) == Some(tabbable[i])
  {
    LastReached(tabbable, i);
    TabAdvances(tabbable, 0, i);
    TabThrough(tabbable, tabbable[i], tabbable[0], tabbable[i], |tabbable| - i, i, |tabbable|);
  }

  /** `a` presses to `mid`, then `b` presses to `last`, are `a + b` presses. */
  lemma TabThrough<T>(tabbable: seq<T>, first: T, mid: T, last: T, a: nat, b: nat, total: nat)
    requires |tabbable| > 0 && total == a + b
    requires Tab(tabbable, first, a) == Some(mid) && Tab(tabbable, mid, b) == Some(last)
    ensures Tab(tabbable, first, total) == Some(last)
  {
    TabCompose(tabbable, first, a, b);
  }

  /** `n - i` presses from the element at `i` reach the first element. */
  lemma {:induction false} LastReached<T>(tabbable: seq<T>, i: nat)
    requires AllDifferent(tabbable) && i < |tabbable|
    ensures Tab(tabbable, tabbable[i], |tabbable| - i) == Some(tabbable[0])
    decreases |tabbable| - i
  {
    if i + 1 == |tabbable| {
      OneStepWraps(tabbable);
    } else {
      NextRotates(tabbable, i);
      TabUnfold(tabbable, tabbable[i], |tabbable| - i);
      LastReached(tabbable, i + 1);
    }
  }

  /** One press, then the rest. */
  lemma TabUnfold<T>(tabbable: seq<T>, active: T, steps: nat)
    requires |tabbable| > 0 && steps > 0
    ensures Tab(tabbable, active, steps) == Tab(tabbable, Next(tabbable, active).value, steps - 1)
  {
  }

  lemma OneStepWraps<T>(tabbable: seq<T>)
    requires AllDifferent(tabbable) && |tabbable| > 0
    ensures Tab(tabbable, tabbable[|tabbable| - 1], 1) == Some(tabbable[0])
  {
    NextRotates(tabbable, |tabbable| - 1);
  }
}

=== FILE: numbers.dfy ===
/**
 Decimal integers as text: how both languages print an integer, JavaScript's
 unary `+` on a string, and PHP's `intval` on a string. Only integer forms
 are interpreted; every other numeric text is carried along uninterpreted.
 */
module Numbers {

  predicate IsDigit(c: char)
  {
    '0' <= c <= '9'
  }

  function DigitChar(d: int): (c: char)
    requires 0 <= d < 10
    ensures IsDigit(c)
  {
    (('0' as int) + d) as char
  }

  function DigitValue(c: char): int
    requires IsDigit(c)
  {
    (c as int) - ('0' as int)
  }

  function NatToString(n: nat): (s: string)
    ensures |s| >= 1
    ensures forall i :: 0 <= i < |s| ==> IsDigit(s[i])
    decreases n
  {
    if n < 10 then [DigitChar(n)] else NatToString(n / 10) + [DigitChar(n % 10)]
  }

  /** How an integer is printed: JavaScript `${n}` and PHP string
      conversion agree on integers. */
  function IntToString(n: int): string
  {
    if n < 0 then "-" + NatToString(-n) else NatToString(n)
  }

  predicate AllDigits(s: string)
  {
    forall i :: 0 <= i < |s| ==> IsDigit(s[i])
  }

  /** Value of a run of decimal digits (leading zeros allowed). */
  function DigitsValue(s: string): nat
    requires AllDigits(s)
  {
    if |s| == 0 then 0 else DigitsValue(s[..|s| - 1]) * 10 + DigitValue(s[|s| - 1])
  }

  lemma {:induction false} DigitsOfNat(n: nat)
    ensures DigitsValue(NatToString(n)) == n
    decreases n
  {
    var s := NatToString(n);
    if n >= 10 {
      DigitsOfNat(n / 10);
      assert s[..|s| - 1] == NatToString(n / 10);
    }
  }

  /** The result of JavaScript's numeric conversion `+s`, as far as this
      model computes it: integer text as an unbounded integer, anything else
      (fractions, exponents, hexadecimal, surrounding white space, NaN)
      uninterpreted. JavaScript rounds an integer beyond 2^53 to the
      nearest double; `Integer` keeps it exact. */
  datatype Number = Integer(i: int) | Unmodelled(text: string)

  /** `s` is an optional sign followed by at least one decimal digit. */
  predicate IsIntegerText(s: string)
  {
    if |s| > 0 && (s[0] == '-' || s[0] == '+') then |s| > 1 && AllDigits(s[1..])
    else |s| > 0 && AllDigits(s)
  }

  /** JavaScript `+s`: the empty string is 0. */
  function ToNumber(s: string): (r: Number)
    ensures IsIntegerText(s) || s == "" <==> r.Integer?
  {
    if s == "" then Integer(0)
    else if IsIntegerText(s) then
      if s[0] == '-' then Integer(-(DigitsValue(s[1..]) as int))
      else if s[0] == '+' then Integer(DigitsValue(s[1..]))
      else Integer(DigitsValue(s))
    else Unmodelled(s)
  }

  /** Printing an integer and converting the text back gives the integer. */
  lemma ToNumberOfInt(n: int)
    ensures ToNumber(IntToString(n)) == Integer(n)
  {
    if n < 0 {
      var d := NatToString(-n);
      var s := IntToString(n);
      assert s == "-" + d;
      assert s[0] == '-' && s[1..] == d;
      assert AllDigits(d);
      assert IsIntegerText(s);
      DigitsOfNat(-n);
      assert ToNumber(s) == Integer(-(DigitsValue(d) as int));
    } else {
      var s := NatToString(n);
      assert IsDigit(s[0]);
      assert IsIntegerText(s);
      DigitsOfNat(n);
      assert ToNumber(s) == Integer(DigitsValue(s));
    }
  }

  /** Length of the longest run of digits at the start of `s`. */
  function DigitRun(s: string): (k: nat)
    ensures k <= |s| && AllDigits(s[..k])
    ensures k < |s| ==> !IsDigit(s[k])
  {
    if |s| == 0 || !IsDigit(s[0]) then 0
    else
      var k := DigitRun(s[1..]) + 1;
      assert s[..k] == [s[0]] + s[1..][..k - 1];
      k
  }

  predicate IsSpace(c: char)
  {
    c == ' ' || c == '\t' || c == '\n' || c == '\r' || c == 11 as char || c == 12 as char
  }

  function SkipSpace(s: string): string
  {
    if |s| > 0 && IsSpace(s[0]) then SkipSpace(s[1..]) else s
  }

  /** The bounds of a PHP integer on a 64-bit build. */
  const PhpIntMax := 0x7FFF_FFFF_FFFF_FFFF
  const PhpIntMin := -0x8000_0000_0000_0000

  /** An integer held to the PHP integer range: beyond a bound, the bound. */
  function Saturate(n: int): (r: int)
    ensures PhpIntMin <= r <= PhpIntMax
    ensures PhpIntMin <= n <= PhpIntMax ==> r == n
    ensures n > PhpIntMax ==> r == PhpIntMax
    ensures n < PhpIntMin ==> r == PhpIntMin
  {
    if n > PhpIntMax then PhpIntMax else if n < PhpIntMin then PhpIntMin else n
  }

  /** The number the text of `intval(s)` spells: leading white space, an
      optional sign and the leading digits; no digits gives 0. */
  function UnboundedIntval(s: string): int
  {
    var t := SkipSpace(s);
    if |t| > 0 && (t[0] == '-' || t[0] == '+') then
      var d := t[1..][..DigitRun(t[1..])];
      if t[0] == '-' then -(DigitsValue(d) as int) else DigitsValue(d)
    else
      DigitsValue(t[..DigitRun(t)])
  }

  /** PHP `intval(s)` on a string: the number its leading text spells, and
      the nearer bound for a value beyond the integer range. */
  function Intval(s: string): int
  {
    Saturate(UnboundedIntval(s))
  }

  lemma {:induction false} DigitRunAll(s: string, rest: string)
    requires AllDigits(s)
    requires |rest| == 0 || !IsDigit(rest[0])
    ensures DigitRun(s + rest) == |s| && (s + rest)[..|s|] == s
    decreases |s|
  {
    var x := s + rest;
    if |s| > 0 {
      assert x[0] == s[0] && IsDigit(x[0]);
      assert x[1..] == s[1..] + rest;
      DigitRunAll(s[1..], rest);
      assert DigitRun(x) == DigitRun(x[1..]) + 1;
    } else {
      assert x == rest;
    }
  }

  /** The text of digits followed by non-digit text spells those digits. */
  lemma UnboundedDigits(d: string, rest: string)
    requires |d| > 0 && AllDigits(d)
    requires |rest| == 0 || !IsDigit(rest[0])
    ensures UnboundedIntval(d + rest) == DigitsValue(d)
  {
    var s := d + rest;
    assert s[0] == d[0] && IsDigit(s[0]);
    assert SkipSpace(s) == s;
    DigitRunAll(d, rest);
  }

  /** A minus sign, digits and non-digit text spell the negated digits. */
  lemma UnboundedNegative(d: string, rest: string)
    requires AllDigits(d)
    requires |rest| == 0 || !IsDigit(rest[0])
    ensures UnboundedIntval("-" + (d + rest)) == -(DigitsValue(d) as int)
  {
    var s := "-" + (d + rest);
    assert s[0] == '-';
    assert SkipSpace(s) == s;
    assert s[1..] == d + rest;
    DigitRunAll(d, rest);
  }

  /** A printed integer followed by non-digit text spells that integer. */
  lemma UnboundedOfInt(n: int, rest: string)
    requires |rest| == 0 || !IsDigit(rest[0])
    ensures UnboundedIntval(IntToString(n) + rest) == n
  {
    if n < 0 {
      var d := NatToString(-n);
      assert IntToString(n) + rest == "-" + (d + rest);
      UnboundedNegative(d, rest);
      DigitsOfNat(-n);
    } else {
      var d := NatToString(n);
      assert IntToString(n) + rest == d + rest;
      UnboundedDigits(d, rest);
      DigitsOfNat(n);
    }
  }

  /** `intval` reads back a printed integer, whatever non-digit text
      follows it, held to the integer range. */
  lemma IntvalOfInt(n: int, rest: string)
    requires |rest| == 0 || !IsDigit(rest[0])
    ensures Intval(IntToString(n) + rest) == Saturate(n)
  {
    UnboundedOfInt(n, rest);
  }

  /** A printed integer holds only a sign and digits. */
  lemma IntToStringChars(n: int)
    ensures forall c :: c in IntToString(n) ==> c == '-' || IsDigit(c)
  {
    var s := IntToString(n);
    if n < 0 {
      assert forall i :: 1 <= i < |s| ==> s[i] == NatToString(-n)[i - 1];
    }
  }
}

=== FILE: ordered_map.dfy ===
/**
 An insertion-ordered map with string keys: the shape shared by PHP arrays
 with string keys and by plain JavaScript objects. Assigning an existing key
 keeps its position and replaces its value; assigning a new key appends it.
 Both PHP's `array_merge` (string keys) and JavaScript's object spread are a
 left-to-right fold of that assignment, which is `Merge` below.
 */
module OrderedMap {

  datatype Option<+T> = None | Some(value: T)

  /** One key/value entry. */
  datatype Pair<+V> = Pair(key: string, val: V)

  type Map<V> = seq<Pair<V>>

  /** The keys, in insertion order. */
  function Keys<V>(m: Map<V>): (ks: seq<string>)
    ensures |ks| == |m|
  {
    if |m| == 0 then [] else [m[0].key] + Keys(m[1..])
  }

  predicate HasKey<V>(m: Map<V>, k: string)
  {
    |m| > 0 && (m[0].key == k || HasKey(m[1..], k))
  }

  lemma {:induction false} KeysIndex<V>(m: Map<V>, i: int)
    requires 0 <= i < |m|
    ensures Keys(m)[i] == m[i].key
  {
    if i > 0 {
      KeysIndex(m[1..], i - 1);
    }
  }

  /** `k` is a key iff some entry carries it. */
  lemma {:induction false} HasKeyIff<V>(m: Map<V>, k: string)
    ensures HasKey(m, k) <==> exists i :: 0 <= i < |m| && m[i].key == k
  {
    if |m| > 0 {
      HasKeyIff(m[1..], k);
      if HasKey(m[1..], k) {
        var i :| 0 <= i < |m[1..]| && m[1..][i].key == k;
        assert m[i + 1].key == k;
      }
      if i :| 0 < i < |m| && m[i].key == k {
        assert m[1..][i - 1].key == k;
      }
    }
  }

  lemma HasKeyAt<V>(m: Map<V>, i: int)
    requires 0 <= i < |m|
    ensures HasKey(m, m[i].key)
  {
    HasKeyIff(m, m[i].key);
  }

  lemma {:induction false} HasKeyAppend<V>(a: Map<V>, b: Map<V>, k: string)
    ensures HasKey(a + b, k) <==> HasKey(a, k) || HasKey(b, k)
  {
    if |a| > 0 {
      assert (a + b)[0] == a[0] && (a + b)[1..] == a[1..] + b;
      HasKeyAppend(a[1..], b, k);
    } else {
      assert a + b == b;
    }
  }

  /** Every key occurs once: the representation invariant of a real map. */
  predicate Distinct<V>(m: Map<V>)
  {
    forall i, j :: 0 <= i < j < |m| ==> m[i].key != m[j].key
  }

  lemma DistinctTail<V>(m: Map<V>)
    requires Distinct(m) && |m| > 0
    ensures Distinct(m[1..]) && !HasKey(m[1..], m[0].key)
  {
    forall i, j | 0 <= i < j < |m[1..]|
      ensures m[1..][i].key != m[1..][j].key
    {
      assert m[1..][i] == m[i + 1] && m[1..][j] == m[j + 1];
    }
    forall i | 0 <= i < |m[1..]|
      ensures m[1..][i].key != m[0].key
    {
      assert m[1..][i] == m[i + 1];
    }
    HasKeyIff(m[1..], m[0].key);
  }

  lemma DistinctCons<V>(p: Pair<V>, m: Map<V>)
    requires Distinct(m) && !HasKey(m, p.key)
    ensures Distinct([p] + m)
  {
    var r := [p] + m;
    forall i, j | 0 <= i < j < |r|
      ensures r[i].key != r[j].key
    {
      assert r[j] == m[j - 1];
      if i == 0 {
        HasKeyAt(m, j - 1);
      } else {
        assert r[i] == m[i - 1];
      }
    }
  }

  /** A concatenation has distinct keys iff both halves do and share none. */
  lemma DistinctAppend<V>(a: Map<V>, b: Map<V>)
    ensures Distinct(a + b) <==>
              Distinct(a) && Distinct(b) && forall i :: 0 <= i < |b| ==> !HasKey(a, b[i].key)
  {
    var ab := a + b;
    if Distinct(ab) {
      forall i, j | 0 <= i < j < |a| ensures a[i].key != a[j].key {
        assert ab[i] == a[i] && ab[j] == a[j];
      }
      forall i, j | 0 <= i < j < |b| ensures b[i].key != b[j].key {
        assert ab[|a| + i] == b[i] && ab[|a| + j] == b[j];
      }
      forall i | 0 <= i < |b| ensures !HasKey(a, b[i].key) {
        HasKeyIff(a, b[i].key);
        forall j | 0 <= j < |a| ensures a[j].key != b[i].key {
          assert ab[j] == a[j] && ab[|a| + i] == b[i];
        }
      }
    }
    if Distinct(a) && Distinct(b) && forall i :: 0 <= i < |b| ==> !HasKey(a, b[i].key) {
      forall i, j | 0 <= i < j < |ab| ensures ab[i].key != ab[j].key {
        if j < |a| {
          assert ab[i] == a[i] && ab[j] == a[j];
        } else if i >= |a| {
          assert ab[i] == b[i - |a|] && ab[j] == b[j - |a|];
        } else {
          assert ab[i] == a[i] && ab[j] == b[j - |a|];
          HasKeyAt(a, i);
        }
      }
    }
  }

  /** Value stored under `k`, read from its first occurrence. */
  function Lookup<V>(m: Map<V>, k: string): (r: Option<V>)
    ensures r.None? <==> !HasKey(m, k)
  {
    if |m| == 0 then None
    else if m[0].key == k then Some(m[0].val)
    else Lookup(m[1..], k)
  }

  lemma {:induction false} LookupAt<V>(m: Map<V>, i: int)
    requires Distinct(m)
    requires 0 <= i < |m|
    ensures Lookup(m, m[i].key) == Some(m[i].val)
  {
    if i > 0 {
      assert m[0].key != m[i].key;
      assert m[1..][i - 1] == m[i];
      DistinctTail(m);
      LookupAt(m[1..], i - 1);
    }
  }

  /** A value found under `k` is stored at some entry with that key. */
  lemma {:induction false} LookupSome<V>(m: Map<V>, k: string)
    requires Lookup(m, k).Some?
    ensures exists i :: 0 <= i < |m| && m[i].key == k && m[i].val == Lookup(m, k).value
  {
    if m[0].key != k {
      LookupSome(m[1..], k);
      var i :| 0 <= i < |m[1..]| && m[1..][i].key == k && m[1..][i].val == Lookup(m, k).value;
      assert m[i + 1] == m[1..][i];
    }
  }

  /** Assignment `m[k] = v`. */
  function Set<V>(m: Map<V>, k: string, v: V): (r: Map<V>)
    ensures Keys(r) == if HasKey(m, k) then Keys(m) else Keys(m) + [k]
    ensures Lookup(r, k) == Some(v)
    ensures forall k' :: k' != k ==> Lookup(r, k') == Lookup(m, k')
  {
    if |m| == 0 then [Pair(k, v)]
    else if m[0].key == k then
      [Pair(k, v)] + m[1..]
    else
      var rest := Set(m[1..], k, v);
      var r := [m[0]] + rest;
      assert r[0] == m[0] && r[1..] == rest;
      r
  }

  lemma {:induction false} SetHasKey<V>(m: Map<V>, k: string, v: V, k': string)
    ensures HasKey(Set(m, k, v), k') <==> HasKey(m, k') || k' == k
  {
    if |m| > 0 && m[0].key != k {
      var r := Set(m, k, v);
      assert r[0] == m[0] && r[1..] == Set(m[1..], k, v);
      SetHasKey(m[1..], k, v, k');
    }
  }

  lemma {:induction false} SetDistinct<V>(m: Map<V>, k: string, v: V)
    requires Distinct(m)
    ensures Distinct(Set(m, k, v))
  {
    if |m| > 0 {
      DistinctTail(m);
      if m[0].key == k {
        DistinctCons(Pair(k, v), m[1..]);
      } else {
        var rest := Set(m[1..], k, v);
        SetDistinct(m[1..], k, v);
        SetHasKey(m[1..], k, v, m[0].key);
        DistinctCons(m[0], rest);
      }
    }
  }

  lemma {:induction false} SetFresh<V>(m: Map<V>, k: string, v: V)
    requires !HasKey(m, k)
    ensures Set(m, k, v) == m + [Pair(k, v)]
  {
    if |m| > 0 {
      SetFresh(m[1..], k, v);
      assert [m[0]] + (m[1..] + [Pair(k, v)]) == m + [Pair(k, v)];
    }
  }

  /** Every value of the map satisfies `p`. */
  predicate AllValues<V>(m: Map<V>, p: V -> bool)
  {
    forall i :: 0 <= i < |m| ==> p(m[i].val)
  }

  lemma {:induction false} SetAllValues<V>(m: Map<V>, k: string, v: V, p: V -> bool)
    requires AllValues(m, p) && p(v)
    ensures AllValues(Set(m, k, v), p)
  {
    if |m| > 0 && m[0].key != k {
      var r := Set(m, k, v);
      assert r[0] == m[0] && r[1..] == Set(m[1..], k, v);
      assert AllValues(m[1..], p) by {
        assert forall i :: 0 <= i < |m[1..]| ==> m[1..][i] == m[i + 1];
      }
      SetAllValues(m[1..], k, v, p);
      assert forall i :: 1 <= i < |r| ==> r[i] == r[1..][i - 1];
    }
  }

  /** Copy every entry of `b`, in order, onto `a`: `array_merge($a, $b)`
      for string keys and `{ ...a, ...b }` in JavaScript. */
  function Merge<V>(a: Map<V>, b: Map<V>): (r: Map<V>)
    ensures |a| <= |r|
    ensures Keys(r)[..|a|] == Keys(a)
    decreases |b|
  {
    if |b| == 0 then a
    else
      var a' := Set(a, b[0].key, b[0].val);
      var r := Merge(a', b[1..]);
      assert Keys(r)[..|a|] == Keys(a') [..|a|];
      r
  }

  lemma {:induction false} MergeHasKey<V>(a: Map<V>, b: Map<V>, k: string)
    ensures HasKey(Merge(a, b), k) <==> HasKey(a, k) || HasKey(b, k)
    decreases |b|
  {
    if |b| > 0 {
      SetHasKey(a, b[0].key, b[0].val, k);
      MergeHasKey(Set(a, b[0].key, b[0].val), b[1..], k);
    }
  }

  lemma {:induction false} MergeDistinct<V>(a: Map<V>, b: Map<V>)
    requires Distinct(a)
    ensures Distinct(Merge(a, b))
    decreases |b|
  {
    if |b| > 0 {
      SetDistinct(a, b[0].key, b[0].val);
      MergeDistinct(Set(a, b[0].key, b[0].val), b[1..]);
    }
  }

  /** A later entry overrides an earlier one; keys only in `a` keep their value. */
  lemma {:induction false} MergeLookup<V>(a: Map<V>, b: Map<V>, k: string)
    requires Distinct(b)
    ensures Lookup(Merge(a, b), k) == if HasKey(b, k) then Lookup(b, k) else Lookup(a, k)
    decreases |b|
  {
    if |b| > 0 {
      DistinctTail(b);
      MergeLookup(Set(a, b[0].key, b[0].val), b[1..], k);
    }
  }

  /** Copying entries whose keys are new just appends them. */
  lemma {:induction false} MergeFresh<V>(a: Map<V>, b: Map<V>)
    requires Distinct(b)
    requires forall i :: 0 <= i < |b| ==> !HasKey(a, b[i].key)
    ensures Merge(a, b) == a + b
    decreases |b|
  {
    if |b| > 0 {
      var a' := a + [b[0]];
      SetFresh(a, b[0].key, b[0].val);
      MergeStep(a, b);
      FreshTail(a, b);
      MergeFresh(a', b[1..]);
      AppendStep(a, b);
    }
  }

  lemma MergeStep<V>(a: Map<V>, b: Map<V>)
    requires |b| > 0
    ensures Merge(a, b) == Merge(Set(a, b[0].key, b[0].val), b[1..])
  {
  }

  lemma AppendStep<V>(a: Map<V>, b: Map<V>)
    requires |b| > 0
    ensures (a + [b[0]]) + b[1..] == a + b
  {
    assert b == [b[0]] + b[1..];
  }

  lemma FreshTail<V>(a: Map<V>, b: Map<V>)
    requires Distinct(b) && |b| > 0
    requires forall i :: 0 <= i < |b| ==> !HasKey(a, b[i].key)
    ensures Distinct(b[1..])
    ensures forall i :: 0 <= i < |b[1..]| ==> !HasKey(a + [b[0]], b[1..][i].key)
  {
    DistinctTail(b);
    forall i | 0 <= i < |b[1..]|
      ensures !HasKey(a + [b[0]], b[1..][i].key)
    {
      var k := b[1..][i].key;
      assert b[1..][i] == b[i + 1];
      assert !HasKey([b[0]], k);
      HasKeyAppend(a, [b[0]], k);
    }
  }

  /** Merging onto nothing copies a map that has no repeated keys. */
  lemma MergeIntoEmpty<V>(b: Map<V>)
    requires Distinct(b)
    ensures Merge([], b) == b
  {
    MergeFresh([], b);
  }

  /** Merging two concatenated maps is merging one after the other. */
  lemma {:induction false} MergeConcat<V>(a: Map<V>, b: Map<V>, c: Map<V>)
    ensures Merge(a, b + c) == Merge(Merge(a, b), c)
    decreases |b|
  {
    if |b| > 0 {
      assert (b + c)[0] == b[0];
      assert (b + c)[1..] == b[1..] + c;
      MergeConcat(Set(a, b[0].key, b[0].val), b[1..], c);
    } else {
      assert b + c == c;
    }
  }
}

=== FILE: php_css_vars.dfy ===
/**
 `gutenberg_experimental_global_styles_get_css_vars` in lib/global-styles.php:
 the style tree flattened into CSS custom property names and their values.
 */
module PhpCssVars {
  import opened OrderedMap
  import opened StyleTree
  import opened Strings

  /** `str_replace('/', '-', $key)`. */
  function SanitizeKey(k: string): string
  {
    ReplaceAll(k, "/", "-")
  }

  /** Every '/' in a key becomes '-' and nothing else changes. */
  lemma {:induction false} SanitizeKeySpec(k: string)
    ensures |SanitizeKey(k)| == |k|
    ensures forall i :: 0 <= i < |k| ==> SanitizeKey(k)[i] == if k[i] == '/' then '-' else k[i]
    decreases |k|
  {
    var i := IndexOf(k, "/");
    if i >= 0 {
      var rest := k[i + 1..];
      SanitizeKeySpec(rest);
      var r := SanitizeKey(k);
      assert r == k[..i] + "-" + SanitizeKey(rest);
      forall j | 0 <= j < |k| ensures r[j] == if k[j] == '/' then '-' else k[j] {
        if j < i {
          assert !OccursAt(k, "/", j);
          assert k[j..j + 1] == [k[j]];
        } else if j > i {
          assert r[j] == SanitizeKey(rest)[j - i - 1];
          assert rest[j - i - 1] == k[j];
        }
      }
    } else {
      forall j | 0 <= j < |k| ensures k[j] != '/' {
        assert !OccursAt(k, "/", j);
        assert k[j..j + 1] == [k[j]];
      }
    }
  }

  lemma SanitizeKeyNoSlash(k: string)
    ensures '/' !in SanitizeKey(k)
  {
    SanitizeKeySpec(k);
  }

  /** The property name of one entry: prefix plus sanitised key. */
  function VarName(prefix: string, key: string): string
  {
    prefix + SanitizeKey(key)
  }

  /** The flattened tree: each scalar is stored under the names of its
      ancestors joined by `token`, through `array_merge` and assignment, so
      a later name that collides with an earlier one overwrites its value in
      place. */
  function CssVars(t: Tree, prefix: string, token: string): Map<Scalar>
    decreases t, 1
  {
    CssVarsFrom(t, prefix, token, [])
  }

  /** The `foreach` loop from the accumulated `$result` onward. */
  function CssVarsFrom(t: Tree, prefix: string, token: string, acc: Map<Scalar>): Map<Scalar>
    decreases t, 0
  {
    if |t| == 0 then acc
    else
      var name := VarName(prefix, t[0].key);
      var acc' := match t[0].val
        case Branch(kids) => Merge(acc, CssVars(kids, name + token, token))
        case Leaf(v) => Set(acc, name, v);
      CssVarsFrom(t[1..], prefix, token, acc')
  }

  /** Reference: every scalar of the tree with its full name, depth first
      in document order, without merging. */
  function Leaves(t: Tree, prefix: string, token: string): Map<Scalar>
    decreases t
  {
    if |t| == 0 then []
    else
      var name := VarName(prefix, t[0].key);
      (match t[0].val
        case Leaf(v) => [Pair(name, v)]
        case Branch(kids) => Leaves(kids, name + token, token))
      + Leaves(t[1..], prefix, token)
  }

  /** The names produced are exactly the full names of the scalars. */
  lemma {:induction false} CssVarsFromKeys(t: Tree, prefix: string, token: string, acc: Map<Scalar>, k: string)
    ensures HasKey(CssVarsFrom(t, prefix, token, acc), k) <==> HasKey(acc, k) || HasKey(Leaves(t, prefix, token), k)
    decreases t, 0
  {
    if |t| > 0 {
      var name := VarName(prefix, t[0].key);
      var here := match t[0].val
        case Leaf(v) => [Pair(name, v)]
        case Branch(kids) => Leaves(kids, name + token, token);
      var acc' := match t[0].val
        case Branch(kids) => Merge(acc, CssVars(kids, name + token, token))
        case Leaf(v) => Set(acc, name, v);
      CssVarsFromKeys(t[1..], prefix, token, acc', k);
      HasKeyAppend(here, Leaves(t[1..], prefix, token), k);
      match t[0].val {
        case Leaf(v) =>
          SetHasKey(acc, name, v, k);
        case Branch(kids) =>
          MergeHasKey(acc, CssVars(kids, name + token, token), k);
          CssVarsFromKeys(kids, name + token, token, [], k);
      }
    }
  }

  /** The result never holds a name twice. */
  lemma {:induction false} CssVarsFromDistinct(t: Tree, prefix: string, token: string, acc: Map<Scalar>)
    requires Distinct(acc)
    ensures Distinct(CssVarsFrom(t, prefix, token, acc))
    decreases t, 0
  {
    if |t| > 0 {
      var name := VarName(prefix, t[0].key);
      match t[0].val {
        case Leaf(v) =>
          SetDistinct(acc, name, v);
          CssVarsFromDistinct(t[1..], prefix, token, Set(acc, name, v));
        case Branch(kids) =>
          MergeDistinct(acc, CssVars(kids, name + token, token));
          CssVarsFromDistinct(t[1..], prefix, token, Merge(acc, CssVars(kids, name + token, token)));
      }
    }
  }

  /** Without collisions, flattening lists every scalar exactly once, in
      document order: the merging changes nothing. */
  lemma {:induction false} CssVarsFromExact(t: Tree, prefix: string, token: string, acc: Map<Scalar>)
    requires Distinct(acc + Leaves(t, prefix, token))
    ensures CssVarsFrom(t, prefix, token, acc) == acc + Leaves(t, prefix, token)
    decreases t, 0
  {
    if |t| > 0 {
      var name := VarName(prefix, t[0].key);
      var rest := Leaves(t[1..], prefix, token);
      match t[0].val {
        case Leaf(v) =>
          var here := [Pair(name, v)];
          assert acc + Leaves(t, prefix, token) == (acc + here) + rest;
          DistinctAppend(acc + here, rest);
          DistinctAppend(acc, here);
          assert here[0].key == name;
          SetFresh(acc, name, v);
          CssVarsFromExact(t[1..], prefix, token, acc + here);
        case Branch(kids) =>
          var here := Leaves(kids, name + token, token);
          assert acc + Leaves(t, prefix, token) == (acc + here) + rest;
          DistinctAppend(acc + here, rest);
          DistinctAppend(acc, here);
          assert here == [] + here;
          DistinctAppend([], here);
          CssVarsFromExact(kids, name + token, token, []);
          MergeFresh(acc, here);
          CssVarsFromExact(t[1..], prefix, token, acc + here);
      }
    }
  }

  /** With distinct full names, the flattened tree is the list of scalars. */
  lemma CssVarsExact(t: Tree, prefix: string, token: string)
    requires Distinct(Leaves(t, prefix, token))
    ensures CssVars(t, prefix, token) == Leaves(t, prefix, token)
  {
    assert [] + Leaves(t, prefix, token) == Leaves(t, prefix, token);
    CssVarsFromExact(t, prefix, token, []);
  }

  /** Every full name starts with the prefix. */
  lemma {:induction false} LeavesPrefix(t: Tree, prefix: string, token: string)
    ensures forall i :: 0 <= i < |Leaves(t, prefix, token)| ==> prefix <= Leaves(t, prefix, token)[i].key
    decreases t
  {
    if |t| > 0 {
      var name := VarName(prefix, t[0].key);
      var rest := Leaves(t[1..], prefix, token);
      LeavesPrefix(t[1..], prefix, token);
      match t[0].val {
        case Leaf(v) =>
        case Branch(kids) =>
          LeavesPrefix(kids, name + token, token);
          var here := Leaves(kids, name + token, token);
          forall i | 0 <= i < |here| ensures prefix <= here[i].key {
            assert prefix <= name + token;
          }
      }
      var all := Leaves(t, prefix, token);
      forall i | 0 <= i < |all| ensures prefix <= all[i].key {
        if i >= |all| - |rest| {
          assert all[i] == rest[i - (|all| - |rest|)];
        }
      }
    }
  }

  /** A key's '/' never reaches a name: with a prefix and token free of
      '/', no full name contains one. */
  lemma {:induction false} LeavesNoSlash(t: Tree, prefix: string, token: string)
    requires '/' !in prefix && '/' !in token
    ensures forall i :: 0 <= i < |Leaves(t, prefix, token)| ==> '/' !in Leaves(t, prefix, token)[i].key
    decreases t
  {
    if |t| > 0 {
      var name := VarName(prefix, t[0].key);
      SanitizeKeyNoSlash(t[0].key);
      assert '/' !in name;
      var rest := Leaves(t[1..], prefix, token);
      LeavesNoSlash(t[1..], prefix, token);
      if t[0].val.Branch? {
        assert '/' !in name + token;
        LeavesNoSlash(t[0].val.kids, name + token, token);
      }
      var all := Leaves(t, prefix, token);
      forall i | 0 <= i < |all| ensures '/' !in all[i].key {
        if i >= |all| - |rest| {
          assert all[i] == rest[i - (|all| - |rest|)];
        }
      }
    }
  }

  /** A key without '/' is its own sanitised form. */
  lemma SanitizeKeyIdentity(k: string)
    requires '/' !in k
    ensures SanitizeKey(k) == k
  {
    SanitizeKeySpec(k);
  }

  /** A scalar of the tree gives a property named after its key. */
  lemma {:induction false} LeavesHasLeaf(t: Tree, prefix: string, token: string, i: int)
    requires 0 <= i < |t| && t[i].val.Leaf?
    ensures HasKey(Leaves(t, prefix, token), VarName(prefix, t[i].key))
    decreases i
  {
    var name := VarName(prefix, t[0].key);
    var here := match t[0].val
      case Leaf(v) => [Pair(name, v)]
      case Branch(kids) => Leaves(kids, name + token, token);
    HasKeyAppend(here, Leaves(t[1..], prefix, token), VarName(prefix, t[i].key));
    if i > 0 {
      assert t[1..][i - 1] == t[i];
      LeavesHasLeaf(t[1..], prefix, token, i - 1);
    }
  }

  /** A property of a nested group is a property of the whole tree. */
  lemma {:induction false} LeavesHasNested(t: Tree, prefix: string, token: string, i: int, n: string)
    requires 0 <= i < |t| && t[i].val.Branch?
    requires HasKey(Leaves(t[i].val.kids, VarName(prefix, t[i].key) + token, token), n)
    ensures HasKey(Leaves(t, prefix, token), n)
    decreases i
  {
    var name := VarName(prefix, t[0].key);
    var here := match t[0].val
      case Leaf(v) => [Pair(name, v)]
      case Branch(kids) => Leaves(kids, name + token, token);
    HasKeyAppend(here, Leaves(t[1..], prefix, token), n);
    if i > 0 {
      assert t[1..][i - 1] == t[i];
      LeavesHasNested(t[1..], prefix, token, i - 1, n);
    }
  }

  /** A scalar at `group.key` is declared as prefix, group, token, key. */
  lemma NestedLeafNamed(t: Tree, prefix: string, token: string, group: string, key: string)
    requires '/' !in group && '/' !in key
    requires Lookup(t, group).Some? && Lookup(t, group).value.Branch?
    requires Lookup(Lookup(t, group).value.kids, key).Some?
    requires Lookup(Lookup(t, group).value.kids, key).value.Leaf?
    ensures HasKey(Leaves(t, prefix, token), prefix + group + token + key)
  {
    var kids := Lookup(t, group).value.kids;
    LookupSome(kids, key);
    var i2 :| 0 <= i2 < |kids| && kids[i2].key == key && kids[i2].val == Lookup(kids, key).value;
    LookupSome(t, group);
    var i1 :| 0 <= i1 < |t| && t[i1].key == group && t[i1].val == Lookup(t, group).value;
    SanitizeKeyIdentity(group);
    SanitizeKeyIdentity(key);
    var inner := VarName(prefix, group) + token;
    LeavesHasLeaf(kids, inner, token, i2);
    assert inner + key == prefix + group + token + key;
    LeavesHasNested(t, prefix, token, i1, inner + key);
  }

  lemma SanitizeExamples()
    ensures SanitizeKey("a/b") == "a-b" && SanitizeKey("a-b") == "a-b"
  {
    SanitizeKeySpec("a/b");
    SanitizeKeySpec("a-b");
    var x, y := SanitizeKey("a/b"), SanitizeKey("a-b");
    assert x[0] == 'a' && x[1] == '-' && x[2] == 'b';
    assert y[0] == 'a' && y[1] == '-' && y[2] == 'b';
  }

  /** Keys that differ only by '/' against '-' collide: the later value
      overwrites the earlier one and a single property remains. */
  lemma SlashCollision()
    ensures CssVars([Pair("a/b", Leaf(Str("x"))), Pair("a-b", Leaf(Str("y")))], "", "--") ==
              [Pair("a-b", Str("y"))]
  {
    var t := [Pair("a/b", Leaf(Str("x"))), Pair("a-b", Leaf(Str("y")))];
    SanitizeExamples();
    assert VarName("", "a/b") == "a-b";
    assert VarName("", "a-b") == "a-b";
    var acc := [Pair("a-b", Str("x"))];
    assert CssVarsFrom(t, "", "--", []) == CssVarsFrom(t[1..], "", "--", acc);
    assert CssVarsFrom(t[1..], "", "--", acc) == Set(acc, "a-b", Str("y"));
  }
}

=== FILE: php_generate.dfy ===
/**
 The derived typography tokens lib/global-styles.php adds before turning the
 tree into CSS custom properties: a heading line height, six heading font
 sizes on a modular scale, and a heading font weight.
 */
module PhpGenerate {
  import opened OrderedMap
  import opened StyleTree
  import opened Strings
  import opened Numbers
  import opened PhpMerge

  /** The parts of PHP this model does not compute, or that differ between
      PHP versions: `pow` with a real exponent, how a float is printed,
      how a string is read as a number by `*` and `pow`, and what a string
      offset reads.
      - `numeric` gives `None` for a string the arithmetic rejects. Under
        PHP 8 a non-numeric string such as "normal" is a TypeError, while
        PHP 7 reads every string as a number (0 for "normal", with a
        warning). So a PHP 7 reading is a `numeric` that never gives `None`.
      - `offset(s)` is what `$s['line-height']` reads from a string `$s`.
        The offset is not a number: PHP 7 reads `$s[0]` with a warning
        (see `Php7Offset`), and PHP 8 raises an error, which is `None`. */
  datatype PhpOps = PhpOps(pow: (real, real) -> real, show: real -> string,
                           numeric: string -> Option<real>, offset: string -> Option<string>)

  /** The PHP 7 string offset: the first character, or the empty string
      (with a notice) when there is none. */
  ghost predicate Php7Offset(ops: PhpOps)
  {
    forall s :: ops.offset(s) == Some(if |s| > 0 then s[..1] else "")
  }

  /** The hundredths nearest to `y * 100` given `f`, the floor of
      `y * 100 + 1/2`. */
  lemma NearestHundredth(y: real, f: int)
    requires f as real <= y * 100.0 + 0.5 < f as real + 1.0
    ensures -0.005 <= (f as real) / 100.0 - y <= 0.005
    ensures ((f as real) / 100.0 * 100.0).Floor == f
  {
    var r := (f as real) / 100.0;
    assert r * 100.0 == f as real;
  }

  /** Rounding a non-negative number to the nearest hundredth, halves up. */
  function RoundHalfUp(y: real): (r: real)
    requires y >= 0.0
    ensures (r * 100.0).Floor as real == r * 100.0
    ensures -0.005 <= r - y <= 0.005
    ensures r >= 0.0
  {
    var f := (y * 100.0 + 0.5).Floor;
    NearestHundredth(y, f);
    (f as real) / 100.0
  }

  /** PHP `round($x, 2)`: to the nearest hundredth, halves away from zero. */
  function Round2(x: real): (r: real)
    ensures (r * 100.0).Floor as real == r * 100.0
    ensures -0.005 <= r - x <= 0.005
    ensures x >= 0.0 ==> r >= 0.0
  {
    if x >= 0.0 then RoundHalfUp(x)
    else
      var q := RoundHalfUp(-x);
      NegatedHundredths(q);
      -q
  }

  lemma NegatedHundredths(q: real)
    requires (q * 100.0).Floor as real == q * 100.0
    ensures ((-q) * 100.0).Floor as real == (-q) * 100.0
  {
    var n := (q * 100.0).Floor;
    assert (-q) * 100.0 == (-n) as real;
  }

  /** PHP `intval` of a float: the integer part, truncated toward zero. */
  function Trunc(x: real): (r: int)
    ensures x >= 0.0 ==> 0.0 <= r as real <= x < r as real + 1.0
    ensures x < 0.0 ==> r as real - 1.0 < x <= r as real <= 0.0
  {
    if x >= 0.0 then x.Floor else -((-x).Floor)
  }

  /** PHP's string conversion of a scalar: `true` is "1", `false` and
      `null` are empty. */
  function PhpString(v: Scalar, ops: PhpOps): string
  {
    match v
    case Str(s) => s
    case Num(x) => ops.show(x)
    case Bool(b) => if b then "1" else ""
    case Null => ""
  }

  /** A value `*` and `pow` reject with a TypeError: an array, or a
      string `numeric` rejects. */
  predicate NotANumber(v: Option<Node>, ops: PhpOps)
  {
    v.Some? && (v.value.Branch? || (v.value.v.Str? && ops.numeric(v.value.v.s).None?))
  }

  /** The number PHP uses when a value meets `*` or `pow`: a missing entry
      reads as `null`, which counts as 0; a TypeError is `None`. */
  function PhpNumber(v: Option<Node>, ops: PhpOps): (r: Option<real>)
    ensures r.None? <==> NotANumber(v, ops)
    ensures v.None? ==> r == Some(0.0)
    ensures v.Some? && v.value.Leaf? && v.value.v.Num? ==> r == Some(v.value.v.n)
  {
    match v
    case None => Some(0.0)
    case Some(Branch(_)) => None
    case Some(Leaf(s)) =>
      match s
      case Num(x) => Some(x)
      case Bool(b) => Some(if b then 1.0 else 0.0)
      case Null => Some(0.0)
      case Str(text) => ops.numeric(text)
  }

  /** `intval(str_replace('px', '', $font_base))`. `str_replace` on an
      array gives an array, whose `intval` is 1 when it has entries. */
  function FontBase(v: Option<Node>, ops: PhpOps): int
  {
    match v
    case None => 0
    case Some(Branch(kids)) => if |kids| > 0 then 1 else 0
    case Some(Leaf(s)) => Intval(ReplaceAll(PhpString(s, ops), "px", ""))
  }

  /** `$tree['typography']`, when it is a string. */
  function TypographyText(t: Tree): Option<string>
  {
    var group := Lookup(t, "typography");
    if group.Some? && group.value.Leaf? && group.value.v.Str? then Some(group.value.v.s) else None
  }

  /** The entry `$tree['typography'][name]`, `None` when absent. When
      `typography` is a string this is the string offset `ops.offset`
      reads; any other scalar reads as `null`. */
  function TypographyValue(t: Tree, name: string, ops: PhpOps): Option<Node>
  {
    var group := Lookup(t, "typography");
    var text := TypographyText(t);
    if group.Some? && group.value.Branch? then Lookup(group.value.kids, name)
    else if text.Some? && ops.offset(text.value).Some? then Some(Leaf(Str(ops.offset(text.value).value)))
    else None
  }

  /** `typography` is a string whose offset read raises an error. */
  predicate OffsetFails(t: Tree, ops: PhpOps)
  {
    TypographyText(t).Some? && ops.offset(TypographyText(t).value).None?
  }

  const HeadingKeys: seq<string> := [
    "line-height-heading",
    "font-size-heading-1", "font-size-heading-2", "font-size-heading-3",
    "font-size-heading-4", "font-size-heading-5", "font-size-heading-6",
    "font-weight-heading"]

  /** One heading font size: the base size times the scale raised to the
      level's exponent, rounded to hundredths, with "px" appended. */
  function FontSize(base: int, scale: real, exponent: real, ops: PhpOps): Node
  {
    Leaf(Str(ops.show(Round2(ops.pow(scale, exponent) * base as real)) + "px"))
  }

  /** The eight derived entries, in the order the PHP array literal lists
      them, for a line height, base size, scale and weight. */
  function HeadingEntries(lh: real, base: int, scale: real, fw: real, ops: PhpOps): Tree
  {
    [ Pair("line-height-heading", Leaf(Num(Round2(lh * 0.8)))),
      Pair("font-size-heading-1", FontSize(base, scale, 5.0, ops)),
      Pair("font-size-heading-2", FontSize(base, scale, 4.0, ops)),
      Pair("font-size-heading-3", FontSize(base, scale, 3.0, ops)),
      Pair("font-size-heading-4", FontSize(base, scale, 2.0, ops)),
      Pair("font-size-heading-5", FontSize(base, scale, 1.0, ops)),
      Pair("font-size-heading-6", FontSize(base, scale, 0.5, ops)),
      Pair("font-weight-heading", Leaf(Num(Trunc(fw * 1.5) as real)))]
  }

  /** The derived entries read from a tree; `None` when reading the inputs
      raises an error, or when one of them is rejected by the arithmetic
      (a PHP TypeError). */
  function Heading(t: Tree, ops: PhpOps): Option<Tree>
  {
    if OffsetFails(t, ops) then None else
    var lh := PhpNumber(TypographyValue(t, "line-height", ops), ops);
    var scale := PhpNumber(TypographyValue(t, "font-scale", ops), ops);
    var fw := PhpNumber(TypographyValue(t, "font-weight", ops), ops);
    var base := FontBase(TypographyValue(t, "font-size", ops), ops);
    if lh.None? || scale.None? || fw.None? then None
    else Some(HeadingEntries(lh.value, base, scale.value, fw.value, ops))
  }

  lemma HeadingKeysDistinct()
    ensures forall i, j :: 0 <= i < j < |HeadingKeys| ==> HeadingKeys[i] != HeadingKeys[j]
  {
    forall i, j | 0 <= i < j < |HeadingKeys| ensures HeadingKeys[i] != HeadingKeys[j] {
      assert |HeadingKeys[i]| == 19 && |HeadingKeys[j]| == 19;
      if HeadingKeys[i][18] == HeadingKeys[j][18] {
        assert HeadingKeys[i][0] != HeadingKeys[j][0];
      }
    }
  }

  lemma HeadingEntriesKeys(d: Tree)
    requires |d| == |HeadingKeys|
    requires forall i :: 0 <= i < |d| ==> d[i].key == HeadingKeys[i]
    ensures Keys(d) == HeadingKeys && Distinct(d)
  {
    forall i | 0 <= i < |d| ensures Keys(d)[i] == HeadingKeys[i] {
      KeysIndex(d, i);
    }
    HeadingKeysDistinct();
  }

  lemma FontSizeEndsWithPx(base: int, scale: real, exponent: real, ops: PhpOps)
    ensures FontSize(base, scale, exponent, ops).v.Str?
    ensures EndsWith(FontSize(base, scale, exponent, ops).v.s, "px")
  {
    EndsWithAppend(ops.show(Round2(ops.pow(scale, exponent) * base as real)), "px");
  }

  /** The derived entries are exactly the eight heading tokens, each a
      scalar; the six font sizes are strings ending in "px". */
  lemma HeadingEntriesShape(lh: real, base: int, scale: real, fw: real, ops: PhpOps)
    ensures var d := HeadingEntries(lh, base, scale, fw, ops);
            && Keys(d) == HeadingKeys
            && WellFormedTree(d)
            && (forall i :: 0 <= i < |d| ==> d[i].val.Leaf? && Lookup(d, d[i].key) == Some(d[i].val))
            && (forall i :: 1 <= i <= 6 ==> d[i].val.v.Str? && EndsWith(d[i].val.v.s, "px"))
  {
    var d := HeadingEntries(lh, base, scale, fw, ops);
    HeadingEntriesKeys(d);
    HeadingLookups(d);
    HeadingSizesPx(lh, base, scale, fw, ops);
  }

  lemma HeadingLookups(d: Tree)
    requires Distinct(d)
    ensures forall i :: 0 <= i < |d| ==> Lookup(d, d[i].key) == Some(d[i].val)
  {
    forall i | 0 <= i < |d| ensures Lookup(d, d[i].key) == Some(d[i].val) {
      LookupAt(d, i);
    }
  }

  lemma HeadingSizesPx(lh: real, base: int, scale: real, fw: real, ops: PhpOps)
    ensures var d := HeadingEntries(lh, base, scale, fw, ops);
            forall i :: 1 <= i <= 6 ==> d[i].val.v.Str? && EndsWith(d[i].val.v.s, "px")
  {
    var d := HeadingEntries(lh, base, scale, fw, ops);
    var exponents := [5.0, 4.0, 3.0, 2.0, 1.0, 0.5];
    forall i | 1 <= i <= 6 ensures d[i].val.v.Str? && EndsWith(d[i].val.v.s, "px") {
      assert d[i].val == FontSize(base, scale, exponents[i - 1], ops);
      FontSizeEndsWithPx(base, scale, exponents[i - 1], ops);
    }
  }

  /** Generation fails exactly when reading the inputs raises an error (a
      string `typography` under PHP 8), or when the line height, scale or
      weight is not a number to PHP: an array, or a string the arithmetic
      rejects. */
  lemma HeadingFails(t: Tree, ops: PhpOps)
    ensures Heading(t, ops).None? <==>
              OffsetFails(t, ops) ||
              exists name :: name in ["line-height", "font-scale", "font-weight"] &&
                NotANumber(TypographyValue(t, name, ops), ops)
  {
    var names := ["line-height", "font-scale", "font-weight"];
    HeadingNone(t, ops);
    assert names[0] == "line-height" && names[1] == "font-scale" && names[2] == "font-weight";
    if OffsetFails(t, ops) {
    } else if Heading(t, ops).None? {
      if PhpNumber(TypographyValue(t, "line-height", ops), ops).None? {
        assert names[0] in names;
      } else if PhpNumber(TypographyValue(t, "font-scale", ops), ops).None? {
        assert names[1] in names;
      } else {
        assert names[2] in names;
      }
    } else {
      NumericInputs(t, ops, names);
    }
  }

  /** Under a PHP 7 reading, where every string is a number and a string
      offset never fails, generation fails exactly when the line height,
      scale or weight is an array. */
  lemma HeadingFailsPhp7(t: Tree, ops: PhpOps)
    requires forall text :: ops.numeric(text).Some?
    requires Php7Offset(ops)
    ensures Heading(t, ops).None? <==>
              exists name :: name in ["line-height", "font-scale", "font-weight"] &&
                TypographyValue(t, name, ops).Some? && TypographyValue(t, name, ops).value.Branch?
  {
    HeadingFails(t, ops);
  }

  /** A string `typography` under PHP 7, where the offset read of "5" is
      its first character "5" (as `Php7Offset` has it): every input reads
      as "5", so the line height is 5 and the heading line height is 4. */
  lemma HeadingOfStringTypography(t: Tree, ops: PhpOps)
    requires Lookup(t, "typography") == Some(Leaf(Str("5")))
    requires ops.offset("5") == Some("5")
    requires ops.numeric("5") == Some(5.0)
    ensures forall name :: TypographyValue(t, name, ops) == Some(Leaf(Str("5")))
    ensures Heading(t, ops).Some?
    ensures Lookup(Heading(t, ops).value, "line-height-heading") == Some(Leaf(Num(4.0)))
  {
    assert TypographyText(t) == Some("5");
    var base := FontBase(TypographyValue(t, "font-size", ops), ops);
    assert Heading(t, ops) == Some(HeadingEntries(5.0, base, 5.0, 5.0, ops));
    FourFifthsOfFive(base, ops);
  }

  lemma Php7OffsetOfFive(ops: PhpOps)
    requires Php7Offset(ops)
    ensures ops.offset("5") == Some("5")
  {
    assert ops.offset("5") == Some("5"[..1]);
    assert "5"[..1] == "5";
  }

  lemma FourFifthsOfFive(base: int, ops: PhpOps)
    ensures Lookup(HeadingEntries(5.0, base, 5.0, 5.0, ops), "line-height-heading") == Some(Leaf(Num(4.0)))
  {
    var d := HeadingEntries(5.0, base, 5.0, 5.0, ops);
    assert (5.0 * 0.8 * 100.0 + 0.5).Floor == 400;
    assert d[0] == Pair("line-height-heading", Leaf(Num(4.0)));
    HeadingEntriesKeys(d);
    LookupAt(d, 0);
  }

  lemma NumericInputs(t: Tree, ops: PhpOps, names: seq<string>)
    requires names == ["line-height", "font-scale", "font-weight"]
    requires forall j :: 0 <= j < |names| ==> PhpNumber(TypographyValue(t, names[j], ops), ops).Some?
    ensures forall name :: name in names ==> !NotANumber(TypographyValue(t, name, ops), ops)
  {
    forall name | name in names
      ensures !NotANumber(TypographyValue(t, name, ops), ops)
    {
      var j :| 0 <= j < |names| && names[j] == name;
      assert PhpNumber(TypographyValue(t, names[j], ops), ops).Some?;
    }
  }

  lemma HeadingNone(t: Tree, ops: PhpOps)
    ensures Heading(t, ops).None? <==>
              OffsetFails(t, ops) ||
              PhpNumber(TypographyValue(t, "line-height", ops), ops).None? ||
              PhpNumber(TypographyValue(t, "font-scale", ops), ops).None? ||
              PhpNumber(TypographyValue(t, "font-weight", ops), ops).None?
  {
  }

  lemma TruncThreeHalves(w: nat)
    ensures Trunc(w as real * 1.5) == (3 * w) / 2
  {
    var q := (3 * w) / 2;
    var rem := 3 * w - 2 * q;
    assert 0 <= rem <= 1;
    assert w as real * 1.5 == q as real + rem as real / 2.0;
  }

  /** For a whole-number weight the heading weight is one and a half times
      it, rounded down: 400 gives 600, 300 gives 450, 1 gives 1. */
  lemma HeadingWeightOfInteger(t: Tree, ops: PhpOps, w: nat)
    requires TypographyValue(t, "font-weight", ops) == Some(Leaf(Num(w as real)))
    requires Heading(t, ops).Some?
    ensures Lookup(Heading(t, ops).value, "font-weight-heading") == Some(Leaf(Num(((3 * w) / 2) as real)))
  {
    var d := Heading(t, ops).value;
    HeadingEntriesShape(PhpNumber(TypographyValue(t, "line-height", ops), ops).value,
      FontBase(TypographyValue(t, "font-size", ops), ops),
      PhpNumber(TypographyValue(t, "font-scale", ops), ops).value, w as real, ops);
    assert d[7].key == "font-weight-heading";
    TruncThreeHalves(w);
  }

  /** The heading line height is four fifths of the line height, to the
      hundredth: 1.5 gives 1.2. */
  lemma HeadingLineHeight(t: Tree, ops: PhpOps, lh: real)
    requires TypographyValue(t, "line-height", ops) == Some(Leaf(Num(lh)))
    requires Heading(t, ops).Some?
    ensures Lookup(Heading(t, ops).value, "line-height-heading").Some?
    ensures var v := Lookup(Heading(t, ops).value, "line-height-heading").value;
            v.Leaf? && v.v.Num? && -0.005 <= v.v.n - lh * 0.8 <= 0.005
    ensures lh == 1.5 ==> Lookup(Heading(t, ops).value, "line-height-heading") == Some(Leaf(Num(1.2)))
  {
    if lh == 1.5 {
      assert lh * 0.8 == 1.2;
      assert (1.2 * 100.0 + 0.5).Floor == 120;
    }
  }

  /** A font size written as whole pixels, such as "16px", is read as that
      number of pixels, held to the PHP integer range. */
  lemma FontBaseOfPixels(n: int, ops: PhpOps)
    ensures FontBase(Some(Leaf(Str(IntToString(n) + "px"))), ops) == Saturate(n)
    ensures PhpIntMin <= n <= PhpIntMax ==> FontBase(Some(Leaf(Str(IntToString(n) + "px"))), ops) == n
    ensures n > PhpIntMax ==> FontBase(Some(Leaf(Str(IntToString(n) + "px"))), ops) == PhpIntMax
  {
    var s := IntToString(n);
    IntToStringChars(n);
    ReplaceAllSuffix(s, "px");
    IntvalOfInt(n, "");
    assert s + "" == s;
  }

  /** Writing a group of scalar entries under `group` with
      `array_replace_recursive`: the group's entries are replaced or added,
      everything else is left as it was. */
  lemma WriteGroup(t: Tree, group: string, d: Tree)
    requires WellFormedTree(t) && WellFormedTree(d)
    requires forall i :: 0 <= i < |d| ==> d[i].val.Leaf?
    ensures var g := ReplaceRecursive(t, [Pair(group, Branch(d))]);
            && WellFormedTree(g)
            && |t| <= |g| && Keys(g)[..|t|] == Keys(t)
            && (forall k :: k != group ==> Lookup(g, k) == Lookup(t, k))
            && Lookup(g, group).Some? && Lookup(g, group).value.Branch?
            && forall k :: Lookup(Spread(Lookup(g, group)), k) ==
                 if HasKey(d, k) then Lookup(d, k) else Lookup(Spread(Lookup(t, group)), k)
  {
    var repl := [Pair(group, Branch(d))];
    assert WellFormedTree(repl);
    ReplaceRecursiveWellFormed(t, repl);
    ReplaceRecursiveKeys(t, repl);
    var g := ReplaceRecursive(t, repl);
    forall k | k != group ensures Lookup(g, k) == Lookup(t, k) {
      ReplaceRecursiveLookup(t, repl, k);
    }
    ReplaceRecursiveLookup(t, repl, group);
    var cur := Lookup(t, group);
    forall k ensures Lookup(Spread(Lookup(g, group)), k) ==
                       if HasKey(d, k) then Lookup(d, k) else Lookup(Spread(cur), k) {
      if cur.Some? && cur.value.Branch? {
        ReplaceRecursiveLookup(cur.value.kids, d, k);
        if HasKey(d, k) {
          HasKeyIff(d, k);
          var i :| 0 <= i < |d| && d[i].key == k;
          LookupAt(d, i);
        }
      }
    }
  }

  /** PHP `gutenberg_experimental_global_styles_generate_styles`: the
      derived entries are written into the `typography` group with
      `array_replace_recursive`, replacing same-named entries and leaving
      every other entry, at the top level and inside `typography`, as it was. */
  function GenerateStyles(t: Tree, ops: PhpOps): (r: Option<Tree>)
    requires WellFormedTree(t)
    ensures r.None? <==> Heading(t, ops).None?
    ensures r.Some? ==> WellFormedTree(r.value)
    ensures r.Some? ==> |t| <= |r.value| && Keys(r.value)[..|t|] == Keys(t)
    ensures r.Some? ==> forall k :: k != "typography" ==> Lookup(r.value, k) == Lookup(t, k)
    ensures r.Some? ==> Lookup(r.value, "typography").Some? && Lookup(r.value, "typography").value.Branch?
    ensures r.Some? ==> forall k ::
              Lookup(Spread(Lookup(r.value, "typography")), k) ==
                if HasKey(Heading(t, ops).value, k) then Lookup(Heading(t, ops).value, k)
                else Lookup(Spread(Lookup(t, "typography")), k)
  {
    match Heading(t, ops)
    case None => None
    case Some(d) =>
      HeadingEntriesShape(PhpNumber(TypographyValue(t, "line-height", ops), ops).value,
        FontBase(TypographyValue(t, "font-size", ops), ops),
        PhpNumber(TypographyValue(t, "font-scale", ops), ops).value,
        PhpNumber(TypographyValue(t, "font-weight", ops), ops).value, ops);
      WriteGroup(t, "typography", d);
      Some(ReplaceRecursive(t, [Pair("typography", Branch(d))]))
  }
}

=== FILE: php_merge.dfy ===
/**
 How lib/global-styles.php combines style layers: `array_replace_recursive`
 for the resolver (core, then theme, then user) and the shallow
 `array_merge` for the base styles handed to the editor.
 */
module PhpMerge {
  import opened OrderedMap
  import opened StyleTree

  /** The value `array_replace_recursive` stores for a key whose replacement
      is `v` and whose current value is `cur`: two arrays are merged
      recursively, otherwise the replacement wins outright. */
  function Replaced(cur: Option<Node>, v: Node): Node
    decreases v, 1
  {
    if v.Branch? && cur.Some? && cur.value.Branch? then
      Branch(ReplaceRecursive(cur.value.kids, v.kids))
    else v
  }

  /** PHP `array_replace_recursive($base, $repl)` on string-keyed arrays:
      each entry of `$repl`, in order, is stored into `$base`; an existing
      key keeps its position, a new one is appended. */
  function ReplaceRecursive(base: Tree, repl: Tree): Tree
    decreases repl, 0
  {
    if |repl| == 0 then base
    else
      var e := repl[0];
      ReplaceRecursive(Set(base, e.key, Replaced(Lookup(base, e.key), e.val)), repl[1..])
  }

  /** Key by key: a key of `repl` gets its replaced value, a key only in
      `base` keeps its value, and no other key appears. */
  lemma {:induction false} ReplaceRecursiveLookup(base: Tree, repl: Tree, k: string)
    requires Distinct(repl)
    ensures Lookup(ReplaceRecursive(base, repl), k) ==
              if HasKey(repl, k) then Some(Replaced(Lookup(base, k), Lookup(repl, k).value))
              else Lookup(base, k)
    decreases |repl|
  {
    if |repl| > 0 {
      var e := repl[0];
      var base' := Set(base, e.key, Replaced(Lookup(base, e.key), e.val));
      DistinctTail(repl);
      ReplaceRecursiveLookup(base', repl[1..], k);
    }
  }

  /** The keys of `base` stay first and in their order. */
  lemma {:induction false} ReplaceRecursiveKeys(base: Tree, repl: Tree)
    ensures |base| <= |ReplaceRecursive(base, repl)|
    ensures Keys(ReplaceRecursive(base, repl))[..|base|] == Keys(base)
    ensures forall k :: HasKey(ReplaceRecursive(base, repl), k) <==> HasKey(base, k) || HasKey(repl, k)
    decreases |repl|
  {
    if |repl| > 0 {
      var e := repl[0];
      var base' := Set(base, e.key, Replaced(Lookup(base, e.key), e.val));
      ReplaceRecursiveKeys(base', repl[1..]);
      forall k ensures HasKey(base', k) <==> HasKey(base, k) || k == e.key {
        SetHasKey(base, e.key, Replaced(Lookup(base, e.key), e.val), k);
      }
      assert Keys(base')[..|base|] == Keys(base);
    }
  }

  lemma {:induction false} ReplacedWellFormed(cur: Option<Node>, v: Node)
    requires cur.Some? ==> WellFormed(cur.value)
    requires WellFormed(v)
    ensures WellFormed(Replaced(cur, v))
    decreases v, 1
  {
    if v.Branch? && cur.Some? && cur.value.Branch? {
      ReplaceRecursiveWellFormed(cur.value.kids, v.kids);
    }
  }

  lemma {:induction false} ReplaceRecursiveWellFormed(base: Tree, repl: Tree)
    requires WellFormedTree(base) && WellFormedTree(repl)
    ensures WellFormedTree(ReplaceRecursive(base, repl))
    decreases repl, 0
  {
    if |repl| > 0 {
      var e := repl[0];
      WellFormedLookup(base, e.key);
      ReplacedWellFormed(Lookup(base, e.key), e.val);
      WellFormedSet(base, e.key, Replaced(Lookup(base, e.key), e.val));
      assert WellFormedTree(repl[1..]) by {
        DistinctTail(repl);
        assert forall i :: 0 <= i < |repl[1..]| ==> repl[1..][i] == repl[i + 1];
      }
      ReplaceRecursiveWellFormed(Set(base, e.key, Replaced(Lookup(base, e.key), e.val)), repl[1..]);
    }
  }

  /** The resolver's base tree: `array_replace_recursive(core, theme, user)`. */
  function Layers(core: Tree, theme: Tree, user: Tree): (r: Tree)
    requires WellFormedTree(core) && WellFormedTree(theme) && WellFormedTree(user)
    ensures WellFormedTree(r)
    ensures |theme| == 0 && |user| == 0 ==> r == core
    ensures forall k :: HasKey(r, k) <==> HasKey(core, k) || HasKey(theme, k) || HasKey(user, k)
  {
    ReplaceRecursiveWellFormed(core, theme);
    ReplaceRecursiveWellFormed(ReplaceRecursive(core, theme), user);
    ReplaceRecursiveKeys(core, theme);
    ReplaceRecursiveKeys(ReplaceRecursive(core, theme), user);
    ReplaceRecursive(ReplaceRecursive(core, theme), user)
  }

  /** The node reached from `n` by following `path`, if any. */
  function AtPath(n: Node, path: seq<string>): Option<Node>
    decreases |path|
  {
    if |path| == 0 then Some(n)
    else match Get(n, path[0])
      case None => None
      case Some(c) => AtPath(c, path[1..])
  }

  /** A scalar the later layer holds at some path is the resolved value at
      that path, whatever the earlier layer holds there. */
  lemma {:induction false} ReplaceRecursiveLeafWins(base: Tree, repl: Tree, path: seq<string>, v: Scalar)
    requires WellFormedTree(repl)
    requires AtPath(Branch(repl), path) == Some(Leaf(v))
    ensures AtPath(Branch(ReplaceRecursive(base, repl)), path) == Some(Leaf(v))
    decreases |path|
  {
    var k := path[0];
    var c := Lookup(repl, k).value;
    ReplaceRecursiveLookup(base, repl, k);
    WellFormedLookup(repl, k);
    if |path| > 1 {
      if c.Branch? {
        var cur := Lookup(base, k);
        if cur.Some? && cur.value.Branch? {
          ReplaceRecursiveLeafWins(cur.value.kids, c.kids, path[1..], v);
        }
      }
    }
  }

  /** Following a path from a mapping that holds `c` under the first
      segment is following the rest of the path from `c`. */
  lemma AtPathStep(n: Node, path: seq<string>, c: Node)
    requires |path| > 0 && Get(n, path[0]) == Some(c)
    ensures AtPath(n, path) == AtPath(c, path[1..])
  {
  }

  /** The later tree leaves `path` open: it holds no scalar on any proper
      prefix of `path` and nothing at `path` itself. */
  ghost predicate OpenAlong(t: Tree, path: seq<string>)
  {
    && (forall j :: 0 <= j < |path| ==> !(AtPath(Branch(t), path[..j]).Some? && AtPath(Branch(t), path[..j]).value.Leaf?))
    && AtPath(Branch(t), path).None?
  }

  /** One segment down both trees: a later tree that leaves `path` open
      holds a mapping under its first segment, and that mapping leaves the
      rest of the path open. */
  lemma {:induction false} OpenAlongStep(t: Tree, path: seq<string>, u: Node)
    requires OpenAlong(t, path)
    requires |path| > 0 && Lookup(t, path[0]) == Some(u)
    ensures |path| > 1 && u.Branch? && OpenAlong(u.kids, path[1..])
  {
    var k := path[0];
    assert path[..1] == [k];
    AtPathStep(Branch(t), path[..1], u);
    assert AtPath(Branch(t), path[..1]) == Some(u);
    forall j | 0 <= j < |path| - 1
      ensures AtPath(Branch(t), path[..j + 1]) == AtPath(u, path[1..][..j])
    {
      assert path[..j + 1][1..] == path[1..][..j];
      AtPathStep(Branch(t), path[..j + 1], u);
    }
    forall j | 0 <= j < |path[1..]|
      ensures !(AtPath(u, path[1..][..j]).Some? && AtPath(u, path[1..][..j]).value.Leaf?)
    {
      assert AtPath(Branch(t), path[..j + 1]) == AtPath(u, path[1..][..j]);
    }
    AtPathStep(Branch(t), path, u);
  }

  /** A scalar the earlier tree holds at some path survives the merge when
      the later tree leaves that path open. */
  lemma {:induction false} ReplaceRecursiveKeepsLeaf(base: Tree, repl: Tree, path: seq<string>, v: Scalar)
    requires WellFormedTree(repl)
    requires AtPath(Branch(base), path) == Some(Leaf(v))
    requires OpenAlong(repl, path)
    ensures AtPath(Branch(ReplaceRecursive(base, repl)), path) == Some(Leaf(v))
    decreases |path|
  {
    var k := path[0];
    var c := Lookup(base, k).value;
    AtPathStep(Branch(base), path, c);
    ReplaceRecursiveLookup(base, repl, k);
    if HasKey(repl, k) {
      var u := Lookup(repl, k).value;
      WellFormedLookup(repl, k);
      OpenAlongStep(repl, path, u);
      assert c.Branch?;
      ReplaceRecursiveKeepsLeaf(c.kids, u.kids, path[1..], v);
      AtPathStep(Branch(ReplaceRecursive(base, repl)), path, Branch(ReplaceRecursive(c.kids, u.kids)));
    } else {
      AtPathStep(Branch(ReplaceRecursive(base, repl)), path, c);
    }
  }

  /** With every layer present, a user scalar beats theme and core. */
  lemma LayersUserLeafWins(core: Tree, theme: Tree, user: Tree, path: seq<string>, v: Scalar)
    requires WellFormedTree(core) && WellFormedTree(theme) && WellFormedTree(user)
    requires AtPath(Branch(user), path) == Some(Leaf(v))
    ensures AtPath(Branch(Layers(core, theme, user)), path) == Some(Leaf(v))
  {
    ReplaceRecursiveLeafWins(ReplaceRecursive(core, theme), user, path, v);
  }

  /** A theme scalar beats core wherever the user layer leaves its path
      open: no user scalar on the way there and nothing at the end. */
  lemma LayersThemeLeafWins(core: Tree, theme: Tree, user: Tree, path: seq<string>, v: Scalar)
    requires WellFormedTree(core) && WellFormedTree(theme) && WellFormedTree(user)
    requires AtPath(Branch(theme), path) == Some(Leaf(v))
    requires forall j :: 0 <= j < |path| ==> !(AtPath(Branch(user), path[..j]).Some? && AtPath(Branch(user), path[..j]).value.Leaf?)
    requires AtPath(Branch(user), path).None?
    ensures AtPath(Branch(Layers(core, theme, user)), path) == Some(Leaf(v))
  {
    ReplaceRecursiveLeafWins(core, theme, path, v);
    ReplaceRecursiveKeepsLeaf(ReplaceRecursive(core, theme), user, path, v);
  }

  /** A top-level key present only in earlier layers keeps the value the
      earlier layers give it. */
  lemma LayersKeepsEarlier(core: Tree, theme: Tree, user: Tree, k: string)
    requires WellFormedTree(core) && WellFormedTree(theme) && WellFormedTree(user)
    requires !HasKey(user, k)
    ensures Lookup(Layers(core, theme, user), k) ==
              if HasKey(theme, k) then Some(Replaced(Lookup(core, k), Lookup(theme, k).value))
              else Lookup(core, k)
  {
    ReplaceRecursiveLookup(ReplaceRecursive(core, theme), user, k);
    ReplaceRecursiveLookup(core, theme, k);
  }

  /** The editor's base styles: `array_merge(core, theme)`, a shallow merge. */
  function BaseStyles(core: Tree, theme: Tree): (r: Tree)
    requires Distinct(theme)
    ensures forall k :: Lookup(r, k) == if HasKey(theme, k) then Lookup(theme, k) else Lookup(core, k)
  {
    forall k ensures Lookup(Merge(core, theme), k) ==
                       if HasKey(theme, k) then Lookup(theme, k) else Lookup(core, k) {
      MergeLookup(core, theme, k);
    }
    Merge(core, theme)
  }

  /** Where both layers hold a `color` group, the shallow merge keeps only
      the theme's group, while the resolver's recursive merge keeps the core
      fields the theme does not set. */
  lemma ShallowAndRecursiveDiffer()
    ensures var core := [Pair("color", Branch([Pair("text", Leaf(Str("black"))), Pair("background", Leaf(Str("white")))]))];
            var theme := [Pair("color", Branch([Pair("text", Leaf(Str("red")))]))];
            && Lookup(BaseStyles(core, theme), "color") == Some(Branch([Pair("text", Leaf(Str("red")))]))
            && Lookup(Layers(core, theme, []), "color") ==
                 Some(Branch([Pair("text", Leaf(Str("red"))), Pair("background", Leaf(Str("white")))]))
  {
    var core := [Pair("color", Branch([Pair("text", Leaf(Str("black"))), Pair("background", Leaf(Str("white")))]))];
    var theme := [Pair("color", Branch([Pair("text", Leaf(Str("red")))]))];
    var coreColor := core[0].val.kids;
    var themeColor := theme[0].val.kids;
    assert WellFormedTree(coreColor);
    assert WellFormedTree(themeColor);
    assert ReplaceRecursive(coreColor, themeColor) == Set(coreColor, "text", Leaf(Str("red")));
    assert Set(coreColor, "text", Leaf(Str("red"))) ==
             [Pair("text", Leaf(Str("red"))), Pair("background", Leaf(Str("white")))];
    assert ReplaceRecursive(core, theme) == Set(core, "color", Branch(ReplaceRecursive(coreColor, themeColor)));
  }
}

=== FILE: php_resolver.dfy ===
/**
 The server side of lib/global-styles.php: the resolver that turns the three
 style layers into one `:root` rule, the enqueue step, the body-class filters
 and the editor-settings filter. Theme support, the current screen and the
 stored user styles reach the model as parameters.
 */
module PhpResolver {
  import opened OrderedMap
  import opened StyleTree
  import opened Strings
  import opened PhpMerge
  import opened PhpGenerate
  import opened PhpCssVars

  const Token: string := "--"
  const Prefix: string := "--wp" + Token

  /** One declaration line of the rule, without its line break. */
  function Line(p: Pair<Scalar>, ops: PhpOps): string
  {
    "\t" + p.key + ": " + PhpString(p.val, ops) + ";"
  }

  function Lines(vars: Map<Scalar>, ops: PhpOps): (r: seq<string>)
    ensures |r| == |vars|
    ensures forall i :: 0 <= i < |vars| ==> r[i] == Line(vars[i], ops)
  {
    if |vars| == 0 then [] else [Line(vars[0], ops)] + Lines(vars[1..], ops)
  }

  /** The declarations, each followed by a line break. */
  function Declarations(vars: Map<Scalar>, ops: PhpOps): string
  {
    Terminated(Lines(vars, ops), '\n')
  }

  lemma {:induction false} TerminatedAppend(a: seq<string>, b: seq<string>, c: char)
    ensures Terminated(a + b, c) == Terminated(a, c) + Terminated(b, c)
    decreases |a|
  {
    if |a| == 0 {
      assert a + b == b;
    } else {
      assert (a + b)[0] == a[0] && (a + b)[1..] == a[1..] + b;
      TerminatedAppend(a[1..], b, c);
    }
  }

  /** The rule for a non-empty set of variables. */
  function Rule(vars: Map<Scalar>, ops: PhpOps): string
  {
    ":root {\n" + Declarations(vars, ops) + "}"
  }

  /** No name or value breaks a line. */
  predicate SingleLine(vars: Map<Scalar>, ops: PhpOps)
  {
    forall i :: 0 <= i < |vars| ==> '\n' !in Line(vars[i], ops)
  }

  /** Read back line by line, the rule is the opening line, one declaration
      per variable in order, and the closing brace. */
  lemma RuleLines(vars: Map<Scalar>, ops: PhpOps)
    requires SingleLine(vars, ops)
    ensures Split(Rule(vars, ops), '\n') == [":root {"] + Lines(vars, ops) + ["}"]
  {
    var ls := Lines(vars, ops);
    var body := Terminated(ls, '\n') + "}";
    assert forall i :: 0 <= i < |ls| ==> '\n' !in ls[i];
    SplitTerminated(ls, '\n', "}");
    SplitNone("}", '\n');
    assert Split(body, '\n') == ls + ["}"];
    RuleShape(vars, ops);
    OpeningLineNoBreak();
    SplitCons(":root {", '\n', body);
    assert [":root {"] + (ls + ["}"]) == [":root {"] + ls + ["}"];
  }

  lemma RuleShape(vars: Map<Scalar>, ops: PhpOps)
    ensures Rule(vars, ops) == ":root {" + ['\n'] + (Terminated(Lines(vars, ops), '\n') + "}")
  {
    assert ":root {\n" == ":root {" + ['\n'];
  }

  lemma OpeningLineNoBreak()
    ensures '\n' !in ":root {"
  {
    var o := ":root {";
    assert forall i :: 0 <= i < |o| ==> o[i] != '\n';
  }

  /** The variables of the resolved tree, or `None` when generation fails. */
  function ResolvedVars(core: Tree, theme: Tree, user: Tree, ops: PhpOps): (r: Option<Map<Scalar>>)
    requires WellFormedTree(core) && WellFormedTree(theme) && WellFormedTree(user)
    ensures r.None? <==> Heading(Layers(core, theme, user), ops).None?
    ensures r.Some? ==> Distinct(r.value)
  {
    match GenerateStyles(Layers(core, theme, user), ops)
    case None => None
    case Some(g) =>
      CssVarsFromDistinct(g, Prefix, Token, []);
      Some(CssVars(g, Prefix, Token))
  }

  /** `gutenberg_experimental_global_styles_resolver`; `None` is the fatal
      error generation raises: a string offset PHP rejects, or a line
      height, scale or weight that is `NotANumber`. */
  function Resolver(core: Tree, theme: Tree, user: Tree, ops: PhpOps): (r: Option<string>)
    requires WellFormedTree(core) && WellFormedTree(theme) && WellFormedTree(user)
    ensures r.None? <==> Heading(Layers(core, theme, user), ops).None?
  {
    match ResolvedVars(core, theme, user, ops)
    case None => None
    case Some(vars) => Some(if |vars| == 0 then "" else Rule(vars, ops))
  }

  lemma DeclarationsSnoc(vars: Map<Scalar>, i: int, ops: PhpOps)
    requires 0 <= i < |vars|
    ensures Declarations(vars[..i + 1], ops) == Declarations(vars[..i], ops) + Line(vars[i], ops) + "\n"
  {
    var line := Line(vars[i], ops);
    var before := Lines(vars[..i], ops);
    var after := Lines(vars[..i + 1], ops);
    assert after == before + [line] by {
      assert |after| == |before| + 1;
      forall k | 0 <= k < |after| ensures after[k] == (before + [line])[k] {
        assert vars[..i + 1][k] == vars[k];
        if k < i {
          assert vars[..i][k] == vars[k];
        }
      }
    }
    TerminatedAppend(before, [line], '\n');
    TerminatedOne(line, '\n');
  }

  lemma TerminatedOne(line: string, c: char)
    ensures Terminated([line], c) == line + [c]
  {
    assert [line][1..] == [];
  }

  /** The PHP loop that builds the rule: the opening line, then one line
      appended per variable, then the closing brace. */
  method BuildRule(vars: Map<Scalar>, ops: PhpOps) returns (rule: string)
    ensures rule == Rule(vars, ops)
  {
    rule := ":root {\n";
    var i := 0;
    while i < |vars|
      invariant 0 <= i <= |vars|
      invariant rule == ":root {\n" + Declarations(vars[..i], ops)
    {
      DeclarationsSnoc(vars, i, ops);
      rule := rule + Line(vars[i], ops) + "\n";
      i := i + 1;
    }
    assert vars[..i] == vars;
    rule := rule + "}";
  }

  /** The resolver as the PHP writes it, with an early return for an
      empty set of variables. */
  method ResolveCss(core: Tree, theme: Tree, user: Tree, ops: PhpOps) returns (css: Option<string>)
    requires WellFormedTree(core) && WellFormedTree(theme) && WellFormedTree(user)
    ensures css == Resolver(core, theme, user, ops)
  {
    var vars := ResolvedVars(core, theme, user, ops);
    if vars.None? {
      return None;
    }
    if |vars.value| == 0 {
      return Some("");
    }
    var rule := BuildRule(vars.value, ops);
    return Some(rule);
  }

  lemma HeadingKeysHaveNoSlash(j: int)
    requires 0 <= j < |HeadingKeys|
    ensures '/' !in HeadingKeys[j]
  {
    var k := HeadingKeys[j];
    assert |k| == 19;
    forall i | 0 <= i < 19 ensures k[i] != '/' {
      assert k[i] == '-' || 'a' <= k[i] <= 'z' || '1' <= k[i] <= '6';
    }
  }

  /** After generation the `typography` group holds every heading token
      as a scalar. */
  lemma GeneratedHeadingLeaf(t: Tree, ops: PhpOps, j: int)
    requires WellFormedTree(t)
    requires 0 <= j < |HeadingKeys|
    requires GenerateStyles(t, ops).Some?
    ensures var g := GenerateStyles(t, ops).value;
            && Lookup(g, "typography").Some? && Lookup(g, "typography").value.Branch?
            && Lookup(Lookup(g, "typography").value.kids, HeadingKeys[j]).Some?
            && Lookup(Lookup(g, "typography").value.kids, HeadingKeys[j]).value.Leaf?
  {
    var d := Heading(t, ops).value;
    HeadingEntriesShape(PhpNumber(TypographyValue(t, "line-height", ops), ops).value,
      FontBase(TypographyValue(t, "font-size", ops), ops),
      PhpNumber(TypographyValue(t, "font-scale", ops), ops).value,
      PhpNumber(TypographyValue(t, "font-weight", ops), ops).value, ops);
    KeysIndex(d, j);
    HasKeyAt(d, j);
  }

  lemma TypographyHasNoSlash()
    ensures '/' !in "typography"
  {
    var t := "typography";
    assert forall i :: 0 <= i < |t| ==> 'a' <= t[i] <= 'z';
  }

  lemma GroupPrefix(key: string)
    ensures Prefix + "typography" + Token + key == "--wp--typography--" + key
  {
    assert Prefix + "typography" + Token == "--wp--typography--";
  }

  /** Whenever generation succeeds, every derived heading token is declared
      as `--wp--typography--<token>`. */
  lemma ResolverDeclaresHeadings(core: Tree, theme: Tree, user: Tree, ops: PhpOps, j: int)
    requires WellFormedTree(core) && WellFormedTree(theme) && WellFormedTree(user)
    requires 0 <= j < |HeadingKeys|
    requires ResolvedVars(core, theme, user, ops).Some?
    ensures HasKey(ResolvedVars(core, theme, user, ops).value, "--wp--typography--" + HeadingKeys[j])
  {
    var base := Layers(core, theme, user);
    var g := GenerateStyles(base, ops).value;
    var key := HeadingKeys[j];
    GeneratedHeadingLeaf(base, ops, j);
    HeadingKeysHaveNoSlash(j);
    TypographyHasNoSlash();
    NestedLeafNamed(g, Prefix, Token, "typography", key);
    GroupPrefix(key);
    CssVarsFromKeys(g, Prefix, Token, [], "--wp--typography--" + key);
    assert ResolvedVars(core, theme, user, ops).value == CssVarsFrom(g, Prefix, Token, []);
  }

  /** The resolver's empty-result branch is never taken: a successful
      resolution always yields a rule. */
  lemma ResolverNeverEmpty(core: Tree, theme: Tree, user: Tree, ops: PhpOps)
    requires WellFormedTree(core) && WellFormedTree(theme) && WellFormedTree(user)
    requires Resolver(core, theme, user, ops).Some?
    ensures Resolver(core, theme, user, ops) == Some(Rule(ResolvedVars(core, theme, user, ops).value, ops))
  {
    ResolverDeclaresHeadings(core, theme, user, ops, 0);
  }

  /** What the enqueue step hands to WordPress. */
  datatype Enqueued = NotEnqueued | InlineStyle(css: string) | Fatal

  /** `gutenberg_experimental_global_styles_enqueue_assets`: nothing without
      theme support or with an empty rule, otherwise the rule as the inline
      style of the `global-styles` handle. */
  function EnqueueAssets(hasSupport: bool, core: Tree, theme: Tree, user: Tree, ops: PhpOps): (r: Enqueued)
    requires WellFormedTree(core) && WellFormedTree(theme) && WellFormedTree(user)
    ensures r.NotEnqueued? <==> !hasSupport
    ensures r.Fatal? <==> hasSupport && Heading(Layers(core, theme, user), ops).None?
    ensures r.InlineStyle? ==> Resolver(core, theme, user, ops) == Some(r.css) && r.css != ""
  {
    if !hasSupport then NotEnqueued
    else match Resolver(core, theme, user, ops)
      case None => Fatal
      case Some(css) =>
        ResolverNeverEmpty(core, theme, user, ops);
        if css == "" then NotEnqueued else InlineStyle(css)
  }

  /** `gutenberg_experimental_global_styles_enqueue_assets_editor`. */
  function EnqueueAssetsEditor(isSiteEditor: bool, hasSupport: bool, core: Tree, theme: Tree, user: Tree, ops: PhpOps): (r: Enqueued)
    requires WellFormedTree(core) && WellFormedTree(theme) && WellFormedTree(user)
    ensures !isSiteEditor ==> r.NotEnqueued?
    ensures isSiteEditor ==> r == EnqueueAssets(hasSupport, core, theme, user, ops)
  {
    if isSiteEditor then EnqueueAssets(hasSupport, core, theme, user, ops) else NotEnqueued
  }

  /** The id of the admin screen that hosts the site editor. */
  const SiteEditorScreen := "gutenberg_page_gutenberg-edit-site"

  /** `gutenberg_experimental_global_styles_is_site_editor`: the screen API
      exists and the current screen's id is the site editor page. */
  function IsSiteEditor(screenApiExists: bool, screenId: Option<string>): (r: bool)
    ensures r <==> screenApiExists && screenId == Some(SiteEditorScreen)
  {
    screenApiExists && screenId.Some? && screenId.value == SiteEditorScreen
  }

  /** The front-end `body_class` filter: `wp-gs` appended with theme support. */
  function BodyClassFrontEnd(classes: seq<string>, hasSupport: bool): (r: seq<string>)
    ensures |r| == if hasSupport then |classes| + 1 else |classes|
    ensures r[..|classes|] == classes
    ensures hasSupport ==> r[|classes|] == "wp-gs"
  {
    if hasSupport then classes + ["wp-gs"] else classes
  }

  /** The editor `admin_body_class` filter: " wp-gs" appended to the class
      string with theme support, in the site editor only. */
  function BodyClassEditor(classes: string, hasSupport: bool, isSiteEditor: bool): (r: string)
    ensures classes <= r
    ensures r == classes <==> !(hasSupport && isSiteEditor)
    ensures r != classes ==> r[|classes|..] == " wp-gs"
  {
    if hasSupport && isSiteEditor then classes + " wp-gs" else classes
  }

  const UserEntityIdKey: string := "__experimentalGlobalStylesUserEntityId"
  const BaseKey: string := "__experimentalGlobalStylesBase"

  /** `gutenberg_experimental_global_styles_settings`: in the site editor
      with theme support the user styles' post id and the shallow core+theme
      base are added to the block-editor settings; otherwise they pass
      through. */
  function Settings(settings: Tree, hasSupport: bool, isSiteEditor: bool, userEntityId: Scalar,
                    core: Tree, theme: Tree): (r: Tree)
    requires Distinct(theme)
    ensures !(hasSupport && isSiteEditor) ==> r == settings
    ensures hasSupport && isSiteEditor ==>
              && Lookup(r, UserEntityIdKey) == Some(Leaf(userEntityId))
              && Lookup(r, BaseKey) == Some(Branch(BaseStyles(core, theme)))
              && (forall k :: k != UserEntityIdKey && k != BaseKey ==> Lookup(r, k) == Lookup(settings, k))
              && |settings| <= |r| && Keys(r)[..|settings|] == Keys(settings)
  {
    if !(hasSupport && isSiteEditor) then settings
    else
      var s1 := Set(settings, UserEntityIdKey, Leaf(userEntityId));
      var s2 := Set(s1, BaseKey, Branch(BaseStyles(core, theme)));
      assert Keys(s2)[..|settings|] == Keys(settings);
      s2
  }
}

=== FILE: query_controls.dfy ===
/**
 `QueryControls` of packages/components/src/query-controls/index.js: which
 controls it renders for the callbacks it is given, the `orderBy/order`
 value of its order select, and the callbacks a selection fires.
 */
module QueryControls {
  import opened OrderedMap
  import opened Strings

  const DefaultMinItems := 1
  const DefaultMaxItems := 100
  const MaxTermsSuggestions := 20

  /** The select's option values, in the order they are listed. */
  const OrderOptions: seq<string> := ["date/desc", "date/asc", "title/asc", "title/desc"]

  /** The props that decide the output. A callback counts as supplied when
      it is truthy; an absent `minItems` or `maxItems` is `None`. */
  datatype Props = Props(
    onOrderChange: bool,
    onOrderByChange: bool,
    onCategoryChange: bool,
    onTagsChange: bool,
    onNumberOfItemsChange: bool,
    order: string,
    orderBy: string,
    minItems: Option<int>,
    maxItems: Option<int>)

  datatype Control =
    | OrderSelect(value: string, options: seq<string>)
    | CategorySelect
    | TagsField(maxSuggestions: nat)
    | ItemsRange(min: int, max: int)

  /** The select's value: `${ orderBy }/${ order }`. */
  function SelectValue(orderBy: string, order: string): (v: string)
    ensures |v| == |orderBy| + 1 + |order|
  {
    orderBy + "/" + order
  }

  /** The rendered array: four slots, each the control or the falsy value
      that React skips. */
  function Controls(p: Props): (r: seq<Option<Control>>)
    ensures |r| == 4
    ensures r[0].Some? <==> p.onOrderChange && p.onOrderByChange
    ensures r[1].Some? <==> p.onCategoryChange
    ensures r[2].Some? <==> p.onTagsChange
    ensures r[3].Some? <==> p.onNumberOfItemsChange
    ensures r[0].Some? ==> r[0].value.OrderSelect? && r[0].value.options == OrderOptions &&
                           Split(r[0].value.value, '/')[0] == Split(p.orderBy, '/')[0]
    ensures r[0].Some? ==> r[0].value == OrderSelect(SelectValue(p.orderBy, p.order), OrderOptions)
    ensures r[3].Some? ==> r[3].value.ItemsRange? &&
                           (p.minItems.Some? ==> r[3].value.min == p.minItems.value) &&
                           (p.maxItems.Some? ==> r[3].value.max == p.maxItems.value)
  {
    var min := if p.minItems.Some? then p.minItems.value else DefaultMinItems;
    var max := if p.maxItems.Some? then p.maxItems.value else DefaultMaxItems;
    var select := SelectValue(p.orderBy, p.order);
    SplitPrefix(p.orderBy, p.order);
    [ if p.onOrderChange && p.onOrderByChange then Some(OrderSelect(select, OrderOptions)) else None,
      if p.onCategoryChange then Some(CategorySelect) else None,
      if p.onTagsChange then Some(TagsField(MaxTermsSuggestions)) else None,
      if p.onNumberOfItemsChange then Some(ItemsRange(min, max)) else None ]
  }

  /** Splitting `a/b` starts with the first piece of `a`. */
  lemma SplitPrefix(a: string, b: string)
    ensures Split(SelectValue(a, b), '/')[0] == Split(a, '/')[0]
  {
    var s := SelectValue(a, b);
    var i := CharIndex(a, '/');
    if i == -1 {
      SplitCons(a, '/', b);
    } else {
      assert s[..|a|] == a;
      assert CharIndex(s, '/') == i by {
        assert s[i] == '/';
        assert s[..i] == a[..i];
      }
      assert s[..i] == a[..i];
    }
  }

  /** Without a range of their own the item bounds are 1 and 100. */
  lemma DefaultBounds(p: Props)
    requires p.onNumberOfItemsChange && p.minItems.None? && p.maxItems.None?
    ensures Controls(p)[3] == Some(ItemsRange(1, 100))
  {
  }

  /** A callback the select's `onChange` calls. `OrderChange(None)` passes
      `undefined`, from a value with no `/`. */
  datatype Callback = OrderChange(order: Option<string>) | OrderByChange(orderBy: string)

  /** `onChange( value )`: split on `/`, then call `onOrderChange` for a
      changed order and `onOrderByChange` for a changed orderBy, in that
      order. */
  function OnSelect(value: string, order: string, orderBy: string): (calls: seq<Callback>)
    ensures |calls| <= 2
    ensures forall i :: 0 <= i < |calls| && calls[i].OrderChange? ==> i == 0 && calls[i].order != Some(order)
    ensures forall i :: 0 <= i < |calls| && calls[i].OrderByChange? ==> calls[i].orderBy != orderBy
  {
    var parts := Split(value, '/');
    var newOrderBy := parts[0];
    var newOrder := if |parts| >= 2 then Some(parts[1]) else None;
    (if newOrder != Some(order) then [OrderChange(newOrder)] else []) +
    (if newOrderBy != orderBy then [OrderByChange(newOrderBy)] else [])
  }

  /** The select value splits back into its two parts when neither holds a `/`. */
  lemma SelectValueRoundTrip(orderBy: string, order: string)
    requires '/' !in orderBy && '/' !in order
    ensures Split(SelectValue(orderBy, order), '/') == [orderBy, order]
  {
    SplitJoinTwo(orderBy, order, '/');
  }

  /** Every listed option is the select value of its own two parts. */
  lemma OrderOptionsRoundTrip(i: nat)
    requires i < |OrderOptions|
    ensures var parts := Split(OrderOptions[i], '/');
            |parts| == 2 && SelectValue(parts[0], parts[1]) == OrderOptions[i]
  {
    var v := OrderOptions[i];
    if i == 0 {
      assert v == "date" + "/" + "desc";
      SelectValueRoundTrip("date", "desc");
    } else if i == 1 {
      assert v == "date" + "/" + "asc";
      SelectValueRoundTrip("date", "asc");
    } else if i == 2 {
      assert v == "title" + "/" + "asc";
      SelectValueRoundTrip("title", "asc");
    } else {
      assert v == "title" + "/" + "desc";
      SelectValueRoundTrip("title", "desc");
    }
  }

  /** Choosing `newOrderBy/newOrder`: `onOrderChange( newOrder )` fires iff
      the order changed, `onOrderByChange( newOrderBy )` iff the orderBy
      changed, and the order callback comes first. */
  lemma OnSelectFires(newOrderBy: string, newOrder: string, order: string, orderBy: string)
    requires '/' !in newOrderBy && '/' !in newOrder
    ensures var calls := OnSelect(SelectValue(newOrderBy, newOrder), order, orderBy);
            && (OrderChange(Some(newOrder)) in calls <==> newOrder != order)
            && (OrderByChange(newOrderBy) in calls <==> newOrderBy != orderBy)
            && |calls| == (if newOrder != order then 1 else 0) + (if newOrderBy != orderBy then 1 else 0)
            && (newOrder != order && newOrderBy != orderBy ==>
                  calls == [OrderChange(Some(newOrder)), OrderByChange(newOrderBy)])
  {
    SelectValueRoundTrip(newOrderBy, newOrder);
  }

  /** Re-selecting the current value fires nothing. */
  lemma ReselectIsQuiet(order: string, orderBy: string)
    requires '/' !in orderBy && '/' !in order
    ensures OnSelect(SelectValue(orderBy, order), order, orderBy) == []
  {
    OnSelectFires(orderBy, order, order, orderBy);
  }
}

=== FILE: strings.dfy ===
/**
 The string primitives that the global-styles code, the i18n eslint rule
 and the query controls use: JavaScript `indexOf`, `replace` with a string
 pattern, `split` on a one-character separator and `join`, and PHP
 `str_replace`.
 */
module Strings {

  /** `pat` occurs in `s` starting at position `i`. */
  predicate OccursAt(s: string, pat: string, i: int)
  {
    0 <= i && i + |pat| <= |s| && s[i..i + |pat|] == pat
  }

  predicate Contains(s: string, pat: string)
  {
    exists i | 0 <= i <= |s| :: OccursAt(s, pat, i)
  }

  /** First occurrence of `pat` at or after `from`, or -1: JavaScript
      `s.indexOf(pat)` when `from` is 0. */
  function IndexFrom(s: string, pat: string, from: nat): (r: int)
    ensures r == -1 || (from <= r && OccursAt(s, pat, r))
    ensures forall i :: from <= i && (r == -1 || i < r) ==> !OccursAt(s, pat, i)
    decreases |s| - from
  {
    if from + |pat| > |s| then -1
    else if s[from..from + |pat|] == pat then from
    else IndexFrom(s, pat, from + 1)
  }

  function IndexOf(s: string, pat: string): (r: int)
  {
    IndexFrom(s, pat, 0)
  }

  /** `IndexOf` finds an occurrence exactly when there is one, and it is the first. */
  lemma IndexOfSpec(s: string, pat: string)
    ensures IndexOf(s, pat) >= 0 <==> Contains(s, pat)
    ensures IndexOf(s, pat) >= 0 ==>
              OccursAt(s, pat, IndexOf(s, pat)) &&
              forall i :: 0 <= i < IndexOf(s, pat) ==> !OccursAt(s, pat, i)
  {
    var r := IndexOf(s, pat);
    if r >= 0 {
      assert OccursAt(s, pat, r);
    }
  }

  /** JavaScript `s.replace(pat, rep)` with a string pattern: only the first
      occurrence is replaced. */
  function ReplaceFirst(s: string, pat: string, rep: string): (r: string)
  {
    var i := IndexOf(s, pat);
    if i < 0 then s else s[..i] + rep + s[i + |pat|..]
  }

  /** PHP `str_replace(pat, rep, s)`: every non-overlapping occurrence,
      scanning left to right; an empty pattern changes nothing. */
  function ReplaceAll(s: string, pat: string, rep: string): (r: string)
    ensures !Contains(s, pat) ==> r == s
    decreases |s|
  {
    if |pat| == 0 then s
    else
      var i := IndexOf(s, pat);
      if i < 0 then s
      else s[..i] + rep + ReplaceAll(s[i + |pat|..], pat, rep)
  }

  /** JavaScript `parts.join(sep)`. */
  function Join(parts: seq<string>, sep: string): string
  {
    if |parts| == 0 then ""
    else if |parts| == 1 then parts[0]
    else parts[0] + sep + Join(parts[1..], sep)
  }

  function CharIndex(s: string, c: char): (r: int)
    ensures r == -1 ==> c !in s
    ensures r != -1 ==> 0 <= r < |s| && s[r] == c && c !in s[..r]
  {
    if |s| == 0 then -1
    else if s[0] == c then 0
    else
      var r := CharIndex(s[1..], c);
      if r == -1 then -1
      else
        assert s[..r + 1] == [s[0]] + s[1..][..r];
        r + 1
  }

  /** JavaScript `s.split(c)` for a one-character separator: the pieces
      between separators, one more than there are separators. */
  function Split(s: string, c: char): (parts: seq<string>)
    ensures |parts| >= 1
    ensures forall i :: 0 <= i < |parts| ==> c !in parts[i]
    decreases |s|
  {
    var i := CharIndex(s, c);
    if i < 0 then [s]
    else [s[..i]] + Split(s[i + 1..], c)
  }

  /** Joining the pieces with the separator gives the string back. */
  lemma {:induction false} SplitJoin(s: string, c: char)
    ensures Join(Split(s, c), [c]) == s
    decreases |s|
  {
    var i := CharIndex(s, c);
    if i >= 0 {
      SplitJoin(s[i + 1..], c);
      assert s == s[..i] + [c] + s[i + 1..];
    }
  }

  /** Separator-free pieces, joined, split back into exactly those pieces. */
  lemma {:induction false} JoinSplit(parts: seq<string>, c: char)
    requires |parts| >= 1
    requires forall i :: 0 <= i < |parts| ==> c !in parts[i]
    ensures Split(Join(parts, [c]), c) == parts
    decreases |parts|
  {
    if |parts| == 1 {
      SplitNone(parts[0], c);
    } else {
      assert forall i :: 0 <= i < |parts[1..]| ==> parts[1..][i] == parts[i + 1];
      JoinSplit(parts[1..], c);
      SplitCons(parts[0], c, Join(parts[1..], [c]));
      assert parts == [parts[0]] + parts[1..];
    }
  }

  /** Two separator-free pieces joined by the separator split back into
      exactly those two pieces. */
  lemma SplitJoinTwo(a: string, b: string, c: char)
    requires c !in a && c !in b
    ensures Split(a + [c] + b, c) == [a, b]
  {
    var s := a + [c] + b;
    var i := CharIndex(s, c);
    assert s[|a|] == c;
    assert s[..|a|] == a;
    assert i == |a|;
    assert s[i + 1..] == b;
  }

  /** Splitting at the first separator peels off the piece before it. */
  lemma SplitCons(a: string, c: char, rest: string)
    requires c !in a
    ensures Split(a + [c] + rest, c) == [a] + Split(rest, c)
  {
    var s := a + [c] + rest;
    assert s[|a|] == c;
    assert s[..|a|] == a;
    assert CharIndex(s, c) == |a|;
    assert s[|a| + 1..] == rest;
  }

  lemma SplitNone(s: string, c: char)
    requires c !in s
    ensures Split(s, c) == [s]
  {
  }

  /** Every piece followed by the separator: the text of a file of lines. */
  function Terminated(pieces: seq<string>, c: char): string
  {
    if |pieces| == 0 then "" else pieces[0] + [c] + Terminated(pieces[1..], c)
  }

  /** Separator-terminated pieces split back into those pieces. */
  lemma {:induction false} SplitTerminated(pieces: seq<string>, c: char, tail: string)
    requires forall i :: 0 <= i < |pieces| ==> c !in pieces[i]
    ensures Split(Terminated(pieces, c) + tail, c) == pieces + Split(tail, c)
    decreases |pieces|
  {
    if |pieces| == 0 {
      assert Terminated(pieces, c) + tail == tail;
    } else {
      var p0, ps := pieces[0], pieces[1..];
      var rest := Terminated(ps, c);
      TerminatedCons(pieces, c, tail);
      SplitCons(p0, c, rest + tail);
      assert forall i :: 0 <= i < |ps| ==> ps[i] == pieces[i + 1];
      SplitTerminated(ps, c, tail);
      ConsAppend(pieces, Split(tail, c));
    }
  }

  lemma TerminatedCons(pieces: seq<string>, c: char, tail: string)
    requires |pieces| > 0
    ensures Terminated(pieces, c) + tail == pieces[0] + [c] + (Terminated(pieces[1..], c) + tail)
  {
  }

  lemma ConsAppend<T>(xs: seq<T>, ys: seq<T>)
    requires |xs| > 0
    ensures [xs[0]] + (xs[1..] + ys) == xs + ys
  {
    assert xs == [xs[0]] + xs[1..];
  }

  predicate EndsWith(s: string, suffix: string)
  {
    |suffix| <= |s| && s[|s| - |suffix|..] == suffix
  }

  lemma EndsWithAppend(s: string, suffix: string)
    ensures EndsWith(s + suffix, suffix)
  {
    assert (s + suffix)[|s|..] == suffix;
  }

  /** When the pattern's first character does not occur in `a`, the first
      occurrence in `a + pat + b` is the one right after `a`. */
  lemma IndexOfAfter(a: string, pat: string, b: string)
    requires |pat| > 0 && pat[0] !in a
    ensures IndexOf(a + pat + b, pat) == |a|
  {
    var t := a + pat + b;
    forall i | 0 <= i < |a| ensures !OccursAt(t, pat, i) {
      assert t[i] == a[i] && a[i] != pat[0];
      if i + |pat| <= |t| {
        assert t[i..i + |pat|][0] == t[i];
      }
    }
    assert t[|a|..|a| + |pat|] == pat;
    assert OccursAt(t, pat, |a|);
  }

  /** Only the first occurrence goes: `replace` leaves any later one. */
  lemma ReplaceFirstAfter(a: string, pat: string, b: string, rep: string)
    requires |pat| > 0 && pat[0] !in a
    ensures ReplaceFirst(a + pat + b, pat, rep) == a + rep + b
  {
    IndexOfAfter(a, pat, b);
    var t := a + pat + b;
    assert t[..|a|] == a;
    assert t[|a| + |pat|..] == b;
  }

  /** Removing every occurrence of a suffix whose first character is not in
      `s` gives `s` back. */
  lemma ReplaceAllSuffix(s: string, pat: string)
    requires |pat| > 0 && pat[0] !in s
    ensures ReplaceAll(s + pat, pat, "") == s
  {
    IndexOfAfter(s, pat, "");
    assert s + pat + "" == s + pat;
    var t := s + pat;
    assert t[..|s|] == s;
    assert t[|s| + |pat|..] == "";
  }
}

=== FILE: style_tree.dfy ===
/**
 The global-styles tree: a nested, insertion-ordered mapping from string keys
 to scalars or further mappings, as decoded from the style JSON documents on
 either side (a PHP array, a JavaScript object).
 */
module StyleTree {
  import opened OrderedMap

  /** A leaf value. `Num` holds any JSON number exactly; how a number is
      printed is left to the callers that need it. */
  datatype Scalar = Str(s: string) | Num(n: real) | Bool(b: bool) | Null

  datatype Node = Leaf(v: Scalar) | Branch(kids: Map<Node>)

  type Tree = Map<Node>

  /** Every mapping in the tree, at every depth, has distinct keys. */
  predicate WellFormed(n: Node)
  {
    match n
    case Leaf(_) => true
    case Branch(kids) => WellFormedTree(kids)
  }

  predicate WellFormedTree(t: Tree)
  {
    Distinct(t) && forall i :: 0 <= i < |t| ==> WellFormed(t[i].val)
  }

  /** Property access `node.key` in JavaScript and `$node['key']` in PHP
      when it yields something: only a mapping has properties. */
  function Get(n: Node, key: string): (r: Option<Node>)
    ensures n.Leaf? ==> r.None?
    ensures n.Branch? ==> r == Lookup(n.kids, key)
  {
    match n
    case Leaf(_) => None
    case Branch(kids) => Lookup(kids, key)
  }

  /** The own entries copied by an object spread `{ ...x }`: a mapping gives
      its entries; `undefined`, `null`, numbers and booleans give none. A
      string would give one entry per character and is read here as giving
      none too. */
  function Spread(n: Option<Node>): (r: Tree)
    ensures n.Some? && n.value.Branch? ==> r == n.value.kids
    ensures (n.None? || n.value.Leaf?) ==> r == []
  {
    match n
    case Some(Branch(kids)) => kids
    case _ => []
  }

  lemma WellFormedLookup(t: Tree, k: string)
    requires WellFormedTree(t)
    ensures Lookup(t, k).Some? ==> WellFormed(Lookup(t, k).value)
  {
    if |t| > 0 && t[0].key != k {
      assert WellFormedTree(t[1..]) by {
        DistinctTail(t);
        assert forall i :: 0 <= i < |t[1..]| ==> t[1..][i] == t[i + 1];
      }
      WellFormedLookup(t[1..], k);
    }
  }

  lemma WellFormedGet(n: Node, k: string)
    requires WellFormed(n)
    ensures Get(n, k).Some? ==> WellFormed(Get(n, k).value)
  {
    if n.Branch? {
      WellFormedLookup(n.kids, k);
    }
  }

  lemma WellFormedSet(t: Tree, k: string, n: Node)
    requires WellFormedTree(t) && WellFormed(n)
    ensures WellFormedTree(Set(t, k, n))
  {
    SetDistinct(t, k, n);
    if |t| > 0 && t[0].key != k {
      var r := Set(t, k, n);
      assert r[0] == t[0] && r[1..] == Set(t[1..], k, n);
      assert WellFormedTree(t[1..]) by {
        DistinctTail(t);
        assert forall i :: 0 <= i < |t[1..]| ==> t[1..][i] == t[i + 1];
      }
      WellFormedSet(t[1..], k, n);
      assert forall i :: 1 <= i < |r| ==> r[i] == r[1..][i - 1];
    }
  }

  lemma WellFormedMerge(a: Tree, b: Tree)
    requires WellFormedTree(a) && WellFormedTree(b)
    ensures WellFormedTree(Merge(a, b))
    decreases |b|
  {
    if |b| > 0 {
      WellFormedSet(a, b[0].key, b[0].val);
      assert WellFormedTree(b[1..]) by {
        DistinctTail(b);
        assert forall i :: 0 <= i < |b[1..]| ==> b[1..][i] == b[i + 1];
      }
      WellFormedMerge(Set(a, b[0].key, b[0].val), b[1..]);
    }
  }
}
